=== FILE: README.md ===
# Certificate Transparency log lists and CCADB owners, in Dafny

This project models the data-reconciliation core of a small site. The site
compares the Certificate Transparency log lists that Apple and Google
publish, and summarises the CCADB certificate records by CA owner. The model
covers three parts of the program:

- **`js/ct.js`, the browser merge.** It covers:
  - the description normaliser (`dropPrefix`, `dropSuffix`,
    `normalizeDescription`, with its four regular-expression replacements);
  - the state and interval readers (`normalizeState`,
    `normalizeTemporalInterval`);
  - the per-log merge `mergeLog`, and `normalizeLog` for a log only one feed
    lists;
  - the url index `mapData`, and the feed merge `dataMerge`.
- **`render.py`, the server-side renderer.** It covers:
  - the short log name `log_name`;
  - the flattening generator `flatten_logs`;
  - `all_keys`, `cond_get`, `merge_state_conflict` and `merge_item`;
  - `merge_log` and the list merge `merge_log_lists`.
- **`fetch.py`, the pure part of `convert_ccadb_csv_to_json`.** It covers:
  - reading and cleaning each CSV row, including the `AttributeError` a line longer than the header causes;
  - grouping records by `CA Owner`;
  - the sorted, de-duplicated country list;
  - the four trust counters;
  - the owner list sorted by name, and the totals;
  - the safe per-owner file name.

The modules are these:

| module | contents |
|---|---|
| `Results` | JavaScript exceptions and Python exceptions, as one error type (`TypeError`, `KeyError`, `IndexError`, `AttributeError`) in a `Result`. |
| `Text` | The string operations that the code calls: JavaScript `trim`, Python `strip` and `rstrip`, `startsWith`, `removeprefix`, Python's string order. |
| `Json` | One value type for parsed JSON in both languages. `Undefined` exists only in JavaScript. A missing entry read with `dict.get` is `None`. |
| `Json.Dict` | An insertion-ordered map, standing for a JavaScript `Map`, the entries of a JavaScript object, or a Python `dict`. |
| `Records` | Building a map by folding over keys, each key giving a list of writes; a later write to a name wins, as `Map.set` and `d[k] = v` do. |
| `CtDescription`, `CtMerge`, `CtIndex` | `js/ct.js`. |
| `RenderName`, `RenderFlatten`, `RenderMerge` | `render.py`. |
| `Grouping` | Counting, grouping by key, sorted distinct values and a stable insertion sort, all generic over the key function. |
| `Ccadb` | `fetch.py`. |

Exceptions are values, not preconditions. A `TypeError` in JavaScript (for
example `undefined.keys()`) or in Python (for example `None + str`) is an
`Err`. So are a `KeyError` from indexing a dict and an `AttributeError` from
calling a method on the wrong type. Both directions are proved wherever the
code defines success: an operation succeeds exactly when its inputs have the
stated shape.

Three behaviours of the code are easy to misread:

- **A field only one feed has.** `mergeLog` (`js/ct.js:130-136`) writes it
  under `k_apple` and `k_google`, with `undefined` on the missing side. It
  does not store it under the bare `k`. `CtMerge.MergeLogPlainKey` states
  the code's behaviour.
- **Equality of nested values.** `mergeLog` compares values with `===`. Two
  objects or arrays from the two separately parsed feeds are therefore never
  equal: `Json.StrictEq` compares references, not contents.
- **Logs only Apple lists.** The comments "// apple only" and "// Merge if
  in both:" at `js/ct.js:192` and `js/ct.js:196` show that the call to
  `mergeLog` was meant to sit in an `else` after the Apple-only branch. The
  code has no `else`, so it falls through to `mergeLog(v, undefined)` as
  well. This is recorded under Findings.

## Model

| member | source | states |
|---|---|---|
| CtDescription.DropPrefix | js/ct.js:1-6 | The result is trimmed and is a contiguous piece of the input; when the prefix is absent it is just the trimmed input. |
| CtDescription.DropPrefixHit | js/ct.js:1-6 | A trimmed `t` behind the prefix, with or without one space between them, comes back exactly. |
| CtDescription.DropPrefixAbsent | js/ct.js:1-6 | A trimmed string that differs from the prefix at some position comes back unchanged. |
| CtDescription.DropSuffix | js/ct.js:8-13 | Mirror of `DropPrefix` for the end of the string. |
| CtDescription.DropSuffixHit | js/ct.js:8-13 | A trimmed `t` before the suffix, with or without one space between them, comes back exactly. |
| CtDescription.DropSuffixAbsent | js/ct.js:8-13 | A trimmed string that differs from the suffix at some position comes back unchanged. |
| CtDescription.FirstIndex | js/ct.js:19-23 | Leftmost-match search: the returned index satisfies the pattern and no earlier index does, or there is no match. |
| CtDescription.LowerHalfYear | js/ct.js:19 | No `20xxH1`/`20xxH2` match leaves the text unchanged; otherwise only the `H` of the leftmost match becomes `h`. |
| CtDescription.LowerYearLetter | js/ct.js:20-21 | No `20xxA` (resp. `B`) match leaves the text unchanged; otherwise only the letter of the leftmost match is lowered. |
| CtDescription.ReplaceLogTwo | js/ct.js:23 | No `' log #2` leaves the text unchanged; otherwise the leftmost occurrence alone becomes `-2`. |
| CtDescription.RemoveYearSpaces | js/ct.js:25 | The global replacement never lengthens the text. |
| CtDescription.RemoveYearSpacesUnchanged | js/ct.js:25 | Text in which no space precedes a `20xx` year is left unchanged by the global replacement. |
| CtDescription.DropOperator | js/ct.js:1-6 | `dropPrefix` with the operator as a value: it throws a `TypeError` exactly when the operator is `undefined` or `null` and the text starts with its string form. A string operator is dropped as a prefix. An array drops as many characters as it has elements. Any other operator drops nothing. The result is trimmed and is a piece of the input. |
| CtDescription.NormalizeDescription | js/ct.js:15-48 | It throws a `TypeError` exactly when the operator is `undefined` or `null` and the text reaching line 31 starts with the operator's string form. Otherwise a non-empty description never normalises to the empty string, and the answer is the original text or a trimmed non-empty remainder. |
| CtDescription.NormalizeQuoted | js/ct.js:15-48 | `<operator> '<name>' log` normalises to `<name>` whenever the operator and the name are non-empty, trimmed and free of digits, the description does not start with one of the operator names ct.js strips (`Symantec`, `Up In The Air`, `Trust Asia`, `Nordu`), and the name does not start with `Log`, `log` or `CT Log`, which the later prefix removals would strip. |
| CtDescription.NormalizeOperatorLog | js/ct.js:42-45 | `<operator> log` strips to nothing, so it normalises to itself. |
| CtDescription.ArgonExample | js/ct.js:15-48 | `Google 'Argon2022H1' log` and `Google 'Argon2022h1' log` both normalise to `Argon2022h1` under operator `Google`. |
| CtMerge.NormalizeState | js/ct.js:50-62 | Reading a state gives its first key and that entry's `timestamp`; a null or undefined state, an empty state, or a null or undefined first entry throws. |
| CtMerge.StateRoundTrip | js/ct.js:50-62 | Reading back a state built from a status and a timestamp gives that status and timestamp. |
| CtMerge.NormalizeTemporalInterval | js/ct.js:64-72 | An absent interval gives two `undefined`s, an object gives its two bounds, and `null` is the only input that throws. |
| CtMerge.IntervalRoundTrip | js/ct.js:64-72 | Reading back an interval built from two bounds gives those bounds. |
| CtMerge.UnionKeys | js/ct.js:79 | The set union of the two key lists: membership is exactly "in either", and distinct inputs give a distinct result. |
| CtMerge.MergeKey | js/ct.js:80-136 | Merging one key succeeds exactly when the values have the shape its branch reads, and writes only names the key owns. |
| CtMerge.MergeLogOk | js/ct.js:74-140 | `mergeLog` succeeds exactly when every key of either log can be merged. Both descriptions must be strings whose normalisation does not throw under the operator: Apple's when truthy, else Google's. Both intervals must be non-null, and both states readable. |
| CtMerge.MergeLogDropsNested | js/ct.js:89-128 | A merged log never holds `state` or `temporal_interval`. |
| CtMerge.MergeLogPlainKey | js/ct.js:130-136 | An ordinary key is stored once when the two values are strictly equal, otherwise under `_apple` and `_google`, never under the bare key. |
| CtMerge.MergeLogDescription | js/ct.js:84-87 | Both descriptions are strings and both normalise under the operator value, which is Apple's when truthy and Google's otherwise. The normalised texts are stored once when equal, otherwise under `_apple` and `_google`. |
| CtMerge.MergeLogState | js/ct.js:110-127 | The status and the timestamp are each stored once when they agree, otherwise under `apple_` and `google_` names. |
| CtMerge.MergeLogInterval | js/ct.js:89-107 | The start and the end are each stored once when they agree, otherwise under `apple_` and `google_` names. |
| CtMerge.NormalizeLogOk | js/ct.js:143-170 | `normalizeLog` succeeds exactly under three conditions. A present description is a string whose normalisation under the log's own `operator` does not throw. A present interval is not `null`. A present state can be read. |
| CtMerge.NormalizeLogPlainKey | js/ct.js:166 | An ordinary field is copied unchanged, with no suffixed copies. |
| CtMerge.NormalizeLogState | js/ct.js:158-163 | A state becomes `status` and `timestamp`. |
| CtMerge.NormalizeLogInterval | js/ct.js:150-156 | An interval becomes `start` and `end`. |
| CtMerge.NormalizeLogDropsNested | js/ct.js:150-164 | A normalised log never holds `state` or `temporal_interval`. |
| CtMerge.MergeLog | js/ct.js:74-140 | The merged log is a well-formed map. |
| CtMerge.NormalizeLog | js/ct.js:143-170 | The normalised log is a well-formed map. |
| CtMerge.MergeLogSelf | js/ct.js:74-170 | Merging a log of plain values with itself is the same as normalising it. |
| CtIndex.AddOperators | js/ct.js:172-183 | The index holds exactly the listed urls; a url keeps the last log listed under it, tagged with its operator. |
| CtIndex.MapData | js/ct.js:172-183 | The index is a well-formed map. |
| CtIndex.MapDataUrls | js/ct.js:172-183 | A url is in `mapData`'s result exactly when some operator lists a log with that url. |
| CtIndex.MapDataLastWins | js/ct.js:174-179 | The last log listed under a url is the one stored, with `operator` set to its operator's name. |
| Json.JsProp | js/ct.js:173-178 | Reading a property throws a `TypeError` exactly on `undefined` and `null`. An object gives its entry; any other value gives `undefined`. |
| Json.JsIter | js/ct.js:174-175 | `for … of` succeeds exactly on arrays and strings, visiting an array's elements or a string's characters. |
| Json.EntriesOf | js/ct.js:176 | `Object.entries` throws exactly on `undefined` and `null`. An object gives its own entries, a number or boolean none, and an array or string its positions. |
| CtIndex.ReadLogListOk | js/ct.js:172-183 | `mapData` reads a document without throwing exactly when `operators` and every `logs` are arrays or strings and no operator or log is `null` (`Readable`). |
| CtIndex.ReadDocumentOf | js/ct.js:172-183 | Reading the JSON document of a log list gives that log list back. |
| CtIndex.DataMergeOf | js/ct.js:185-188 | On two parsed documents, an unreadable one makes `dataMerge` throw a `TypeError`; readable ones merge as `DataMerge` does. |
| CtIndex.StoreEach | js/ct.js:190-205 | A store loop succeeds exactly when every step does, and then the index holds each url's result and keeps the other entries. |
| CtIndex.DataMerge | js/ct.js:185-208 | A successful merge is a well-formed map. |
| CtIndex.DataMergeContents | js/ct.js:185-208 | The merged index covers the urls of both feeds: a url both feeds list holds their merge, and a url one feed lists holds that log normalised. |
| CtIndex.DataMergeOk | js/ct.js:185-208 | The corrected merge succeeds exactly when every merge and normalisation it performs does. |
| CtIndex.DataMergeAsWrittenFails | js/ct.js:190-198 | As written, any url only Apple lists makes `dataMerge` throw. |
| CtIndex.DataMergeAsWrittenAgrees | js/ct.js:185-208 | When every Apple url is also a Google url, the code as written and the corrected merge agree. |
| CtIndex.AppleOnlyDiverges | js/ct.js:190-198 | With an empty Google feed, any Apple feed whose logs normalise merges under the corrected reading and throws as written. |
| CtIndex.AppleOnlyCounterexample | js/ct.js:190-198 | The concrete input of the finding: one operator `A`, one log `{url: "u"}`, no Google logs. |
| RenderName.RemoveSuffixes | render.py:24-25 | The result is what is left after removing some of the suffixes from the end, each at most once and in list order. |
| RenderName.RemovePrefixes | render.py:26-27 | The result is what is left after removing some of the prefixes from the front, each at most once and in list order. |
| RenderName.SuffixesPeeledFront | render.py:24-25 | Peeling suffixes leaves a prefix of the text. |
| RenderName.PrefixesPeeledBack | render.py:26-27 | Peeling prefixes leaves a suffix of the text. |
| RenderName.LogName | render.py:20-32 | The name is empty only for an empty description; it is a contiguous piece of the description, and is the whole description or what peeling leaves. |
| RenderName.LogNameOfQuoted | render.py:20-32 | For every operator and every name, `<operator> '<name>' log` is named `<name>`; an empty name gives back the whole description. |
| RenderName.LogNameUntouched | render.py:20-32 | A description that no suffix ends and no prefix starts is its own name. |
| RenderName.LogNameExample | render.py:20-32 | `log_name("Op", "Op 'X' log")` is `X`. |
| RenderFlatten.StateFields | render.py:42-45 | A state yields its first key and that entry's `timestamp`, and fails exactly when the state is not a non-empty dict or the entry lacks a timestamp. |
| RenderFlatten.IntervalFields | render.py:46-49 | An interval yields its two bounds, and fails exactly when it is not a dict with both keys. |
| RenderFlatten.Tag | render.py:40-41 | Tagging sets `operator` and `name` and keeps every other field. |
| RenderFlatten.PopState | render.py:42-45 | Popping the state succeeds exactly when the state is absent, `None`, or readable, and then it rewrites `state` and `state_timestamp` as described. |
| RenderFlatten.PopInterval | render.py:46-49 | Popping the interval succeeds exactly when the interval is absent, `None`, or has both bounds, and then it replaces the interval with `start` and `end`. |
| RenderFlatten.FlattenLog | render.py:38-50 | One log flattens exactly when it is `Flattenable`; a non-dict is a `TypeError`, a missing description a `KeyError`, and a success is `Flattened`. |
| RenderFlatten.OperatorItems | render.py:38-39 | An operator's items are `logs` followed by `tiled_logs`, or `logs` alone when there are no tiled logs. |
| RenderFlatten.FlattenLogs | render.py:35-37 | A document that is not a dict raises `TypeError`, one without `operators` raises `KeyError`, and an `operators` list is flattened operator by operator. |
| RenderFlatten.FlattenOperatorsItems | render.py:35-50 | A successful flatten yields one record per log, in order, each that log flattened under its operator's name. |
| RenderFlatten.FlattenOperatorsOk | render.py:35-50 | When every operator is well formed and every log can be flattened, the whole list flattens. |
| RenderFlatten.EachOperatorItems | render.py:37-50 | The nested loops yield one result per item, in order, for any loop body. |
| RenderFlatten.EachOperatorOk | render.py:37-50 | The nested loops succeed when the body succeeds on every item, for any loop body. |
| RenderMerge.AllKeys | render.py:53-58 | The result is the union of the keys of the present dicts; two `None`s, or a non-dict, raise. |
| RenderMerge.AllKeysSymmetric | render.py:53-58 | `all_keys(a, b)` and `all_keys(b, a)` succeed together and are equal. |
| RenderMerge.CondGet | render.py:97-100 | The result is `None` for a `None` map, a missing key, or a `None` value; otherwise it is the stored value. |
| RenderMerge.CondGetConflates | render.py:97-100 | A missing key and a stored `None` read the same as a `None` map. |
| RenderMerge.MergeStateConflict | render.py:61-72 | `rejected` wins over everything else, then `pending`. When exactly one side is `usable`, the other side's state is taken. Two `usable`s give `usableusable`. Two other states are added with Python's `+`. |
| RenderMerge.MergeStateConflictRanks | render.py:61-72 | Against the precedence `rejected` > `pending` > any other > `usable`, the state of higher rank wins. Two `rejected`s or two `pending`s keep that state, and equal lower ranks are added. |
| RenderMerge.MergeStateConflictPicks | render.py:61-72 | For two differing states of which one is `rejected`, `pending` or `usable`, the result is one of the two, the same in either argument order. |
| RenderMerge.MergeStateConflictJoins | render.py:71-72 | Two other strings are concatenated. |
| RenderMerge.MergeItem | render.py:75-94 | Merging one item fails only on a state conflict whose concatenation raises, and it writes only the names the key owns. |
| RenderMerge.MergeLog | render.py:103-108 | The merged record is a well-formed map. |
| RenderMerge.MergeLogOk | render.py:103-108 | `merge_log` succeeds exactly when `all_keys` does and every item merges. |
| RenderMerge.MergeLogField | render.py:75-108 | Each field of either log lands as `merge_item` places it (`ItemMerged`). |
| RenderMerge.MergeLogSelf | render.py:103-108 | Merging a record with itself gives back its contents. |
| RenderMerge.MergeLogOneSided | render.py:103-108 | Merging a record with `None`, on either side, gives back its contents. |
| RenderMerge.ToKeyPyEq | render.py:113-114 | Two hashable values are the same dict key exactly when Python's `==` holds, so `True` and `1` collide. |
| RenderMerge.KeyOf | render.py:113-114 | A record has a key exactly when the value `url or submission_url` picks is hashable, and otherwise raises `TypeError`. A truthy url never files it under `None`, and a record with neither a truthy url nor a `submission_url` is filed under `None`. |
| RenderMerge.KeyOfPyEq | render.py:113-114 | Two records share a key exactly when the values they pick are equal under Python's `==`, so a url `1` and a url `True` collide. |
| RenderMerge.KeyOfUrlWins | render.py:113-114 | A truthy url fixes the key whatever `submission_url` holds. |
| RenderMerge.KeyOfFalsyUrl | render.py:113-114 | A falsy url (`None`, `""`, `0`, `False`, an empty list or dict) files the record as if it had no url: `submission_url` decides. |
| RenderMerge.IndexBy | render.py:113-114 | Building the map succeeds exactly when every log has a hashable key. |
| RenderMerge.IndexByContents | render.py:113-114 | The map holds exactly the logs' keys, and each key holds the last log filed under it. |
| RenderMerge.MergeLogLists | render.py:111-117 | The list merge succeeds exactly when both maps build and every `merge_log` succeeds, and then it yields one record per key. |
| RenderMerge.MergeLogListsRecords | render.py:111-117 | One merged record per distinct key of either list, each the merge of the two records filed under it. |
| Ccadb.ReadRow | fetch.py:70-72 | A row read against the header names each header name once. Under each name it holds the cell of the last column with that name, or `None` past the end of a short line. |
| Ccadb.ReadRowLastColumn | fetch.py:70-72 | The last column bearing each name is what the row holds under it. |
| Ccadb.RepeatedHeaderExample | fetch.py:70-76 | When the header names one column twice and the second cell is blank, the cleaned record loses the first cell's text. |
| Ccadb.ReadLine | fetch.py:70-72 | A line leaves cells over, filed by `csv.DictReader` under the key `None`, exactly when it is longer than the header; those cells are the ones past the header's last column. |
| Ccadb.ReadRows | fetch.py:70-72 | Every non-empty line, and only those, is read against the header; empty lines are skipped, and with none there is one row per line, in order. |
| Ccadb.NonEmptyLines | fetch.py:70-72 | The lines read are exactly the non-empty ones; with no empty line, all of them in order. |
| Ccadb.CleanLine | fetch.py:74-76 | The comprehension raises `AttributeError` exactly when the line has cells past the header, whose list has no `strip`; otherwise it gives the cleaned row. |
| Ccadb.CleanRow | fetch.py:74-76 | The cleaned row maps each stripped header to the stripped value of the last cell with that header that is non-empty after stripping. |
| Ccadb.CleanRowStripped | fetch.py:74-76 | Every key and value of a cleaned row is stripped, and no value is empty. |
| Ccadb.FieldOfCleaned | fetch.py:80 | Reading a field of a cleaned record with `.get(k, "").strip()` gives its value, and is non-empty exactly when the field is present. |
| Ccadb.TrustsExactly | fetch.py:114-131 | A program trusts a root exactly when its status is `Included`, or `Trusted` for Microsoft. |
| Ccadb.Trusting | fetch.py:122-131 | The number of trusting programs is at most four; it is four exactly when all four trust, and zero exactly when none does. |
| Ccadb.AggregateCounts | fetch.py:97-139 | The four counters equal the numbers of fully, partly and untrusted roots and of intermediates among the records. |
| Ccadb.RootsCounted | fetch.py:133-139 | Every root falls in exactly one of the three trust counters. |
| Grouping.Keys | fetch.py:79-86 | The owners, each once, are exactly the non-empty owner values of the records. |
| Grouping.Group | fetch.py:79-82 | An owner's group holds exactly the records with that owner, each as many times as it occurs among the records, so its length is the owner's `record_count`. |
| Grouping.EveryItemCounted | fetch.py:77-82 | The groups plus the records without an owner account for every record. |
| Grouping.SortedValues | fetch.py:88-94 | The country list is strictly ascending and holds exactly the non-empty countries of the records. |
| Grouping.SortBy | fetch.py:157 | Sorting gives an ascending permutation of its input. |
| Grouping.SortByStrict | fetch.py:157 | With distinct keys, the sorted order is strictly ascending. |
| Grouping.SortByKeys | fetch.py:157 | Sorting keeps the set of keys. |
| Ccadb.KeepFilenameCharsCounts | fetch.py:163-165 | The filter keeps every occurrence of a letter, digit, space, `-` or `_`, and no other character. |
| Ccadb.KeepFilenameCharsAppend | fetch.py:163-165 | The filter keeps order: the kept characters of `a + b` are those of `a` followed by those of `b`. |
| Ccadb.KeepOnlySpaces | fetch.py:163-165 | From a name with no letter, digit, `-` or `_` the filter keeps only spaces. |
| Ccadb.SafeFilename | fetch.py:163-168 | The file name is never empty and uses only letters, digits, `-` and `_`; an owner with none of those characters gets `unknown_ca`. |
| Ccadb.SafeFilenameDropsUnsafe | fetch.py:163-168 | A character other than a letter, digit, space, `-` or `_` is dropped wherever it stands, without changing the file name. |
| Ccadb.SafeFilenameSpace | fetch.py:163-168 | Two safe names joined by a space give the two names joined by `_`. |
| Ccadb.SafeFilenameOfSafe | fetch.py:163-168 | A non-empty name already made of those characters is its own file name. |
| Ccadb.SafeFilenameIdempotent | fetch.py:163-168 | Making a file name safe twice changes nothing more. |
| Ccadb.Summarize | fetch.py:141-186 | `total_records` counts every record, `total_ca_owners` counts the list, and each entry's `output_filename` is its owner's safe name plus `.json`. |
| Ccadb.SummarizeOrdered | fetch.py:156-157 | The owners are listed in strictly ascending order of name. |
| Ccadb.SummarizeOwners | fetch.py:79-154 | Exactly the non-empty owners that the records name are listed. |
| Ccadb.SummarizeEntries | fetch.py:86-154 | Each listed owner carries the entry built from its own group of records. |
| Ccadb.SummarizeCountsEveryRecord | fetch.py:77-184 | `total_records` equals the sizes of the groups plus the records without an owner. |
| Ccadb.Convert | fetch.py:69-198 | The conversion fails with `AttributeError`, caught by the final `except Exception`, exactly when some line is longer than the header. Otherwise `total_records` is at most the number of lines after the header, and equals it when no line is empty. |
| Ccadb.ConvertFails | fetch.py:70-76 | Cleaning the rows fails exactly when some line is longer than the header. |
| Text.JsTrim | js/ct.js:5 | The result is trimmed of JavaScript white space and is a contiguous piece of the input. |
| Text.PyStrip | fetch.py:75 | The result is stripped of Python white space and is a contiguous piece of the input. |
| Text.PyStripOfStripped | fetch.py:75 | Stripping a stripped string changes nothing. |
| Text.LexLessTransitive | fetch.py:145 | Python's string order is transitive. |
| Text.LexLessTotal | fetch.py:145 | Python's string order is total on distinct strings. |
| Records.FoldKeysOk | js/ct.js:79-137 | Folding the keys into a map succeeds exactly when every key's step does. |
| Records.ApplyWrites | js/ct.js:94-135 | After a list of writes, each written name holds its last write and every other entry is kept. |

## Left out

- Network, files and processes are not modelled. This covers fetching the feeds and the CSV (`fetch.py`, `fetch-logs.py`), `save_json`, `os.makedirs`, printing, `sys.exit`, `getLogs` and the page rendering in `js/ct.js` and `render.py`. An exception that `convert_ccadb_csv_to_json` catches is an `Err` result; the message it then prints and its `sys.exit(1)` are not modelled.
- Parsing JSON and CSV text is not modelled. The model starts from parsed values: a CSV file is its header line and the lists of cells of the lines after it. `Ccadb.ReadLine` does what `csv.DictReader` does with them. `csv.DictReader`'s other options (`restkey`, `restval`, dialects) keep their defaults.
- The regular-expression engine is not modelled. The four patterns of `normalizeDescription` are written out as predicates on positions, with the leftmost-match rule of a non-global `replace` and the resume-after-match rule of the `g` flag.
- Numbers are integers only. The feeds' numbers are integral, so floating point does not arise.
- JavaScript strings are taken as code points, not UTF-16 units.
- CtDescription.DropOperator: an object used as operator is taken to print as `[object Object]` and to have no `length`. An object with its own `length` or `toString` entry would behave differently and is not modelled.
- Json.JsProp: only the property names the code reads are modelled. An array's or string's `length` and other built-in properties are never read there.
- The `Map` of `mapData` compares a url that is an object or array by reference. The model's index compares urls by value, so two structurally equal non-string urls would share one entry here and two in the browser. The feeds' urls are strings, for which the two agree.
- The integer-like key order of JavaScript objects is not modelled. `Object.entries` is taken in insertion order.
- The order in which Python iterates a `set` is a parameter (`order`, `urls`, `keyOrder`). The lemmas require only that the order lists each member once. So `MergeLog` and `MergeLogLists` state their results for any iteration order.
- RenderMerge.MergeLog: its own contract states only that the result is a well-formed map. What it contains is stated by `MergeLogOk`, `MergeLogField`, `MergeLogSelf` and `MergeLogOneSided`, under an iteration order that enumerates the key set.
- CtMerge.MergeLog: likewise, its own contract states only well-formedness. The contents are stated by the `MergeLog*` lemmas, which assume that no key's own name collides with a name another key writes (`Separated`).
- CtMerge.NormalizeLog: likewise, its own contract states only well-formedness. The contents are stated by the `NormalizeLog*` lemmas, under the same `Separated` assumption.
- CtIndex.MapData and CtIndex.DataMerge: their own contracts state only well-formedness. The contents are stated by `MapDataUrls`, `MapDataLastWins`, `DataMergeContents` and `DataMergeOk`.
- Ccadb.SafeFilename: Python's `isalnum` accepts every Unicode letter and digit. The model accepts ASCII letters and digits only.
- Ccadb.Summarize: the loop at `fetch.py:174-177`, which attaches file names, is modelled by its effect. It gives each entry the file name of its own owner, which holds because the owners are distinct.
- Ccadb.Convert: its own contract states when it fails and the record total. The owner list is stated by the `Summarize*` lemmas, and the reading of rows by `ReadLine`, `ReadRow`, `ReadRows`, `CleanLine` and `RepeatedHeaderExample`.
- RenderName.RemoveSuffixes: its contract allows any choice of suffixes to peel, not only the one the code makes. `LogNameOfQuoted`, `LogNameUntouched` and `LogNameExample` pin down the result on whole families of descriptions.
- RenderName.LogName: its contract is met by the description itself as well as by the peeled text; it does not say which suffixes and prefixes are actually removed. The exact answer is stated for every description of the form `<operator> '<name>' log` by `LogNameOfQuoted`, and for descriptions with no listed affix by `LogNameUntouched`.
- RenderName.RemovePrefixes: likewise for prefixes.
- CtDescription.RemoveYearSpaces: its contract bounds the length only. `RemoveYearSpacesUnchanged` and the `Argon` lemmas state its effect on particular inputs.
- `mapData` reads only `logs` and ignores `tiled_logs`, as `js/ct.js:175` does. `flatten_logs` reads both, as `render.py:39` does.
- When a state object has more or fewer than one entry, `normalizeState` writes a console message. That message is not modelled.
- The comparison of `dataMerge` results in the page, and the HTML rendering, are not modelled.

## Findings

| source | as written | input that shows it | evidently intended | confidence | as-written member | corrected member |
|---|---|---|---|---|---|---|
| js/ct.js:190-198 | An Apple-only log is normalised and stored, then the code falls through to `mergeLog(v, googleMap.get(k))` with `undefined`, whose `google.keys()` throws a `TypeError` | An Apple feed with one operator `A` listing one log `{url: "u"}`, and a Google feed with no logs | The `mergeLog` call sits in an `else`, so an Apple-only log is only normalised, as the comment "Merge if in both" says | not executed | CtIndex.AppleOnlyCounterexample | CtIndex.DataMerge |

=== FILE: ccadb.dfy ===
/** fetch.py `convert_ccadb_csv_to_json` without its file writes: CCADB
    CSV rows are cleaned, grouped by CA owner, and summarised per owner
    (record count, countries, trust counts over the four root programs),
    the owners listed in name order, each with the name of the file its
    records go to. */
module Ccadb {
  import opened Text
  import opened Grouping
  import opened Results
  import Json

  /** A cell of a parsed CSV row: `None` when the row is shorter than the
      header, otherwise the text of the cell. */
  datatype Cell = Absent | Present(text: string)

  /** A parsed CSV row: each header name with its cell, in column order. */
  type Row = seq<(string, Cell)>

  /** A cleaned record: field names mapped to values. */
  type Record = map<string, string>

  /** The names of a row, in column order. */
  function RowNames(row: Row): (r: seq<string>)
    ensures |r| == |row| && forall i :: 0 <= i < |row| ==> r[i] == row[i].0
  {
    seq(|row|, i requires 0 <= i < |row| => row[i].0)
  }

  /** The first column of `row` named `k`, or `|row|` when there is none. */
  function NameIndex(row: Row, k: string): (r: nat)
    ensures r <= |row|
    ensures r < |row| ==> row[r].0 == k
    ensures forall i :: 0 <= i < r ==> row[i].0 != k
    decreases |row|
  {
    if row == [] then 0
    else if row[0].0 == k then 0
    else 1 + NameIndex(row[1..], k)
  }

  /** `d[k] = c` on the dict a row is read into: a name already present
      keeps its place and takes the new cell, a new name goes last. */
  function RowSet(row: Row, k: string, c: Cell): (r: Row)
    requires Json.Distinct(RowNames(row))
    ensures Json.Distinct(RowNames(r))
    ensures forall x :: x in RowNames(r) <==> x in RowNames(row) || x == k
    ensures |row| <= |r| && forall i :: 0 <= i < |row| ==> r[i].0 == row[i].0
    ensures forall i :: 0 <= i < |r| ==> if r[i].0 == k then r[i].1 == c else i < |row| && r[i] == row[i]
  {
    var j := NameIndex(row, k);
    if j < |row| then
      var r := row[j := (k, c)];
      assert RowNames(r) == RowNames(row);
      r
    else
      var r := row + [(k, c)];
      assert RowNames(r) == RowNames(row) + [k];
      r
  }

  /** The cell of column `j` of a parsed line: its text, or `None` past
      the end of a line shorter than the header. */
  function CellAt(cells: seq<string>, j: nat): Cell {
    if j < |cells| then Present(cells[j]) else Absent
  }

  /** Column `j` is the last one the header names `k`. */
  predicate LastColumn(header: seq<string>, k: string, j: nat) {
    && j < |header| && header[j] == k
    && forall m :: j < m < |header| ==> header[m] != k
  }

  /** `csv.DictReader`'s row, `dict(zip(fieldnames, row))` with `None`
      for the missing cells: a header name repeated in several columns
      keeps the place of its first column and the cell of its last. */
  function ReadRow(header: seq<string>, cells: seq<string>): (r: Row)
    ensures Json.Distinct(RowNames(r))
    ensures forall k :: k in RowNames(r) <==> k in header
    ensures forall i :: 0 <= i < |r| ==> exists j :: LastColumn(header, r[i].0, j) && r[i].1 == CellAt(cells, j)
    decreases |header|
  {
    if header == [] then []
    else
      var n := |header| - 1;
      var prev := ReadRow(header[..n], cells);
      var r := RowSet(prev, header[n], CellAt(cells, n));
      assert forall m :: 0 <= m < n ==> header[..n][m] == header[m];
      assert forall k :: k in header <==> k in header[..n] || k == header[n];
      forall i | 0 <= i < |r| ensures exists j :: LastColumn(header, r[i].0, j) && r[i].1 == CellAt(cells, j) {
        if r[i].0 == header[n] {
          assert LastColumn(header, r[i].0, n);
        } else {
          var j :| LastColumn(header[..n], prev[i].0, j) && prev[i].1 == CellAt(cells, j);
          assert LastColumn(header, r[i].0, j);
        }
      }
      assert Json.Distinct(RowNames(r)) by {
        forall a, b | 0 <= a < b < |r| ensures RowNames(r)[a] != RowNames(r)[b] {
          if b == |prev| {
            assert RowNames(prev)[a] == prev[a].0;
          }
        }
      }
      r
  }

  /** Every name of the header appears in the row with the cell of the
      last column that bears it. */
  lemma ReadRowLastColumn(header: seq<string>, cells: seq<string>, j: nat)
    requires j < |header| && LastColumn(header, header[j], j)
    ensures (header[j], CellAt(cells, j)) in ReadRow(header, cells)
  {
    var r := ReadRow(header, cells);
    assert header[j] in RowNames(r);
    var i :| 0 <= i < |r| && RowNames(r)[i] == header[j];
    var j' :| LastColumn(header, r[i].0, j') && r[i].1 == CellAt(cells, j');
    assert j' == j;
  }

  /** A header naming one column twice: the second, blank cell replaces
      the first, so the cleaned record loses the first cell's text. */
  lemma RepeatedHeaderExample(k: string, x: string)
    requires PyStrip(x) != []
    ensures CleanRow(ReadRow([k, k], [x, ""])) == map[]
  {
    RepeatedHeaderRow(k, [x, ""]);
    BlankCellDropped(k, "");
  }

  /** A header naming one column twice reads as one name holding the
      second column's cell. */
  lemma RepeatedHeaderRow(k: string, cells: seq<string>)
    requires |cells| == 2
    ensures ReadRow([k, k], cells) == [(k, Present(cells[1]))]
  {
    var first := ReadRow([k], cells);
    assert [k, k][..1] == [k];
    assert first == RowSet([], k, Present(cells[0])) == [(k, Present(cells[0]))];
    assert NameIndex(first, k) == 0;
  }

  lemma BlankCellDropped(k: string, v: string)
    requires PyStrip(v) == []
    ensures CleanRow([(k, Present(v))]) == map[]
  {
    var row := [(k, Present(v))];
    assert row[..0] == [];
    assert !Kept(row[0].1, PyStrip);
  }

  /** What `csv.DictReader` yields for one line: the named cells, and the
      cells past the end of the header, which it files as one list under
      the key `None` when there are any. */
  datatype Line = Line(fields: Row, rest: seq<string>)

  /** One line read against the header. */
  function ReadLine(header: seq<string>, cells: seq<string>): (r: Line)
    ensures r.fields == ReadRow(header, cells)
    ensures r.rest != [] <==> |cells| > |header|
    ensures r.rest != [] ==> cells == cells[..|header|] + r.rest
  {
    Line(ReadRow(header, cells), if |cells| > |header| then cells[|header|..] else [])
  }

  /** Only a line longer than the header leaves cells over. */
  lemma RowOfLongLine(header: seq<string>, lines: seq<seq<string>>, k: nat)
    requires k < |ReadRows(header, lines)| && ReadRows(header, lines)[k].rest != []
    ensures exists i :: 0 <= i < |lines| && |lines[i]| > |header|
  {
    var j :| 0 <= j < |lines| && lines[j] != [] && ReadRows(header, lines)[k] == ReadLine(header, lines[j]);
    assert |lines[j]| > |header|;
  }

  /** The rows `csv.DictReader` yields for the parsed lines after the
      header: an empty line is skipped, any other is read against the
      header. */
  function ReadRows(header: seq<string>, lines: seq<seq<string>>): (r: seq<Line>)
    ensures |r| <= |lines|
    ensures forall i :: 0 <= i < |r| ==>
              exists j :: 0 <= j < |lines| && lines[j] != [] && r[i] == ReadLine(header, lines[j])
    ensures forall j :: 0 <= j < |lines| && lines[j] != [] ==> ReadLine(header, lines[j]) in r
    ensures (forall i :: 0 <= i < |lines| ==> lines[i] != []) ==>
              |r| == |lines| && forall i :: 0 <= i < |lines| ==> r[i] == ReadLine(header, lines[i])
  {
    ReadEach(cells => ReadLine(header, cells), lines)
  }

  /** `x` is what `read` makes of some non-empty line. */
  ghost predicate ReadFrom<L>(read: seq<string> -> L, lines: seq<seq<string>>, x: L) {
    exists j :: 0 <= j < |lines| && lines[j] != [] && x == read(lines[j])
  }

  /** `read` applied to each non-empty line, in order. */
  function ReadEach<L>(read: seq<string> -> L, lines: seq<seq<string>>): (r: seq<L>)
    ensures |r| <= |lines|
    ensures forall i :: 0 <= i < |r| ==> ReadFrom(read, lines, r[i])
    ensures forall j :: 0 <= j < |lines| && lines[j] != [] ==> read(lines[j]) in r
    ensures (forall i :: 0 <= i < |lines| ==> lines[i] != []) ==>
              |r| == |lines| && forall i :: 0 <= i < |lines| ==> r[i] == read(lines[i])
  {
    var kept := NonEmptyLines(lines);
    var r := seq(|kept|, i requires 0 <= i < |kept| => read(kept[i]));
    ReadEachFrom(read, lines, kept, r);
    ReadEachAll(read, lines, kept, r);
    r
  }

  /** Each item read comes from a non-empty line. */
  lemma ReadEachFrom<L>(read: seq<string> -> L, lines: seq<seq<string>>, kept: seq<seq<string>>, r: seq<L>)
    requires forall i :: 0 <= i < |kept| ==> kept[i] != [] && kept[i] in lines
    requires |r| == |kept| && forall i :: 0 <= i < |kept| ==> r[i] == read(kept[i])
    ensures forall i :: 0 <= i < |r| ==> ReadFrom(read, lines, r[i])
  {
    forall i | 0 <= i < |r| ensures ReadFrom(read, lines, r[i]) {
      assert kept[i] in lines;
      var j :| 0 <= j < |lines| && lines[j] == kept[i];
      assert lines[j] != [] && r[i] == read(lines[j]);
    }
  }

  /** Every non-empty line is read. */
  lemma ReadEachAll<L>(read: seq<string> -> L, lines: seq<seq<string>>, kept: seq<seq<string>>, r: seq<L>)
    requires forall j :: 0 <= j < |lines| && lines[j] != [] ==> lines[j] in kept
    requires |r| == |kept| && forall i :: 0 <= i < |kept| ==> r[i] == read(kept[i])
    ensures forall j :: 0 <= j < |lines| && lines[j] != [] ==> read(lines[j]) in r
  {
    forall j | 0 <= j < |lines| && lines[j] != [] ensures read(lines[j]) in r {
      var i :| 0 <= i < |kept| && kept[i] == lines[j];
      assert r[i] == read(lines[j]);
    }
  }

  /** The lines `csv.DictReader` reads, in order: the empty ones skipped. */
  function NonEmptyLines(lines: seq<seq<string>>): (r: seq<seq<string>>)
    ensures |r| <= |lines|
    ensures forall i :: 0 <= i < |r| ==> r[i] != [] && r[i] in lines
    ensures forall j :: 0 <= j < |lines| && lines[j] != [] ==> lines[j] in r
    ensures (forall i :: 0 <= i < |lines| ==> lines[i] != []) ==> r == lines
    decreases |lines|
  {
    if lines == [] then []
    else
      assert lines == [lines[0]] + lines[1..];
      (if lines[0] == [] then [] else [lines[0]]) + NonEmptyLines(lines[1..])
  }

  /** `v and v.strip()`: the cell holds something besides what `strip`
      removes. */
  predicate Kept(c: Cell, strip: string -> string) {
    c.Present? && strip(c.text) != []
  }

  /** No later kept cell of `row` has the same stripped name as the one at
      `i`, so the one at `i` is what the comprehension keeps. */
  predicate LastKept(row: Row, strip: string -> string, i: nat)
    requires i < |row|
  {
    forall j :: i < j < |row| && Kept(row[j].1, strip) ==> strip(row[j].0) != strip(row[i].0)
  }

  /** `r` holds the stripped name of every kept cell of `row`, under the
      stripped text of the last kept cell with that name. */
  ghost predicate Cleaned(row: Row, strip: string -> string, r: Record) {
    && (forall k :: k in r <==> exists i :: 0 <= i < |row| && Kept(row[i].1, strip) && strip(row[i].0) == k)
    && forall i :: 0 <= i < |row| && Kept(row[i].1, strip) && LastKept(row, strip, i) ==>
         r[strip(row[i].0)] == strip(row[i].1.text)
  }

  /** `{strip(k): strip(v) for k, v in row.items() if v and strip(v)}`. */
  function CleanWith(row: Row, strip: string -> string): (r: Record)
    ensures Cleaned(row, strip, r)
    decreases |row|
  {
    if row == [] then map[]
    else
      var n := |row| - 1;
      var m := CleanWith(row[..n], strip);
      CleanStep(row, strip, m);
      if Kept(row[n].1, strip) then m[strip(row[n].0) := strip(row[n].1.text)] else m
  }

  /** The comprehension's effect of the last cell of a row. */
  lemma CleanStep(row: Row, strip: string -> string, m: Record)
    requires |row| > 0
    requires Cleaned(row[..|row| - 1], strip, m)
    ensures var n := |row| - 1;
            Cleaned(row, strip, if Kept(row[n].1, strip) then m[strip(row[n].0) := strip(row[n].1.text)] else m)
  {
    var n := |row| - 1;
    var r := if Kept(row[n].1, strip) then m[strip(row[n].0) := strip(row[n].1.text)] else m;
    assert forall i :: 0 <= i < n ==> row[..n][i] == row[i];
    forall k ensures k in r <==> exists i :: 0 <= i < |row| && Kept(row[i].1, strip) && strip(row[i].0) == k {
      if k in m {
        var i :| 0 <= i < n && Kept(row[..n][i].1, strip) && strip(row[..n][i].0) == k;
        assert Kept(row[i].1, strip) && strip(row[i].0) == k;
      }
      if exists i :: 0 <= i < |row| && Kept(row[i].1, strip) && strip(row[i].0) == k {
        var i :| 0 <= i < |row| && Kept(row[i].1, strip) && strip(row[i].0) == k;
        if i < n {
          assert Kept(row[..n][i].1, strip) && strip(row[..n][i].0) == k;
        }
      }
    }
    forall i | 0 <= i < |row| && Kept(row[i].1, strip) && LastKept(row, strip, i)
      ensures r[strip(row[i].0)] == strip(row[i].1.text)
    {
      if i < n {
        assert LastKept(row[..n], strip, i);
      }
    }
  }

  /** The last kept cell with the same stripped name as the kept cell at
      `i`. */
  lemma LastKeptFrom(row: Row, strip: string -> string, i: nat) returns (l: nat)
    requires i < |row| && Kept(row[i].1, strip)
    ensures i <= l < |row| && Kept(row[l].1, strip) && strip(row[l].0) == strip(row[i].0)
    ensures LastKept(row, strip, l)
    decreases |row| - i
  {
    if LastKept(row, strip, i) {
      l := i;
    } else {
      var j :| i < j < |row| && Kept(row[j].1, strip) && strip(row[j].0) == strip(row[i].0);
      l := LastKeptFrom(row, strip, j);
    }
  }

  /** fetch.py's row cleaning: names and values stripped with Python's
      `strip()`, cells that are `None` or only whitespace dropped. */
  function CleanRow(row: Row): (r: Record)
    ensures Cleaned(row, PyStrip, r)
  {
    CleanWith(row, PyStrip)
  }

  /** Every name and value of a cleaned record is stripped, and no value
      is empty. */
  lemma CleanRowStripped(row: Row)
    ensures forall k :: k in CleanRow(row) ==>
              && PyTrimmed(k)
              && CleanRow(row)[k] != []
              && PyTrimmed(CleanRow(row)[k])
  {
    var r := CleanRow(row);
    forall k | k in r ensures PyTrimmed(k) && r[k] != [] && PyTrimmed(r[k]) {
      var i :| 0 <= i < |row| && Kept(row[i].1, PyStrip) && PyStrip(row[i].0) == k;
      var l := LastKeptFrom(row, PyStrip, i);
      assert r[k] == PyStrip(row[l].1.text);
    }
  }

  /** `record.get(k, "").strip()`; the empty default strips to itself. */
  function Field(rec: Record, k: string): string {
    if k in rec then PyStrip(rec[k]) else ""
  }

  /** On a cleaned record the second `strip()` changes nothing: a field
      reads as its value when present and as empty when absent. */
  lemma FieldOfCleaned(row: Row, k: string)
    ensures k in CleanRow(row) ==> Field(CleanRow(row), k) == CleanRow(row)[k]
    ensures Field(CleanRow(row), k) != [] <==> k in CleanRow(row)
  {
    CleanRowStripped(row);
    if k in CleanRow(row) {
      PyStripOfStripped(CleanRow(row)[k]);
    }
  }

  /** The comprehension `clean_row` on one line. A line with cells past
      the header holds a list under `None`; that value is truthy and has
      no `strip`, so the comprehension raises `AttributeError`. */
  function CleanLine(line: Line): (r: Result<Record>)
    ensures r.Err? <==> line.rest != []
    ensures r.Err? ==> r.fault == AttributeError
    ensures r.Ok? ==> Cleaned(line.fields, PyStrip, r.value)
  {
    if line.rest != [] then Err(AttributeError) else Ok(CleanRow(line.fields))
  }

  /** The CA owner a record is grouped under; empty for none. */
  function Owner(rec: Record): string {
    Field(rec, "CA Owner")
  }

  function Country(rec: Record): string {
    Field(rec, "Country")
  }

  function RecordType(rec: Record): string {
    Field(rec, "Certificate Record Type")
  }

  /** The four root programs of the CCADB. */
  datatype Program = Apple | Chrome | Microsoft | Mozilla

  function StatusField(p: Program): string {
    match p
    case Apple => "Apple Status"
    case Chrome => "Chrome Status"
    case Microsoft => "Microsoft Status"
    case Mozilla => "Mozilla Status"
  }

  /** The statuses with which a program trusts a root. */
  function TrustedStatuses(p: Program): seq<string> {
    if p == Microsoft then ["Included", "Trusted"] else ["Included"]
  }

  predicate Trusts(rec: Record, p: Program) {
    Field(rec, StatusField(p)) in TrustedStatuses(p)
  }

  /** Microsoft trusts a root it lists as "Included" or "Trusted"; the
      other programs only one they list as "Included". */
  lemma TrustsExactly(rec: Record, p: Program)
    ensures Trusts(rec, p) <==>
              || Field(rec, StatusField(p)) == "Included"
              || (p == Microsoft && Field(rec, StatusField(p)) == "Trusted")
  {
  }

  function Indicator(b: bool): nat {
    if b then 1 else 0
  }

  /** `trusted_count`: how many of the four programs trust the root. */
  function Trusting(rec: Record): (r: nat)
    ensures r <= 4
    ensures r == 4 <==> forall p :: Trusts(rec, p)
    ensures r == 0 <==> forall p :: !Trusts(rec, p)
  {
    Indicator(Trusts(rec, Apple)) + Indicator(Trusts(rec, Chrome))
    + Indicator(Trusts(rec, Microsoft)) + Indicator(Trusts(rec, Mozilla))
  }

  /** What the counting loop makes of a record: an intermediate, a root
      with the number of programs that trust it, or neither. */
  datatype Kind = IntermediateCert | RootCert(trusting: nat) | OtherCert

  function KindOf(rec: Record): Kind {
    if RecordType(rec) == "Intermediate Certificate" then IntermediateCert
    else if RecordType(rec) == "Root Certificate" then RootCert(Trusting(rec))
    else OtherCert
  }

  function KindsOf(records: seq<Record>): (r: seq<Kind>)
    ensures |r| == |records| && forall i :: 0 <= i < |records| ==> r[i] == KindOf(records[i])
  {
    seq(|records|, i requires 0 <= i < |records| => KindOf(records[i]))
  }

  predicate IsIntermediate(k: Kind) {
    k.IntermediateCert?
  }

  predicate IsRoot(k: Kind) {
    k.RootCert?
  }

  /** A root all four programs trust. */
  predicate FullyTrusted(k: Kind) {
    k.RootCert? && k.trusting == 4
  }

  /** A root some but not all of the programs trust. */
  predicate PartlyTrusted(k: Kind) {
    k.RootCert? && k.trusting != 4 && k.trusting > 0
  }

  /** A root none of the programs trusts. */
  predicate Untrusted(k: Kind) {
    k.RootCert? && k.trusting == 0
  }

  /** `aggregated_counts`. */
  datatype Counts = Counts(trusted: nat, partial: nat, untrusted: nat, intermediates: nat)

  /** The counts, each the number of records of its kind. */
  function CountsOf(kinds: seq<Kind>): Counts {
    Counts(Count(kinds, FullyTrusted), Count(kinds, PartlyTrusted),
           Count(kinds, Untrusted), Count(kinds, IsIntermediate))
  }

  /** The counting loop of `convert_ccadb_csv_to_json` over one owner's
      records. */
  method AggregateCounts(records: seq<Record>) returns (c: Counts)
    ensures c.trusted == Count(KindsOf(records), FullyTrusted)
    ensures c.partial == Count(KindsOf(records), PartlyTrusted)
    ensures c.untrusted == Count(KindsOf(records), Untrusted)
    ensures c.intermediates == Count(KindsOf(records), IsIntermediate)
  {
    var trusted, partial, untrusted, intermediates := 0, 0, 0, 0;
    ghost var kinds := KindsOf(records);
    var i := 0;
    while i < |records|
      invariant i <= |records|
      invariant trusted == Count(kinds[..i], FullyTrusted)
      invariant partial == Count(kinds[..i], PartlyTrusted)
      invariant untrusted == Count(kinds[..i], Untrusted)
      invariant intermediates == Count(kinds[..i], IsIntermediate)
    {
      var recordType := RecordType(records[i]);
      assert kinds[..i + 1][..i] == kinds[..i];
      if recordType == "Intermediate Certificate" {
        intermediates := intermediates + 1;
      } else if recordType == "Root Certificate" {
        var trustedCount := Trusting(records[i]);
        if trustedCount == 4 {
          trusted := trusted + 1;
        } else if trustedCount > 0 {
          partial := partial + 1;
        } else {
          untrusted := untrusted + 1;
        }
      }
      i := i + 1;
    }
    assert kinds[..i] == kinds;
    c := Counts(trusted, partial, untrusted, intermediates);
  }

  /** Every root lands in exactly one of the three trust counts. */
  lemma {:induction false} RootsCounted(kinds: seq<Kind>)
    ensures var c := CountsOf(kinds);
            c.trusted + c.partial + c.untrusted == Count(kinds, IsRoot)
    decreases |kinds|
  {
    if kinds != [] {
      RootsCounted(kinds[..|kinds| - 1]);
    }
  }

  /** A character the safe filename keeps from the owner's name. */
  predicate FilenameChar(c: char) {
    IsAsciiAlnum(c) || c == ' ' || c == '-' || c == '_'
  }

  /** A character a safe filename consists of. */
  predicate SafeChar(c: char) {
    IsAsciiAlnum(c) || c == '-' || c == '_'
  }

  /** `"".join(c for c in s if c.isalnum() or c in (" ", "-", "_"))`. */
  function KeepFilenameChars(s: string): (r: string)
    ensures forall i :: 0 <= i < |r| ==> FilenameChar(r[i])
    ensures (forall i :: 0 <= i < |s| ==> FilenameChar(s[i])) ==> r == s
    decreases |s|
  {
    if s == [] then []
    else (if FilenameChar(s[0]) then [s[0]] else []) + KeepFilenameChars(s[1..])
  }

  /** The filter keeps every occurrence of a kept character and none of
      the others. */
  lemma {:induction false} KeepFilenameCharsCounts(s: string, c: char)
    ensures multiset(KeepFilenameChars(s))[c] == if FilenameChar(c) then multiset(s)[c] else 0
    decreases |s|
  {
    if s != [] {
      assert s == [s[0]] + s[1..];
      KeepFilenameCharsCounts(s[1..], c);
    }
  }

  /** The filter keeps order: the kept characters of `a + b` are those of
      `a` followed by those of `b`. */
  lemma {:induction false} KeepFilenameCharsAppend(a: string, b: string)
    ensures KeepFilenameChars(a + b) == KeepFilenameChars(a) + KeepFilenameChars(b)
    decreases |a|
  {
    if a == [] {
      assert a + b == b;
    } else {
      assert (a + b)[0] == a[0] && (a + b)[1..] == a[1..] + b;
      KeepFilenameCharsAppend(a[1..], b);
    }
  }

  /** `s.replace(" ", "_")`. */
  function ReplaceSpaces(s: string): (r: string)
    ensures |r| == |s|
    ensures forall i :: 0 <= i < |s| ==> r[i] == if s[i] == ' ' then '_' else s[i]
    decreases |s|
  {
    if s == [] then []
    else [if s[0] == ' ' then '_' else s[0]] + ReplaceSpaces(s[1..])
  }

  /** With no safe character to keep, the filter keeps only spaces. */
  lemma {:induction false} KeepOnlySpaces(s: string)
    ensures (forall i :: 0 <= i < |s| ==> !SafeChar(s[i])) ==>
              forall i :: 0 <= i < |KeepFilenameChars(s)| ==> KeepFilenameChars(s)[i] == ' '
    decreases |s|
  {
    if s != [] {
      KeepOnlySpaces(s[1..]);
    }
  }

  /** The name under which an owner's records are saved, without the
      extension. */
  function SafeFilename(owner: string): (r: string)
    ensures r != []
    ensures forall i :: 0 <= i < |r| ==> SafeChar(r[i])
    ensures (forall i :: 0 <= i < |owner| ==> !SafeChar(owner[i])) ==> r == "unknown_ca"
  {
    var kept := KeepFilenameChars(owner);
    var trimmed := PyRStrip(kept);
    var s := ReplaceSpaces(trimmed);
    assert forall i :: 0 <= i < |trimmed| ==> trimmed[i] == kept[i];
    KeepOnlySpaces(owner);
    if s == [] then "unknown_ca" else s
  }

  /** A name made only of safe characters is its own safe filename. */
  lemma SafeFilenameOfSafe(owner: string)
    requires owner != []
    requires forall i :: 0 <= i < |owner| ==> SafeChar(owner[i])
    ensures SafeFilename(owner) == owner
  {
  }

  /** A character the filter drops does not affect the file name. */
  lemma SafeFilenameDropsUnsafe(a: string, c: char, b: string)
    requires !FilenameChar(c)
    ensures SafeFilename(a + [c] + b) == SafeFilename(a + b)
  {
    KeepFilenameCharsAppend(a + [c], b);
    KeepFilenameCharsAppend(a, [c]);
    KeepFilenameCharsAppend(a, b);
    assert KeepFilenameChars([c]) == [];
    assert KeepFilenameChars(a + [c] + b) == KeepFilenameChars(a + b);
  }

  /** `rstrip` keeps a string that ends in a safe character. */
  lemma SafeEndKept(s: string)
    requires s != [] && SafeChar(s[|s| - 1])
    ensures PyRStrip(s) == s
  {
    assert !IsPySpace(s[|s| - 1]);
  }

  /** The one space between two names without spaces becomes `_`. */
  lemma SpaceReplaced(a: string, b: string)
    requires forall i :: 0 <= i < |a| ==> SafeChar(a[i])
    requires forall i :: 0 <= i < |b| ==> SafeChar(b[i])
    ensures ReplaceSpaces(a + " " + b) == a + "_" + b
  {
    var sp, us := [' '], ['_'];
    ReplaceSpacesAppend(a + sp, b);
    ReplaceSpacesAppend(a, sp);
    NoSpacesKept(a);
    NoSpacesKept(b);
    OneSpace();
    assert ReplaceSpaces(a + sp + b) == a + us + b;
    assert a + " " + b == a + sp + b && a + "_" + b == a + us + b;
  }

  /** A lone space becomes a lone `_`. */
  lemma OneSpace()
    ensures ReplaceSpaces([' ']) == ['_']
  {
    assert [' '][1..] == [];
  }

  /** `replace` works piece by piece. */
  lemma {:induction false} ReplaceSpacesAppend(a: string, b: string)
    ensures ReplaceSpaces(a + b) == ReplaceSpaces(a) + ReplaceSpaces(b)
    decreases |a|
  {
    if a == [] {
      assert a + b == b;
    } else {
      assert (a + b)[0] == a[0] && (a + b)[1..] == a[1..] + b;
      ReplaceSpacesAppend(a[1..], b);
    }
  }

  /** A name of safe characters holds no space to replace. */
  lemma NoSpacesKept(a: string)
    requires forall i :: 0 <= i < |a| ==> SafeChar(a[i])
    ensures ReplaceSpaces(a) == a
  {
    var r := ReplaceSpaces(a);
    forall i | 0 <= i < |a| ensures r[i] == a[i] {
      assert SafeChar(a[i]);
    }
  }

  /** A space between two safe names becomes an underscore. */
  lemma SafeFilenameSpace(a: string, b: string)
    requires a != [] && forall i :: 0 <= i < |a| ==> SafeChar(a[i])
    requires b != [] && forall i :: 0 <= i < |b| ==> SafeChar(b[i])
    ensures SafeFilename(a + " " + b) == a + "_" + b
  {
    var s := a + " " + b;
    assert KeepFilenameChars(s) == s by {
      assert forall i :: 0 <= i < |s| ==> FilenameChar(s[i]);
    }
    SafeEndKept(s);
    SpaceReplaced(a, b);
  }

  /** Making a safe filename safe again changes nothing. */
  lemma SafeFilenameIdempotent(owner: string)
    ensures SafeFilename(SafeFilename(owner)) == SafeFilename(owner)
  {
    SafeFilenameOfSafe(SafeFilename(owner));
  }

  /** What `ca_owners_list` holds for an owner before its file name is
      attached. */
  datatype Entry = Entry(owner: string, recordCount: nat, countries: seq<string>, counts: Counts)

  /** The entry of owner `o`, from the group of its records. */
  function EntryOf(records: seq<Record>, o: string): Entry {
    var group := Group(records, Owner, o);
    Entry(o, |group|, SortedValues(group, Country), CountsOf(KindsOf(group)))
  }

  function EntryOwner(e: Entry): string {
    e.owner
  }

  /** An owner's entry of the main file, with `output_filename`. */
  datatype Listed = Listed(entry: Entry, outputFilename: string)

  /** `main_json`. */
  datatype Summary = Summary(totalOwners: nat, totalRecords: nat, owners: seq<Listed>)

  /** The entries of `ca_owners_list`, in the order of `ca_owners`. */
  function Entries(records: seq<Record>): (r: seq<Entry>)
    ensures |r| == |Keys(records, Owner)|
    ensures forall i :: 0 <= i < |r| ==> r[i].owner == Keys(records, Owner)[i]
    ensures forall i :: 0 <= i < |r| ==> r[i] == EntryOf(records, Keys(records, Owner)[i])
  {
    var owners := Keys(records, Owner);
    seq(|owners|, i requires 0 <= i < |owners| => EntryOf(records, owners[i]))
  }

  /** What `convert_ccadb_csv_to_json` writes to the main file, from the
      cleaned records. Each entry gets the file name of its own owner,
      which is what the loop that attaches the names gives it, owners being
      distinct. */
  function Summarize(records: seq<Record>): (r: Summary)
    ensures r.totalRecords == |records|
    ensures r.totalOwners == |r.owners|
    ensures forall i :: 0 <= i < |r.owners| ==>
              r.owners[i].outputFilename == SafeFilename(r.owners[i].entry.owner) + ".json"
  {
    var sorted := SortBy(Entries(records), EntryOwner);
    Summary(|sorted|, |records|, Attach(sorted))
  }

  /** Each entry with `output_filename`, the safe name of its owner. */
  function Attach(es: seq<Entry>): (r: seq<Listed>)
    ensures |r| == |es|
    ensures forall i :: 0 <= i < |es| ==> r[i].entry == es[i]
    ensures forall i :: 0 <= i < |es| ==> r[i].outputFilename == SafeFilename(es[i].owner) + ".json"
    decreases |es|
  {
    if es == [] then []
    else [Listed(es[0], SafeFilename(es[0].owner) + ".json")] + Attach(es[1..])
  }

  /** `convert_ccadb_csv_to_json` on the parsed CSV: its header line and
      the lines after it. */
  function Convert(header: seq<string>, lines: seq<seq<string>>): (r: Result<Summary>)
    ensures r.Err? <==> exists i :: 0 <= i < |lines| && |lines[i]| > |header|
    ensures r.Err? ==> r.fault == AttributeError
    ensures r.Ok? ==> r.value.totalRecords <= |lines|
    ensures r.Ok? && (forall i :: 0 <= i < |lines| ==> lines[i] != []) ==> r.value.totalRecords == |lines|
  {
    var rows := ReadRows(header, lines);
    var records :- MapAll(CleanLine, rows);
    ConvertFails(header, lines);
    Ok(Summarize(records))
  }

  /** Cleaning the rows fails exactly when some line is longer than the
      header: an empty line is never longer, and every other line is read. */
  lemma ConvertFails(header: seq<string>, lines: seq<seq<string>>)
    ensures MapAll(CleanLine, ReadRows(header, lines)).Err? <==>
              exists i :: 0 <= i < |lines| && |lines[i]| > |header|
  {
    if exists i :: 0 <= i < |lines| && |lines[i]| > |header| {
      var i :| 0 <= i < |lines| && |lines[i]| > |header|;
      LongLineFails(header, lines, i);
    }
    if MapAll(CleanLine, ReadRows(header, lines)).Err? {
      FailureFromLongLine(header, lines);
    }
  }

  /** A line longer than the header is read, and its row fails to clean. */
  lemma LongLineFails(header: seq<string>, lines: seq<seq<string>>, i: nat)
    requires i < |lines| && |lines[i]| > |header|
    ensures MapAll(CleanLine, ReadRows(header, lines)).Err?
  {
    var rows := ReadRows(header, lines);
    var line := ReadLine(header, lines[i]);
    assert line.rest != [];
    var k :| 0 <= k < |rows| && rows[k] == line;
    assert CleanLine(rows[k]).Err?;
  }

  /** When cleaning fails, some row has cells past the header. */
  lemma FailingRow(rows: seq<Line>) returns (k: nat)
    requires MapAll(CleanLine, rows).Err?
    ensures k < |rows| && rows[k].rest != []
  {
    k :| 0 <= k < |rows| && CleanLine(rows[k]) == Err(MapAll(CleanLine, rows).fault);
  }

  /** A row that fails to clean comes from a line longer than the header. */
  lemma FailureFromLongLine(header: seq<string>, lines: seq<seq<string>>)
    requires MapAll(CleanLine, ReadRows(header, lines)).Err?
    ensures exists i :: 0 <= i < |lines| && |lines[i]| > |header|
  {
    var k := FailingRow(ReadRows(header, lines));
    RowOfLongLine(header, lines, k);
  }

  /** The main file's list is the sorted entries, in that order. */
  lemma SummarizeListsSorted(records: seq<Record>)
    ensures var r, sorted := Summarize(records), SortBy(Entries(records), EntryOwner);
            |r.owners| == |sorted| && forall i :: 0 <= i < |sorted| ==> r.owners[i].entry == sorted[i]
  {
  }

  /** The owners of the entries are the keys of `ca_owners`, which are
      distinct. */
  lemma EntriesDistinct(records: seq<Record>)
    ensures KeysDistinct(Entries(records), EntryOwner)
  {
    var entries, owners := Entries(records), Keys(records, Owner);
    forall i, j | 0 <= i < j < |entries| ensures EntryOwner(entries[i]) != EntryOwner(entries[j]) {
      assert EntryOwner(entries[i]) == owners[i] && EntryOwner(entries[j]) == owners[j];
    }
  }

  /** The main file lists its owners in strictly ascending order of name. */
  lemma SummarizeOrdered(records: seq<Record>)
    ensures var r := Summarize(records);
            forall i, j :: 0 <= i < j < |r.owners| ==>
              LexLess(r.owners[i].entry.owner, r.owners[j].entry.owner)
  {
    SummarizeListsSorted(records);
    EntriesDistinct(records);
    SortByStrict(Entries(records), EntryOwner);
  }

  /** The main file lists owner `o`. */
  ghost predicate Lists(r: Summary, o: string) {
    exists i :: 0 <= i < |r.owners| && r.owners[i].entry.owner == o
  }

  /** The main file lists exactly the owners the records name. */
  lemma SummarizeOwners(records: seq<Record>)
    ensures forall o :: Lists(Summarize(records), o) <==> o != [] && HasKey(records, Owner, o)
  {
    ListsSorted(records);
    SortedOwners(records);
  }

  /** The main file lists the owners of the sorted entries. */
  lemma ListsSorted(records: seq<Record>)
    ensures forall o :: Lists(Summarize(records), o) <==> HasKey(SortBy(Entries(records), EntryOwner), EntryOwner, o)
  {
    SummarizeListsSorted(records);
    ListsOf(Summarize(records), SortBy(Entries(records), EntryOwner));
  }

  /** A summary whose list holds `es` lists exactly their owners. */
  lemma ListsOf(r: Summary, es: seq<Entry>)
    requires |r.owners| == |es| && forall i :: 0 <= i < |es| ==> r.owners[i].entry == es[i]
    ensures forall o :: Lists(r, o) <==> HasKey(es, EntryOwner, o)
  {
    forall o ensures Lists(r, o) <==> HasKey(es, EntryOwner, o) {
      if Lists(r, o) {
        var i :| 0 <= i < |r.owners| && r.owners[i].entry.owner == o;
        assert EntryOwner(es[i]) == o;
      }
      if HasKey(es, EntryOwner, o) {
        var i :| 0 <= i < |es| && EntryOwner(es[i]) == o;
        assert r.owners[i].entry.owner == o;
      }
    }
  }

  /** The sorted entries are those of the owners the records name. */
  lemma SortedOwners(records: seq<Record>)
    ensures forall o :: HasKey(SortBy(Entries(records), EntryOwner), EntryOwner, o) <==>
                        o != [] && HasKey(records, Owner, o)
  {
    SortByKeys(Entries(records), EntryOwner);
    EntriesOwners(Entries(records), Keys(records, Owner));
  }

  /** Entries whose owners are `owners`, in order, have exactly those
      owners. */
  lemma EntriesOwners(entries: seq<Entry>, owners: seq<string>)
    requires |entries| == |owners| && forall i :: 0 <= i < |entries| ==> entries[i].owner == owners[i]
    ensures forall o :: HasKey(entries, EntryOwner, o) <==> o in owners
  {
    forall o ensures HasKey(entries, EntryOwner, o) <==> o in owners {
      if HasKey(entries, EntryOwner, o) {
        var a :| 0 <= a < |entries| && EntryOwner(entries[a]) == o;
        assert owners[a] == o;
      }
      if o in owners {
        var a :| 0 <= a < |owners| && owners[a] == o;
        assert EntryOwner(entries[a]) == o;
      }
    }
  }

  /** Each listed owner carries the entry its group of records makes. */
  lemma SummarizeEntries(records: seq<Record>)
    ensures var r := Summarize(records);
            forall i :: 0 <= i < |r.owners| ==>
              r.owners[i].entry == EntryOf(records, r.owners[i].entry.owner)
  {
    SummarizeListsSorted(records);
    SortByMembers(Entries(records), EntryOwner);
  }

  /** The groups and the records without an owner account for every
      record: `total_records` counts the latter too. */
  lemma SummarizeCountsEveryRecord(records: seq<Record>)
    ensures GroupTotal(records, Owner, Keys(records, Owner)) + Unkeyed(records, Owner) == Summarize(records).totalRecords
  {
    EveryItemCounted(records, Owner);
  }
}

=== FILE: ct_description.dfy ===
/** The description normaliser of js/ct.js: a fixed chain of textual
    rewrites that make the two feeds' descriptions of one log compare equal. */
module CtDescription {
  import opened Results
  import opened Json
  import opened Text

  /** ct.js `dropPrefix(prefix, str)`: remove `prefix` if `str` starts with
      it, then trim. */
  function DropPrefix(prefix: string, str: string): (r: string)
    ensures JsTrimmed(r)
    ensures !StartsWith(str, prefix) ==> r == JsTrim(str)
    ensures IsInfix(r, str)
  {
    var s := RemovePrefix(str, prefix);
    assert InfixAt(s, str, if StartsWith(str, prefix) then |prefix| else 0);
    InfixTransitive(JsTrim(s), s, str);
    JsTrim(s)
  }

  /** ct.js `dropSuffix(suffix, str)`: remove `suffix` if `str` ends with it,
      then trim. */
  function DropSuffix(suffix: string, str: string): (r: string)
    ensures JsTrimmed(r)
    ensures !EndsWith(str, suffix) ==> r == JsTrim(str)
    ensures IsInfix(r, str)
  {
    var s := RemoveSuffix(str, suffix);
    assert InfixAt(s, str, 0);
    InfixTransitive(JsTrim(s), s, str);
    JsTrim(s)
  }

  /** ct.js `dropPrefix(operator, str)` with the operator's name as the
      document holds it, which need not be a string. `startsWith` compares
      against its ToString; `substring(prefix.length)` then throws for
      `undefined` and `null`, removes nothing for a number or a boolean
      (their `length` is `undefined`, read as 0), and removes as many
      characters as an array has elements. */
  function DropOperator(operator: Value, str: string): (r: Result<string>)
    ensures r.Err? <==> (operator.Undefined? || operator.Null?) && StartsWith(str, JsToString(operator))
    ensures r.Err? ==> r.fault == TypeError
    ensures operator.Str? ==> r == Ok(DropPrefix(operator.s, str))
    ensures r.Ok? && !operator.Str? && !operator.Arr? ==> r.value == JsTrim(str)
    ensures operator.Arr? && StartsWith(str, JsToString(operator)) ==>
              r == Ok(JsTrim(str[if |operator.elems| <= |str| then |operator.elems| else |str|..]))
    ensures r.Ok? ==> JsTrimmed(r.value) && IsInfix(r.value, str)
  {
    if !StartsWith(str, JsToString(operator)) then
      TrimmedTail(str, 0);
      Ok(JsTrim(str))
    else
      match operator
      case Undefined => Err(TypeError)
      case Null => Err(TypeError)
      case Str(p) => Ok(DropPrefix(p, str))
      case Arr(es) =>
        var n := if |es| <= |str| then |es| else |str|;
        TrimmedTail(str, n);
        Ok(JsTrim(str[n..]))
      case _ =>
        TrimmedTail(str, 0);
        Ok(JsTrim(str))
  }

  /** `str.substring(n).trim()` is a piece of `str`. */
  lemma TrimmedTail(str: string, n: nat)
    requires n <= |str|
    ensures IsInfix(JsTrim(str[n..]), str)
    ensures n == 0 ==> str[n..] == str
  {
    assert InfixAt(str[n..], str, n);
    InfixTransitive(JsTrim(str[n..]), str[n..], str);
  }

  lemma InfixTransitive(a: string, b: string, c: string)
    requires IsInfix(a, b) && IsInfix(b, c)
    ensures IsInfix(a, c)
  {
    var i :| InfixAt(a, b, i);
    var j :| InfixAt(b, c, j);
    forall k | 0 <= k < |a| ensures c[j + i + k] == a[k] {
      assert a[k] == b[i + k];
      assert b[i + k] == c[j + i + k];
    }
    assert c[j + i..j + i + |a|] == a;
    assert InfixAt(a, c, i + j);
  }

  /** The first index `j` in `from..n` with `p(j)`, or `n` when there is none. */
  function FirstIndex(n: nat, p: nat -> bool, from: nat): (r: nat)
    requires from <= n
    ensures from <= r <= n
    ensures r < n ==> p(r)
    ensures forall j :: from <= j < r ==> !p(j)
    decreases n - from
  {
    if from == n || p(from) then from else FirstIndex(n, p, from + 1)
  }

  /** The regular expression `20[0-9][0-9]` matches at `i`. */
  predicate YearAt(s: string, i: nat) {
    i + 4 <= |s| && s[i] == '2' && s[i + 1] == '0' && IsDigit(s[i + 2]) && IsDigit(s[i + 3])
  }

  /** `(20[0-9][0-9])H([12])` matches at `i`. */
  predicate HalfYearAt(s: string, i: nat) {
    i + 6 <= |s| && YearAt(s, i) && s[i + 4] == 'H' && (s[i + 5] == '1' || s[i + 5] == '2')
  }

  /** `(20[0-9][0-9])` followed by the letter `letter` matches at `i`. */
  predicate YearLetterAt(s: string, i: nat, letter: char) {
    i + 5 <= |s| && YearAt(s, i) && s[i + 4] == letter
  }

  /** The literal `' log #2` occurs at `i`. */
  predicate LogTwoAt(s: string, i: nat) {
    i + 8 <= |s| && s[i..i + 8] == "' log #2"
  }

  /** ` (20[0-9][0-9])` matches at `i`. */
  predicate SpacedYearAt(s: string, i: nat) {
    i + 5 <= |s| && s[i] == ' ' && YearAt(s, i + 1)
  }

  /** `s.replace(/(20[0-9][0-9])H([12])/, "$1h$2")`: the leftmost match only
      has its `H` lowered. */
  function LowerHalfYear(s: string): (r: string)
    ensures |r| == |s|
    ensures (forall j :: 0 <= j < |s| ==> !HalfYearAt(s, j)) ==> r == s
    ensures forall i :: 0 <= i < |s| && HalfYearAt(s, i) && (forall j :: 0 <= j < i ==> !HalfYearAt(s, j)) ==>
              r == s[i + 4 := 'h']
  {
    var p := (j: nat) => HalfYearAt(s, j);
    var i := FirstIndex(|s|, p, 0);
    assert forall k :: 0 <= k < i ==> !HalfYearAt(s, k) by {
      forall k | 0 <= k < i ensures !HalfYearAt(s, k) { assert !p(k); }
    }
    if i < |s| then assert p(i); s[i + 4 := 'h'] else s
  }

  /** `s.replace(/(20[0-9][0-9])A/, "$1a")` for `upper` = `A`, `lower` = `a`,
      and likewise for `B`: the leftmost match only. */
  function LowerYearLetter(s: string, upper: char, lower: char): (r: string)
    ensures |r| == |s|
    ensures (forall j :: 0 <= j < |s| ==> !YearLetterAt(s, j, upper)) ==> r == s
    ensures forall i :: 0 <= i < |s| && YearLetterAt(s, i, upper)
                        && (forall j :: 0 <= j < i ==> !YearLetterAt(s, j, upper)) ==>
              r == s[i + 4 := lower]
  {
    var p := (j: nat) => YearLetterAt(s, j, upper);
    var i := FirstIndex(|s|, p, 0);
    assert forall k :: 0 <= k < i ==> !YearLetterAt(s, k, upper) by {
      forall k | 0 <= k < i ensures !YearLetterAt(s, k, upper) { assert !p(k); }
    }
    if i < |s| then assert p(i); s[i + 4 := lower] else s
  }

  /** `s.replace(/' log #2/, "-2")`: the leftmost occurrence only. */
  function ReplaceLogTwo(s: string): (r: string)
    ensures (forall j :: 0 <= j < |s| ==> !LogTwoAt(s, j)) ==> r == s
    ensures forall i :: 0 <= i < |s| && LogTwoAt(s, i) && (forall j :: 0 <= j < i ==> !LogTwoAt(s, j)) ==>
              r == s[..i] + "-2" + s[i + 8..]
  {
    var p := (j: nat) => LogTwoAt(s, j);
    var i := FirstIndex(|s|, p, 0);
    assert forall k :: 0 <= k < i ==> !LogTwoAt(s, k) by {
      forall k | 0 <= k < i ensures !LogTwoAt(s, k) { assert !p(k); }
    }
    if i < |s| then assert p(i); s[..i] + "-2" + s[i + 8..] else s
  }

  /** `s.replace(/ (20[0-9][0-9])/g, "$1")`: every match, scanning left to
      right and resuming after each match, loses its space. */
  function RemoveYearSpaces(s: string): (r: string)
    ensures |r| <= |s|
  {
    if SpacedYearAt(s, 0) then s[1..5] + RemoveYearSpaces(s[5..])
    else if s == [] then []
    else [s[0]] + RemoveYearSpaces(s[1..])
  }

  /** ct.js:27-30: known operator-name variants, stripped from the front. */
  function StripKnownNames(s: string): (r: string)
    ensures JsTrimmed(r)
  {
    var s := DropPrefix("Symantec", s);
    var s := DropPrefix("Up In The Air", s);
    var s := DropPrefix("Trust Asia", s);
    DropPrefix("Nordu", s)
  }

  /** ct.js:27-31: the known variants, then the operator's own name. */
  function StripOperator(operator: Value, s: string): (r: Result<string>)
    ensures r.Ok? ==> JsTrimmed(r.value)
  {
    DropOperator(operator, StripKnownNames(s))
  }

  /** ct.js:32-35: the "CT Log" / "log" endings. */
  function StripLogSuffix(s: string): (r: string)
    ensures JsTrimmed(r)
  {
    var s := DropSuffix("CT Log", s);
    var s := DropSuffix("CT log", s);
    var s := DropSuffix("Log", s);
    DropSuffix("log", s)
  }

  /** ct.js:36-40: surrounding apostrophes, then a leading "Log", "log" or
      "CT Log". */
  function StripQuotes(s: string): (r: string)
    ensures JsTrimmed(r)
  {
    var s := DropPrefix("'", s);
    var s := DropSuffix("'", s);
    var s := DropPrefix("Log", s);
    var s := DropPrefix("log", s);
    DropPrefix("CT Log", s)
  }

  /** All the strips of ct.js:27-40, in order; every one of them trims. */
  function Strips(operator: Value, s: string): (r: Result<string>)
    ensures r.Ok? ==> JsTrimmed(r.value)
  {
    var t :- StripOperator(operator, s);
    Ok(StripQuotes(StripLogSuffix(t)))
  }

  /** The rewrites of ct.js:19-25, in order. */
  function Rewrite(description: string): string {
    var lowered := LowerYearLetter(LowerYearLetter(LowerHalfYear(description), 'A', 'a'), 'B', 'b');
    RemoveYearSpaces(ReplaceLogTwo(lowered))
  }

  /** The text `dropPrefix(operator, _)` receives at ct.js:31. */
  function BeforeOperator(description: string): string {
    StripKnownNames(Rewrite(description))
  }

  /** `normalizeDescription` throws: the operator is `undefined` or `null`
      (a log whose operator has no name), and what is left of the
      description after the known names starts with "undefined" or "null". */
  predicate OperatorThrows(operator: Value, description: string) {
    (operator.Undefined? || operator.Null?) && StartsWith(BeforeOperator(description), JsToString(operator))
  }

  /** ct.js `normalizeDescription(operator, description)`. The original text
      is the answer whenever the strips leave nothing, so the answer is never
      empty unless the input was; any other answer is trimmed. */
  function NormalizeDescription(operator: Value, description: string): (r: Result<string>)
    ensures r.Err? <==> OperatorThrows(operator, description)
    ensures r.Err? ==> r.fault == TypeError
    ensures r.Ok? && description != "" ==> r.value != ""
    ensures r.Ok? ==> r.value == description || (r.value != "" && JsTrimmed(r.value))
  {
    var stripped :- Strips(operator, Rewrite(description));
    Ok(if |stripped| == 0 then description else stripped)
  }

  lemma FirstIndexAt(n: nat, p: nat -> bool, from: nat, k: nat)
    requires from <= k < n && p(k)
    requires forall j :: from <= j < k ==> !p(j)
    ensures FirstIndex(n, p, from) == k
  {
  }

  lemma FirstIndexNone(n: nat, p: nat -> bool, from: nat)
    requires from <= n
    requires forall j :: from <= j < n ==> !p(j)
    ensures FirstIndex(n, p, from) == n
  {
  }

  lemma {:induction false} RemoveYearSpacesUnchanged(s: string)
    requires forall i :: 0 <= i < |s| ==> s[i] == ' ' ==> !YearAt(s, i + 1)
    ensures RemoveYearSpaces(s) == s
  {
    if s != [] {
      assert !SpacedYearAt(s, 0);
      forall i | 0 <= i < |s[1..]| && s[1..][i] == ' ' ensures !YearAt(s[1..], i + 1) {
        assert s[i + 1] == ' ';
        assert !YearAt(s, i + 2);
      }
      RemoveYearSpacesUnchanged(s[1..]);
      assert s == [s[0]] + s[1..];
    }
  }

  /** In the Argon descriptions the only place `20[0-9][0-9]` matches is the
      year at index 13. */
  lemma ArgonYears(s: string)
    requires s == "Google 'Argon2022H1' log" || s == "Google 'Argon2022h1' log"
    ensures forall j :: YearAt(s, j) ==> j == 13
  {
    assert s[..13] == "Google 'Argon";
    assert s[17..] == "H1' log" || s[17..] == "h1' log";
    forall j: nat | YearAt(s, j) ensures j == 13 {
      if j < 13 {
        assert false;
      } else if j >= 17 {
        assert false;
      }
    }
  }

  lemma ArgonHalfYear(s: string, t: string)
    requires s == "Google 'Argon2022H1' log" || s == "Google 'Argon2022h1' log"
    requires t == "Google 'Argon2022h1' log"
    ensures LowerHalfYear(s) == t
  {
    ArgonYears(s);
    if s[17] == 'H' {
      FirstIndexAt(|s|, (j: nat) => HalfYearAt(s, j), 0, 13);
    } else {
      FirstIndexNone(|s|, (j: nat) => HalfYearAt(s, j), 0);
    }
  }

  lemma ArgonYearLetters(t: string)
    requires t == "Google 'Argon2022h1' log"
    ensures LowerYearLetter(t, 'A', 'a') == t
    ensures LowerYearLetter(t, 'B', 'b') == t
  {
    ArgonYears(t);
    FirstIndexNone(|t|, (j: nat) => YearLetterAt(t, j, 'A'), 0);
    FirstIndexNone(|t|, (j: nat) => YearLetterAt(t, j, 'B'), 0);
  }

  lemma ArgonLogTwo(t: string)
    requires t == "Google 'Argon2022h1' log"
    ensures ReplaceLogTwo(t) == t
  {
    assert t[..17] == "Google 'Argon2022";
    forall j | 0 <= j < |t| ensures !LogTwoAt(t, j) {
      if j + 8 <= |t| {
        assert t[j..j + 8][0] == t[j] && t[j..j + 8][1] == t[j + 1];
        assert t[j] == t[..17][j];
      }
    }
    FirstIndexNone(|t|, (j: nat) => LogTwoAt(t, j), 0);
  }

  lemma ArgonYearSpaces(t: string)
    requires t == "Google 'Argon2022h1' log"
    ensures RemoveYearSpaces(t) == t
  {
    ArgonYears(t);
    assert t[..13] == "Google 'Argon";
    forall i | 0 <= i < |t| && t[i] == ' ' ensures !YearAt(t, i + 1) {
      if i < 13 { assert t[i] == t[..13][i]; }
    }
    RemoveYearSpacesUnchanged(t);
  }

  lemma ArgonRewrite(s: string, t: string)
    requires s == "Google 'Argon2022H1' log" || s == "Google 'Argon2022h1' log"
    requires t == "Google 'Argon2022h1' log"
    ensures Rewrite(s) == t
  {
    ArgonHalfYear(s, t);
    ArgonYearLetters(t);
    ArgonLogTwo(t);
    ArgonYearSpaces(t);
  }

  /** A trimmed string that differs from `p` at index `k` keeps its shape
      under `DropPrefix(p, _)`. */
  lemma DropPrefixAbsent(p: string, s: string, k: nat)
    requires JsTrimmed(s) && k < |p|
    requires |p| > |s| || s[k] != p[k]
    ensures DropPrefix(p, s) == s
  {
    if |p| <= |s| {
      assert s[..|p|][k] != p[k];
    }
    JsTrimOfTrimmed(s);
  }

  /** Likewise for `DropSuffix`, counting `k` from the start of the suffix. */
  lemma DropSuffixAbsent(p: string, s: string, k: nat)
    requires JsTrimmed(s) && k < |p|
    requires |p| > |s| || s[|s| - |p| + k] != p[k]
    ensures DropSuffix(p, s) == s
  {
    if |p| <= |s| {
      assert s[|s| - |p|..][k] != p[k];
    }
    JsTrimOfTrimmed(s);
  }

  /** `DropPrefix` on `p` followed by a trimmed `t`, with or without one
      space between them, gives `t`. */
  lemma DropPrefixHit(p: string, s: string, t: string)
    requires JsTrimmed(t)
    requires s == p + t || (t != [] && s == p + " " + t)
    ensures DropPrefix(p, s) == t
  {
    assert s[..|p|] == p;
    if s == p + t {
      assert s[|p|..] == t;
      JsTrimOfTrimmed(t);
    } else {
      assert s[|p|..] == " " + t;
      JsTrimSpaced(t);
    }
  }

  /** `DropSuffix` on a trimmed `t` followed by `p`, with or without one space
      between them, gives `t`. */
  lemma DropSuffixHit(p: string, s: string, t: string)
    requires JsTrimmed(t)
    requires s == t + p || (t != [] && s == t + " " + p)
    ensures DropSuffix(p, s) == t
  {
    assert s[|s| - |p|..] == p;
    if s == t + p {
      assert s[..|s| - |p|] == t;
      JsTrimOfTrimmed(t);
    } else {
      assert s[..|s| - |p|] == t + " ";
      JsTrimSpaced(t);
    }
  }

  lemma ArgonDropOperator(t0: string, t1: string)
    requires t0 == "Google 'Argon2022h1' log" && t1 == "'Argon2022h1' log"
    ensures DropPrefix("Google", t0) == t1
  {
    assert JsTrimmed(t1);
    assert t0 == "Google" + " " + t1;
    DropPrefixHit("Google", t0, t1);
  }

  lemma ArgonDropLog(t1: string, t2: string)
    requires t1 == "'Argon2022h1' log" && t2 == "'Argon2022h1'"
    ensures DropSuffix("log", t1) == t2
  {
    DropSuffixHit("log", t1, t2);
  }

  lemma ArgonDropOpenQuote(t2: string, t3: string)
    requires t2 == "'Argon2022h1'" && t3 == "Argon2022h1'"
    ensures DropPrefix("'", t2) == t3
  {
    DropPrefixHit("'", t2, t3);
  }

  lemma ArgonDropCloseQuote(t3: string, t4: string)
    requires t3 == "Argon2022h1'" && t4 == "Argon2022h1"
    ensures DropSuffix("'", t3) == t4
  {
    DropSuffixHit("'", t3, t4);
  }

  lemma ArgonStripOperator(t0: string, t1: string)
    requires t0 == "Google 'Argon2022h1' log" && t1 == "'Argon2022h1' log"
    ensures StripOperator(Str("Google"), t0) == Ok(t1)
  {
    DropPrefixAbsent("Symantec", t0, 0);
    DropPrefixAbsent("Up In The Air", t0, 0);
    DropPrefixAbsent("Trust Asia", t0, 0);
    DropPrefixAbsent("Nordu", t0, 0);
    ArgonDropOperator(t0, t1);
  }

  lemma ArgonKeepsLogSuffix(p: string, t1: string)
    requires p == "CT Log" || p == "CT log" || p == "Log"
    requires t1 == "'Argon2022h1' log"
    ensures DropSuffix(p, t1) == t1
  {
    DropSuffixAbsent(p, t1, 0);
  }

  lemma ArgonStripLogSuffix(t1: string, t2: string)
    requires t1 == "'Argon2022h1' log" && t2 == "'Argon2022h1'"
    ensures StripLogSuffix(t1) == t2
  {
    ArgonKeepsLogSuffix("CT Log", t1);
    ArgonKeepsLogSuffix("CT log", t1);
    ArgonKeepsLogSuffix("Log", t1);
    ArgonDropLog(t1, t2);
  }

  lemma ArgonStripQuotes(t2: string, t4: string)
    requires t2 == "'Argon2022h1'" && t4 == "Argon2022h1"
    ensures StripQuotes(t2) == t4
  {
    ArgonDropOpenQuote(t2, "Argon2022h1'");
    ArgonDropCloseQuote("Argon2022h1'", t4);
    DropPrefixAbsent("Log", t4, 0);
    DropPrefixAbsent("log", t4, 0);
    DropPrefixAbsent("CT Log", t4, 0);
  }

  /** Both feeds' spellings of Google's Argon 2022 first-half log come out as
      the same token. */
  lemma ArgonExample(description: string, token: string)
    requires description == "Google 'Argon2022H1' log" || description == "Google 'Argon2022h1' log"
    requires token == "Argon2022h1"
    ensures NormalizeDescription(Str("Google"), description) == Ok(token)
  {
    var t0 := "Google 'Argon2022h1' log";
    var t1 := "'Argon2022h1' log";
    var t2 := "'Argon2022h1'";
    ArgonRewrite(description, t0);
    ArgonStripOperator(t0, t1);
    ArgonStripLogSuffix(t1, t2);
    ArgonStripQuotes(t2, token);
  }

  /** `s` holds no decimal digit. */
  predicate NoDigits(s: string) {
    forall i :: 0 <= i < |s| ==> !IsDigit(s[i])
  }

  /** None of the variants ct.js:27-30 strips starts `s`. */
  predicate NoKnownName(s: string) {
    && !StartsWith(s, "Symantec") && !StartsWith(s, "Up In The Air")
    && !StartsWith(s, "Trust Asia") && !StartsWith(s, "Nordu")
  }

  /** Every pattern the rewrites look for holds a digit, so a text without
      digits is left alone. */
  lemma RewriteNoDigits(s: string)
    requires NoDigits(s)
    ensures Rewrite(s) == s
  {
    forall j | 0 <= j < |s| ensures !YearAt(s, j) && !LogTwoAt(s, j) {
      if j + 8 <= |s| {
        assert s[j..j + 8][7] == s[j + 7];
      }
    }
    assert LowerHalfYear(s) == s;
    assert LowerYearLetter(s, 'A', 'a') == s;
    assert LowerYearLetter(s, 'B', 'b') == s;
    assert ReplaceLogTwo(s) == s;
    RemoveYearSpacesUnchanged(s);
  }

  lemma StripKnownNamesNone(s: string)
    requires JsTrimmed(s) && NoKnownName(s)
    ensures StripKnownNames(s) == s
  {
    JsTrimOfTrimmed(s);
  }

  /** The front of a digit-free, trimmed description that starts with the
      operator's name: the rewrites and the known variants keep it, and the
      name and the space after it go. */
  lemma StripOperatorLeading(op: string, d: string, t: string)
    requires op != [] && JsTrimmed(op) && NoDigits(op)
    requires t != [] && JsTrimmed(t) && NoDigits(t)
    requires d == op + " " + t && NoKnownName(d)
    ensures StripOperator(Str(op), Rewrite(d)) == Ok(t)
  {
    assert NoDigits(d) by {
      forall i | 0 <= i < |d| ensures !IsDigit(d[i]) {
        if i < |op| { assert d[i] == op[i]; }
        else if i > |op| { assert d[i] == t[i - |op| - 1]; }
      }
    }
    RewriteNoDigits(d);
    assert d[0] == op[0] && d[|d| - 1] == t[|t| - 1];
    StripKnownNamesNone(d);
    DropPrefixHit(op, d, t);
  }

  /** `'<name>' log` loses its "log" ending. */
  lemma QuotedLogEnding(x: string, t1: string, t2: string)
    requires x != [] && JsTrimmed(x)
    requires t1 == "'" + x + "' log" && t2 == "'" + x + "'"
    ensures StripLogSuffix(t1) == t2
  {
    QuotedKeepsLongEndings(x, t1);
    QuotedLogShape(x, t1, t2);
    DropSuffixHit("log", t1, t2);
  }

  /** None of "CT Log", "CT log" and "Log" ends `'<name>' log`. */
  lemma QuotedKeepsLongEndings(x: string, t1: string)
    requires x != [] && JsTrimmed(x)
    requires t1 == "'" + x + "' log"
    ensures DropSuffix("Log", DropSuffix("CT log", DropSuffix("CT Log", t1))) == t1
  {
    QuotedKeepsEnding("CT Log", x, t1);
    QuotedKeepsEnding("CT log", x, t1);
    QuotedKeepsEnding("Log", x, t1);
  }

  lemma QuotedKeepsEnding(p: string, x: string, t1: string)
    requires p == "CT Log" || p == "CT log" || p == "Log"
    requires x != [] && JsTrimmed(x)
    requires t1 == "'" + x + "' log"
    ensures DropSuffix(p, t1) == t1
  {
    assert t1[|t1| - 5] == '\'' && t1[|t1| - 3] == 'l';
    assert JsTrimmed(t1);
    DropSuffixAbsent(p, t1, if p == "Log" then 0 else 1);
  }

  lemma QuotedLogShape(x: string, t1: string, t2: string)
    requires t1 == "'" + x + "' log" && t2 == "'" + x + "'"
    ensures t1 == t2 + " " + "log"
  {
    var r := t2 + " " + "log";
    assert |t1| == |r|;
    forall i | 0 <= i < |t1| ensures t1[i] == r[i] {
      if i <= |x| {
        assert t1[i] == ("'" + x)[i] == t2[i];
      }
    }
  }

  /** `'<name>'` loses its quotes. */
  lemma QuotedName(x: string, t2: string)
    requires x != [] && JsTrimmed(x)
    requires !StartsWith(x, "Log") && !StartsWith(x, "log") && !StartsWith(x, "CT Log")
    requires t2 == "'" + x + "'"
    ensures StripQuotes(t2) == x
  {
    assert t2 == "'" + (x + "'");
    DropPrefixHit("'", t2, x + "'");
    DropSuffixHit("'", x + "'", x);
    JsTrimOfTrimmed(x);
  }

  /** The usual shape of a description, `<operator> '<name>' log`, comes out
      as `<name>`: the operator, the "log" ending and the quotes go. */
  lemma NormalizeQuoted(op: string, x: string)
    requires op != [] && JsTrimmed(op) && NoDigits(op)
    requires x != [] && JsTrimmed(x) && NoDigits(x)
    requires NoKnownName(op + " '" + x + "' log")
    requires !StartsWith(x, "Log") && !StartsWith(x, "log") && !StartsWith(x, "CT Log")
    ensures NormalizeDescription(Str(op), op + " '" + x + "' log") == Ok(x)
  {
    var d := op + " '" + x + "' log";
    var t1 := "'" + x + "' log";
    QuotedNoDigits(x, t1);
    assert d == op + " " + t1;
    StripOperatorLeading(op, d, t1);
    var t2 := "'" + x + "'";
    QuotedLogEnding(x, t1, t2);
    QuotedName(x, t2);
    NormalizeFromStrips(Str(op), d, t1, x);
  }

  lemma QuotedNoDigits(x: string, t1: string)
    requires NoDigits(x) && t1 == "'" + x + "' log"
    ensures NoDigits(t1)
  {
    forall i | 0 <= i < |t1| ensures !IsDigit(t1[i]) {
      if 1 <= i <= |x| { assert t1[i] == x[i - 1]; }
    }
  }

  /** A description that is only the operator's name and "log" strips to
      nothing, so the original is kept (the "StartCom log" case of ct.js:42). */
  lemma NormalizeOperatorLog(op: string)
    requires op != [] && JsTrimmed(op) && NoDigits(op)
    requires NoKnownName(op + " log")
    ensures NormalizeDescription(Str(op), op + " log") == Ok(op + " log")
  {
    var d := op + " log";
    assert d == op + " " + "log";
    StripOperatorLeading(op, d, "log");
    LogAlone("log");
    NormalizeFromStrips(Str(op), d, "log", "");
  }

  /** How the strips and the empty-result fallback of ct.js:42-47 combine,
      once the operator step is known to give `t`. */
  lemma NormalizeFromStrips(operator: Value, d: string, t: string, e: string)
    requires StripOperator(operator, Rewrite(d)) == Ok(t)
    requires StripQuotes(StripLogSuffix(t)) == e
    ensures NormalizeDescription(operator, d) == Ok(if e == [] then d else e)
  {
    assert Strips(operator, Rewrite(d)) == Ok(e);
  }

  lemma LogAlone(s: string)
    requires s == "log"
    ensures StripQuotes(StripLogSuffix(s)) == ""
  {
    LogEndingAlone(s);
    EmptyStripsToEmpty([]);
  }

  lemma LogEndingAlone(s: string)
    requires s == "log"
    ensures StripLogSuffix(s) == ""
  {
    LogKeepsLongEndings(s);
    LogDropsLog(s);
  }

  lemma LogKeepsLongEndings(s: string)
    requires s == "log"
    ensures DropSuffix("Log", DropSuffix("CT log", DropSuffix("CT Log", s))) == s
  {
    LogKeepsEnding("CT Log", s);
    LogKeepsEnding("CT log", s);
    LogKeepsEnding("Log", s);
  }

  lemma LogDropsLog(s: string)
    requires s == "log"
    ensures DropSuffix("log", s) == ""
  {
    assert s == [] + "log";
    DropSuffixHit("log", s, []);
  }

  lemma LogKeepsEnding(p: string, s: string)
    requires p == "CT Log" || p == "CT log" || p == "Log"
    requires s == "log"
    ensures DropSuffix(p, s) == s
  {
    DropSuffixAbsent(p, s, 0);
  }

  lemma EmptyStripsToEmpty(e: string)
    requires e == []
    ensures StripQuotes(e) == []
  {
    JsTrimOfTrimmed(e);
  }
}

=== FILE: ct_index.dfy ===
/** The two log-list documents of js/ct.js, the url index built from each,
    and the merge of the two indexes. */
module CtIndex {
  import opened Results
  import opened Json
  import opened CtMerge

  /** One operator of a log-list document: `op["name"]` and `op["logs"]`. */
  datatype Operator = Operator(name: Value, logs: seq<Dict>)

  /** A log-list document: `input["operators"]`. */
  datatype LogList = LogList(operators: seq<Operator>)

  /** A JavaScript `Map` from a log's `url` to the log: `urls` is the
      iteration order, `logs` the contents. */
  datatype Index = Index(urls: seq<Value>, logs: map<Value, Dict>) {

    ghost predicate Valid() {
      && Distinct(urls)
      && (forall u :: u in logs <==> u in urls)
    }

    /** `m.set(u, log)`: a url already present keeps its position. */
    function Set(u: Value, log: Dict): (r: Index)
      ensures r.logs == logs[u := log]
      ensures Valid() ==> r.Valid()
    {
      if u in logs then Index(urls, logs[u := log]) else Index(urls + [u], logs[u := log])
    }

    /** The log stored under `u`; only ever read for a listed url. */
    function At(u: Value): Dict {
      if u in logs then logs[u] else EmptyDict
    }
  }

  const EmptyIndex := Index([], map[])

  /** The urls of a list of logs. */
  function UrlsOf(logs: seq<Dict>): set<Value> {
    set l | 0 <= l < |logs| :: logs[l].Get("url")
  }

  /** No later log of `logs` has the url of `logs[l]`. */
  predicate LastIn(logs: seq<Dict>, l: nat) {
    l < |logs| && forall m :: l < m < |logs| ==> logs[m].Get("url") != logs[l].Get("url")
  }

  /** A log as `mapData` stores it: its entries with `operator` set to its
      operator's name. */
  function Tagged(log: Dict, name: Value): Dict {
    log.Set("operator", name)
  }

  /** The inner loop of ct.js `mapData`: the logs of one operator, each
      stored under its url, a later one replacing an earlier one. */
  function AddLogs(idx: Index, name: Value, logs: seq<Dict>): (r: Index)
    ensures forall u :: u in r.logs <==> u in idx.logs || u in UrlsOf(logs)
    ensures forall l :: 0 <= l < |logs| && LastIn(logs, l) ==>
              logs[l].Get("url") in r.logs && r.logs[logs[l].Get("url")] == Tagged(logs[l], name)
    ensures forall u :: u in idx.logs && u !in UrlsOf(logs) ==> r.logs[u] == idx.logs[u]
    ensures idx.Valid() ==> r.Valid()
    decreases |logs|
  {
    if logs == [] then idx
    else
      var rest := logs[1..];
      assert UrlsOf(logs) == {logs[0].Get("url")} + UrlsOf(rest) by {
        forall u | u in UrlsOf(logs) ensures u in {logs[0].Get("url")} + UrlsOf(rest) {
          var l :| 0 <= l < |logs| && logs[l].Get("url") == u;
          if l > 0 { assert rest[l - 1] == logs[l]; }
        }
        forall u | u in UrlsOf(rest) ensures u in UrlsOf(logs) {
          var l :| 0 <= l < |rest| && rest[l].Get("url") == u;
          assert logs[l + 1] == rest[l];
        }
      }
      var r := AddLogs(idx.Set(logs[0].Get("url"), Tagged(logs[0], name)), name, rest);
      assert forall l :: 1 <= l < |logs| && LastIn(logs, l) ==> LastIn(rest, l - 1) && rest[l - 1] == logs[l];
      assert LastIn(logs, 0) ==> logs[0].Get("url") !in UrlsOf(rest);
      r
  }

  /** Some operator of `ops` lists a log with url `u`. */
  predicate AnyHas(ops: seq<Operator>, u: Value) {
    exists o :: 0 <= o < |ops| && u in UrlsOf(ops[o].logs)
  }

  /** An operator after `ops[o]` lists a log with url `u`. */
  predicate LaterHas(ops: seq<Operator>, o: nat, u: Value) {
    exists p :: o < p < |ops| && u in UrlsOf(ops[p].logs)
  }

  lemma AnyHasCons(ops: seq<Operator>, u: Value)
    requires ops != []
    ensures AnyHas(ops, u) <==> u in UrlsOf(ops[0].logs) || AnyHas(ops[1..], u)
  {
    if AnyHas(ops, u) {
      var o :| 0 <= o < |ops| && u in UrlsOf(ops[o].logs);
      if o > 0 { assert ops[1..][o - 1] == ops[o]; }
    }
    if AnyHas(ops[1..], u) {
      var o :| 0 <= o < |ops[1..]| && u in UrlsOf(ops[1..][o].logs);
      assert ops[o + 1] == ops[1..][o];
    }
  }

  lemma LaterHasCons(ops: seq<Operator>, o: nat, u: Value)
    requires 0 < o < |ops|
    ensures LaterHas(ops, o, u) <==> LaterHas(ops[1..], o - 1, u)
  {
    if LaterHas(ops, o, u) {
      var p :| o < p < |ops| && u in UrlsOf(ops[p].logs);
      assert ops[1..][p - 1] == ops[p];
    }
    if LaterHas(ops[1..], o - 1, u) {
      var p :| o - 1 < p < |ops[1..]| && u in UrlsOf(ops[1..][p].logs);
      assert ops[p + 1] == ops[1..][p];
    }
  }

  lemma LaterHasFirst(ops: seq<Operator>, u: Value)
    requires ops != []
    ensures LaterHas(ops, 0, u) <==> AnyHas(ops[1..], u)
  {
    if LaterHas(ops, 0, u) {
      var p :| 0 < p < |ops| && u in UrlsOf(ops[p].logs);
      assert ops[1..][p - 1] == ops[p];
    }
    if AnyHas(ops[1..], u) {
      var p :| 0 <= p < |ops[1..]| && u in UrlsOf(ops[1..][p].logs);
      assert ops[p + 1] == ops[1..][p];
    }
  }

  /** The outer loop of ct.js `mapData`. */
  function AddOperators(idx: Index, ops: seq<Operator>): (r: Index)
    ensures forall u :: u in r.logs <==> u in idx.logs || AnyHas(ops, u)
    ensures forall u :: u in idx.logs && !AnyHas(ops, u) ==> r.logs[u] == idx.logs[u]
    ensures forall o, l :: 0 <= o < |ops| && 0 <= l && LastIn(ops[o].logs, l)
                           && !LaterHas(ops, o, ops[o].logs[l].Get("url")) ==>
              ops[o].logs[l].Get("url") in r.logs
              && r.logs[ops[o].logs[l].Get("url")] == Tagged(ops[o].logs[l], ops[o].name)
    ensures idx.Valid() ==> r.Valid()
    decreases |ops|
  {
    if ops == [] then idx
    else
      var first := AddLogs(idx, ops[0].name, ops[0].logs);
      var rest := ops[1..];
      var r := AddOperators(first, rest);
      assert forall u :: AnyHas(ops, u) <==> u in UrlsOf(ops[0].logs) || AnyHas(rest, u) by {
        forall u { AnyHasCons(ops, u); }
      }
      forall o, l | 0 <= o < |ops| && 0 <= l && LastIn(ops[o].logs, l) && !LaterHas(ops, o, ops[o].logs[l].Get("url"))
        ensures ops[o].logs[l].Get("url") in r.logs
        ensures r.logs[ops[o].logs[l].Get("url")] == Tagged(ops[o].logs[l], ops[o].name)
      {
        var u := ops[o].logs[l].Get("url");
        if o == 0 {
          LaterHasFirst(ops, u);
        } else {
          assert rest[o - 1] == ops[o];
          LaterHasCons(ops, o, u);
        }
      }
      r
  }

  /** ct.js `mapData(input)`: every log of every operator, under its url,
      with `operator` set to the operator's name. */
  function MapData(input: LogList): (r: Index)
    ensures r.Valid()
  {
    AddOperators(EmptyIndex, input.operators)
  }

  /** The index holds exactly the urls the document lists. */
  lemma MapDataUrls(input: LogList, u: Value)
    ensures u in MapData(input).logs <==>
              exists o, l :: 0 <= o < |input.operators| && 0 <= l < |input.operators[o].logs|
                             && input.operators[o].logs[l].Get("url") == u
  {
    var ops := input.operators;
    if u in MapData(input).logs {
      var o :| 0 <= o < |ops| && u in UrlsOf(ops[o].logs);
      var l :| 0 <= l < |ops[o].logs| && ops[o].logs[l].Get("url") == u;
    }
    if exists o, l :: 0 <= o < |ops| && 0 <= l < |ops[o].logs| && ops[o].logs[l].Get("url") == u {
      var o, l :| 0 <= o < |ops| && 0 <= l < |ops[o].logs| && ops[o].logs[l].Get("url") == u;
      assert u in UrlsOf(ops[o].logs);
    }
  }

  /** The last log of the document with a given url is the one stored,
      tagged with its own operator's name. */
  lemma MapDataLastWins(input: LogList, o: nat, l: nat)
    requires o < |input.operators| && LastIn(input.operators[o].logs, l)
    requires !LaterHas(input.operators, o, input.operators[o].logs[l].Get("url"))
    ensures var log := input.operators[o].logs[l];
            && MapData(input).logs[log.Get("url")] == Tagged(log, input.operators[o].name)
            && MapData(input).logs[log.Get("url")].Get("operator") == input.operators[o].name
  {
  }

  /** `op["logs"]` and `op["name"]` as the loops of ct.js `mapData` read
      them, each log turned into its entries. */
  function ReadOperator(op: Value): (r: Result<Operator>)
    ensures r.Err? ==> r.fault == TypeError
  {
    var logsValue :- JsProp(op, "logs");
    var items :- JsIter(logsValue);
    var logs :- MapAll(EntriesOf, items);
    Ok(Operator(JsProp(op, "name").value, logs))
  }

  /** What ct.js `mapData` reads of a parsed log-list document, or the
      `TypeError` it throws: a missing or non-iterable `operators` or
      `logs`, a `null` operator, a `null` log. */
  function ReadLogList(input: Value): (r: Result<LogList>)
    ensures r.Err? ==> r.fault == TypeError
  {
    var opsValue :- JsProp(input, "operators");
    var items :- JsIter(opsValue);
    var ops :- MapAll(ReadOperator, items);
    Ok(LogList(ops))
  }

  /** An operator `mapData` can read: its `logs` is an array or string
      none of whose items is `null`. */
  predicate ReadableOperator(op: Value) {
    && !op.Undefined? && !op.Null?
    && JsProp(op, "logs").Ok? && JsIter(JsProp(op, "logs").value).Ok?
    && forall i :: 0 <= i < |JsIter(JsProp(op, "logs").value).value| ==>
         !JsIter(JsProp(op, "logs").value).value[i].Null?
         && !JsIter(JsProp(op, "logs").value).value[i].Undefined?
  }

  /** A document `mapData` can read: its `operators` is an array or string
      of readable operators. */
  predicate Readable(input: Value) {
    && !input.Undefined? && !input.Null?
    && JsIter(JsProp(input, "operators").value).Ok?
    && forall i :: 0 <= i < |JsIter(JsProp(input, "operators").value).value| ==>
         ReadableOperator(JsIter(JsProp(input, "operators").value).value[i])
  }

  lemma ReadOperatorOk(op: Value)
    ensures ReadOperator(op).Ok? <==> ReadableOperator(op)
  {
    if JsProp(op, "logs").Ok? && JsIter(JsProp(op, "logs").value).Ok? {
      var items := JsIter(JsProp(op, "logs").value).value;
      assert MapAll(EntriesOf, items).Ok? <==> forall i :: 0 <= i < |items| ==> EntriesOf(items[i]).Ok?;
    }
  }

  /** `mapData` throws exactly on an unreadable document. */
  lemma ReadLogListOk(input: Value)
    ensures ReadLogList(input).Ok? <==> Readable(input)
  {
    if JsProp(input, "operators").Ok? && JsIter(JsProp(input, "operators").value).Ok? {
      var items := JsIter(JsProp(input, "operators").value).value;
      forall i | 0 <= i < |items| ensures ReadOperator(items[i]).Ok? <==> ReadableOperator(items[i]) {
        ReadOperatorOk(items[i]);
      }
    }
  }

  /** The JSON document listing `list`: an object whose `operators` array
      holds one `{name, logs}` object per operator. */
  function DocumentOf(list: LogList): Value {
    Obj(Dict(["operators"], map["operators" := Arr(OperatorDocuments(list.operators))]))
  }

  function OperatorDocuments(ops: seq<Operator>): (r: seq<Value>)
    ensures |r| == |ops| && forall i :: 0 <= i < |ops| ==> r[i] == OperatorDocument(ops[i])
  {
    seq(|ops|, i requires 0 <= i < |ops| => OperatorDocument(ops[i]))
  }

  function OperatorDocument(op: Operator): Value {
    Obj(Dict(["name", "logs"],
             map["name" := op.name, "logs" := Arr(seq(|op.logs|, i requires 0 <= i < |op.logs| => Obj(op.logs[i])))]))
  }

  lemma ReadOperatorDocument(op: Operator)
    ensures ReadOperator(OperatorDocument(op)) == Ok(op)
  {
    var items := seq(|op.logs|, i requires 0 <= i < |op.logs| => Obj(op.logs[i]));
    var logs := MapAll(EntriesOf, items);
    assert logs.Ok? && logs.value == op.logs by {
      assert forall i :: 0 <= i < |items| ==> EntriesOf(items[i]) == Ok(op.logs[i]);
    }
  }

  /** Reading the document of a log list gives that log list back. */
  lemma ReadDocumentOf(list: LogList)
    ensures ReadLogList(DocumentOf(list)) == Ok(list)
  {
    var ops := list.operators;
    var items := OperatorDocuments(ops);
    forall i | 0 <= i < |items| ensures ReadOperator(items[i]) == Ok(ops[i]) {
      ReadOperatorDocument(ops[i]);
    }
    var doc := DocumentOf(list);
    assert JsProp(doc, "operators") == Ok(Arr(items));
    assert JsIter(Arr(items)) == Ok(items);
    var r := MapAll(ReadOperator, items);
    assert r.Ok? && r.value == ops;
    assert ReadLogList(doc) == Ok(LogList(r.value));
  }

  /** The urls of `urls` that `idx` lacks, in order. */
  function Missing(urls: seq<Value>, idx: Index): (r: seq<Value>)
    ensures forall u :: u in r <==> u in urls && u !in idx.logs
    ensures Distinct(urls) ==> Distinct(r)
  {
    if urls == [] then []
    else
      var rest := Missing(urls[1..], idx);
      assert Distinct(urls) ==> urls[0] !in urls[1..];
      if urls[0] in idx.logs then rest else [urls[0]] + rest
  }

  /** A loop storing `f(u)` under each `u` of `urls`; the first `f(u)` that
      throws ends it. */
  function StoreEach(urls: seq<Value>, f: Value -> Result<Dict>, acc: Index): (r: Result<Index>)
    ensures r.Ok? <==> forall u :: u in urls ==> f(u).Ok?
    ensures r.Ok? ==> forall u :: u in r.value.logs <==> u in acc.logs || u in urls
    ensures r.Ok? ==> forall u :: u in urls ==> r.value.logs[u] == f(u).value
    ensures r.Ok? ==> forall u :: u in acc.logs && u !in urls ==> r.value.logs[u] == acc.logs[u]
    ensures r.Ok? && acc.Valid() ==> r.value.Valid()
    decreases |urls|
  {
    if urls == [] then Ok(acc)
    else
      assert forall u :: u in urls <==> u == urls[0] || u in urls[1..];
      match f(urls[0])
      case Err(e) => Err(e)
      case Ok(log) => StoreEach(urls[1..], f, acc.Set(urls[0], log))
  }

  /** The first loop of ct.js `dataMerge`, as evidently intended: a log
      only Apple lists is normalised, a log both list is merged. */
  function AppleStep(a: Index, g: Index): Value -> Result<Dict> {
    u => if u in g.logs then MergeLog(a.At(u), g.At(u)) else NormalizeLog(a.At(u))
  }

  /** The second loop: a log only Google lists is normalised. */
  function GoogleStep(g: Index): Value -> Result<Dict> {
    u => NormalizeLog(g.At(u))
  }

  /** ct.js `dataMerge(apple, google)` with the Apple-only branch taken as
      an `else`: Apple's urls in Apple's order, then the urls only Google
      has. */
  function DataMerge(apple: LogList, google: LogList): (r: Result<Index>)
    ensures r.Ok? ==> r.value.Valid()
  {
    var a := MapData(apple);
    var g := MapData(google);
    var first :- StoreEach(a.urls, AppleStep(a, g), EmptyIndex);
    StoreEach(Missing(g.urls, a), GoogleStep(g), first)
  }

  /** The merged index holds the union of both feeds' urls; a url both
      list holds the merge of the two logs, a url one lists holds that
      log normalised. */
  lemma DataMergeContents(apple: LogList, google: LogList, merged: Index, u: Value)
    requires DataMerge(apple, google) == Ok(merged)
    ensures var a, g := MapData(apple), MapData(google);
            && (u in merged.logs <==> u in a.logs || u in g.logs)
            && (u in a.logs && u in g.logs ==> Ok(merged.logs[u]) == MergeLog(a.logs[u], g.logs[u]))
            && (u in a.logs && u !in g.logs ==> Ok(merged.logs[u]) == NormalizeLog(a.logs[u]))
            && (u !in a.logs && u in g.logs ==> Ok(merged.logs[u]) == NormalizeLog(g.logs[u]))
  {
  }

  /** `dataMerge` fails exactly when one of the merges or normalisations it
      performs fails. */
  lemma DataMergeOk(apple: LogList, google: LogList)
    ensures var a, g := MapData(apple), MapData(google);
            DataMerge(apple, google).Ok? <==>
              && (forall u :: u in a.logs && u in g.logs ==> MergeLog(a.logs[u], g.logs[u]).Ok?)
              && (forall u :: u in a.logs && u !in g.logs ==> NormalizeLog(a.logs[u]).Ok?)
              && (forall u :: u !in a.logs && u in g.logs ==> NormalizeLog(g.logs[u]).Ok?)
  {
    var a, g := MapData(apple), MapData(google);
    if StoreEach(a.urls, AppleStep(a, g), EmptyIndex).Ok? {
      var first := StoreEach(a.urls, AppleStep(a, g), EmptyIndex).value;
      assert forall u :: u in a.logs ==> AppleStep(a, g)(u).Ok?;
    }
  }

  /** ct.js `dataMerge(apple, google)` on the two parsed documents:
      `mapData` of each, Apple's first, then the merge. */
  function DataMergeOf(apple: Value, google: Value): (r: Result<Index>)
    ensures !Readable(apple) || !Readable(google) ==> r == Err(TypeError)
    ensures Readable(apple) && Readable(google) ==>
              r == DataMerge(ReadLogList(apple).value, ReadLogList(google).value)
  {
    ReadLogListOk(apple);
    ReadLogListOk(google);
    var a :- ReadLogList(apple);
    var g :- ReadLogList(google);
    DataMerge(a, g)
  }

  /** The first loop as the source writes it: with no `else`, an
      Apple-only log is normalised and then also handed to
      `mergeLog(v, undefined)`, whose `google.keys()` (or
      `google.get("operator")`) throws. */
  function AppleLoopAsWritten(urls: seq<Value>, a: Index, g: Index, acc: Index): (r: Result<Index>)
    decreases |urls|
  {
    if urls == [] then Ok(acc)
    else
      var u := urls[0];
      var acc' :- if u !in g.logs then (var log :- NormalizeLog(a.At(u)); Ok(acc.Set(u, log))) else Ok(acc);
      var log :- if u in g.logs then MergeLog(a.At(u), g.At(u)) else Err(TypeError);
      AppleLoopAsWritten(urls[1..], a, g, acc'.Set(u, log))
  }

  /** ct.js `dataMerge` as written. */
  function DataMergeAsWritten(apple: LogList, google: LogList): Result<Index> {
    var a := MapData(apple);
    var g := MapData(google);
    var first :- AppleLoopAsWritten(a.urls, a, g, EmptyIndex);
    StoreEach(Missing(g.urls, a), GoogleStep(g), first)
  }

  /** As written, any url only Apple lists makes `dataMerge` throw. */
  lemma {:induction false} AppleLoopAsWrittenFails(urls: seq<Value>, a: Index, g: Index, acc: Index)
    requires exists u :: u in urls && u !in g.logs
    ensures AppleLoopAsWritten(urls, a, g, acc).Err?
  {
    var u := urls[0];
    if u in g.logs {
      if MergeLog(a.At(u), g.At(u)).Ok? {
        AppleLoopAsWrittenFails(urls[1..], a, g, acc.Set(u, MergeLog(a.At(u), g.At(u)).value));
      }
    }
  }

  lemma DataMergeAsWrittenFails(apple: LogList, google: LogList)
    requires exists u :: u in MapData(apple).logs && u !in MapData(google).logs
    ensures DataMergeAsWritten(apple, google).Err?
  {
    var a, g := MapData(apple), MapData(google);
    AppleLoopAsWrittenFails(a.urls, a, g, EmptyIndex);
  }

  /** When every Apple url is also Google's, the source's loop and the
      intended one coincide. */
  lemma {:induction false} AppleLoopAsWrittenAgrees(urls: seq<Value>, a: Index, g: Index, acc: Index)
    requires forall u :: u in urls ==> u in g.logs
    ensures AppleLoopAsWritten(urls, a, g, acc) == StoreEach(urls, AppleStep(a, g), acc)
  {
    if urls != [] && MergeLog(a.At(urls[0]), g.At(urls[0])).Ok? {
      AppleLoopAsWrittenAgrees(urls[1..], a, g, acc.Set(urls[0], MergeLog(a.At(urls[0]), g.At(urls[0])).value));
    }
  }

  lemma DataMergeAsWrittenAgrees(apple: LogList, google: LogList)
    requires forall u :: u in MapData(apple).logs ==> u in MapData(google).logs
    ensures DataMergeAsWritten(apple, google) == DataMerge(apple, google)
  {
    var a, g := MapData(apple), MapData(google);
    AppleLoopAsWrittenAgrees(a.urls, a, g, EmptyIndex);
  }

  /** Against an empty Google feed, any Apple feed with at least one log
      whose normalisation succeeds merges under the intended reading and
      throws as written. */
  lemma AppleOnlyDiverges(apple: LogList)
    requires MapData(apple).logs != map[]
    requires forall u :: u in MapData(apple).logs ==> NormalizeLog(MapData(apple).logs[u]).Ok?
    ensures DataMerge(apple, LogList([])).Ok?
    ensures DataMergeAsWritten(apple, LogList([])).Err?
  {
    var a, g := MapData(apple), MapData(LogList([]));
    assert g.logs == map[];
    DataMergeOk(apple, LogList([]));
    var u :| u in a.logs;
    DataMergeAsWrittenFails(apple, LogList([]));
  }

  /** One operator listing one log that has only a url, and no Google
      logs: the intended merge keeps the log, the source as written throws. */
  lemma AppleOnlyCounterexample(log: Dict, apple: LogList)
    requires log == Dict(["url"], map["url" := Str("u")])
    requires apple == LogList([Operator(Str("A"), [log])])
    ensures DataMerge(apple, LogList([])).Ok?
    ensures DataMergeAsWritten(apple, LogList([])).Err?
  {
    AppleExampleLogs(log, apple);
    AppleOnlyDiverges(apple);
  }

  /** The example's index holds its one log, tagged with the operator,
      and that log normalises. */
  lemma AppleExampleLogs(log: Dict, apple: LogList)
    requires log == Dict(["url"], map["url" := Str("u")])
    requires apple == LogList([Operator(Str("A"), [log])])
    ensures MapData(apple).logs != map[]
    ensures forall u :: u in MapData(apple).logs ==> NormalizeLog(MapData(apple).logs[u]).Ok?
  {
    AppleExampleStored(log, apple);
    TaggedExampleNormalizes(log);
  }

  lemma AppleExampleStored(log: Dict, apple: LogList)
    requires log == Dict(["url"], map["url" := Str("u")])
    requires apple == LogList([Operator(Str("A"), [log])])
    ensures Str("u") in MapData(apple).logs
    ensures MapData(apple).logs[Str("u")] == Tagged(log, Str("A"))
    ensures forall u :: u in MapData(apple).logs ==> u == Str("u")
  {
    assert log.Get("url") == Str("u");
    assert LastIn(apple.operators[0].logs, 0);
    MapDataLastWins(apple, 0, 0);
    forall u | u in MapData(apple).logs ensures u == Str("u") {
      MapDataUrls(apple, u);
    }
  }

  lemma TaggedExampleNormalizes(log: Dict)
    requires log == Dict(["url"], map["url" := Str("u")])
    ensures NormalizeLog(Tagged(log, Str("A"))).Ok?
  {
    var t := Tagged(log, Str("A"));
    assert t.keys == ["url", "operator"];
    NormalizeLogOk(t);
  }
}

=== FILE: ct_merge.dfy ===
/** The log merger of js/ct.js: reading a log's `state` and
    `temporal_interval`, merging a log both feeds list key by key, and
    normalising a log only one feed lists. A JavaScript exception is an
    `Err`: `Object.entries(undefined)`, `undefined.replace`, a property read
    on `null`. */
module CtMerge {
  import opened Results
  import opened Json
  import opened Records
  import opened Text
  import opened CtDescription

  /** `v["timestamp"]`: a property read, which throws on `null` and
      `undefined` and finds nothing on a value that is not an object. */
  function TimestampOf(v: Value): Result<Value> {
    match v
    case Undefined => Err(TypeError)
    case Null => Err(TypeError)
    case Obj(d) => Ok(d.Get("timestamp"))
    case _ => Ok(Undefined)
  }

  /** `let [k, v] = Object.entries(state)[0]`. Entries of an object follow
      its key order, of an array its indices, of a string its characters;
      `Object.entries` throws on `null` and `undefined`, and destructuring
      the missing first entry of an empty list throws too. */
  function FirstEntry(state: Value): Result<(string, Value)> {
    match state
    case Obj(d) => if d.keys == [] then Err(TypeError) else Ok((d.keys[0], d.Get(d.keys[0])))
    case Arr(es) => if es == [] then Err(TypeError) else Ok(("0", es[0]))
    case Str(s) => if s == [] then Err(TypeError) else Ok(("0", Str([s[0]])))
    case _ => Err(TypeError)
  }

  /** ct.js `normalizeState(state)`: the name of the state's first entry and
      that entry's timestamp. */
  function NormalizeState(state: Value): (r: Result<(string, Value)>)
    ensures state.Undefined? || state.Null? ==> r == Err(TypeError)
    ensures state.Obj? && state.props.Valid() && state.props.keys != [] ==>
              var first := state.props.keys[0];
              var entry := state.props.vals[first];
              (r.Ok? <==> !entry.Undefined? && !entry.Null?)
              && (r.Ok? ==> r.value.0 == first)
              && (entry.Obj? ==> r == Ok((first, entry.props.Get("timestamp"))))
    ensures state.Obj? && state.props.keys == [] ==> r == Err(TypeError)
  {
    var (k, v) :- FirstEntry(state);
    var ts :- TimestampOf(v);
    Ok((k, ts))
  }

  /** ct.js `normalizeTemporalInterval(interval)`: the two ends, both
      `undefined` when there is no interval; reading a property of `null`
      throws. */
  function NormalizeTemporalInterval(interval: Value): (r: Result<(Value, Value)>)
    ensures r.Err? <==> interval.Null?
    ensures interval.Undefined? ==> r == Ok((Undefined, Undefined))
    ensures interval.Obj? ==>
              r == Ok((interval.props.Get("start_inclusive"), interval.props.Get("end_exclusive")))
  {
    match interval
    case Undefined => Ok((Undefined, Undefined))
    case Null => Err(TypeError)
    case Obj(d) => Ok((d.Get("start_inclusive"), d.Get("end_exclusive")))
    case _ => Ok((Undefined, Undefined))
  }

  /** A state as the feeds write it: `{status: {"timestamp": ts}}`. */
  function StateOf(status: string, ts: Value): Value {
    Obj(Dict([status], map[status := Obj(Dict(["timestamp"], map["timestamp" := ts]))]))
  }

  /** An interval as the feeds write it. */
  function IntervalOf(start: Value, end: Value): Value {
    Obj(Dict(["start_inclusive", "end_exclusive"],
             map["start_inclusive" := start, "end_exclusive" := end]))
  }

  /** Reading a state back gives the status and timestamp it was built from. */
  lemma StateRoundTrip(status: string, ts: Value)
    ensures StateOf(status, ts).props.Valid()
    ensures NormalizeState(StateOf(status, ts)) == Ok((status, ts))
  {
  }

  /** Reading an interval back gives the two ends it was built from. */
  lemma IntervalRoundTrip(start: Value, end: Value)
    ensures IntervalOf(start, end).props.Valid()
    ensures NormalizeTemporalInterval(IntervalOf(start, end)) == Ok((start, end))
  {
  }

  /** One field of a merged log: stored once under `same` when the feeds'
      values are strictly equal, otherwise each feed's value under its own
      name. */
  function Agree(same: string, appleName: string, googleName: string, a: Value, g: Value): seq<Write> {
    if StrictEq(a, g) then [(same, a)] else [(appleName, a), (googleName, g)]
  }

  const IntervalNames: set<string> :=
    {"start", "end", "apple_start", "google_start", "apple_end", "google_end"}

  const StateNames: set<string> :=
    {"status", "timestamp", "apple_status", "google_status", "apple_timestamp", "google_timestamp"}

  /** Every name the merge of key `k` can write. */
  function Footprint(k: string): set<string> {
    if k == "temporal_interval" then IntervalNames
    else if k == "state" then StateNames
    else {k, k + "_apple", k + "_google"}
  }

  /** No two keys of `ks` can write the same name, so no key's merged fields
      are overwritten by another's. */
  predicate Separated(ks: seq<string>) {
    forall i, j :: 0 <= i < |ks| && 0 <= j < |ks| && i != j ==> Footprint(ks[i]) !! Footprint(ks[j])
  }

  /** The conditions under which merging key `k` does not throw. */
  predicate Mergeable(operator: Value, k: string, av: Value, gv: Value) {
    if k == "description" then
      av.Str? && gv.Str? && !OperatorThrows(operator, av.s) && !OperatorThrows(operator, gv.s)
    else if k == "temporal_interval" then !av.Null? && !gv.Null?
    else if k == "state" then NormalizeState(av).Ok? && NormalizeState(gv).Ok?
    else true
  }

  lemma NamesAgree(same: string, appleName: string, googleName: string, a: Value, g: Value)
    ensures Names(Agree(same, appleName, googleName, a, g))
            == if StrictEq(a, g) then {same} else {appleName, googleName}
  {
    var ws := Agree(same, appleName, googleName, a, g);
    if !StrictEq(a, g) {
      assert ws[0].0 == appleName && ws[1].0 == googleName;
    } else {
      assert ws[0].0 == same;
    }
  }

  /** The body of ct.js's key loop in `mergeLog` for one key: the writes it
      makes to `merged`. */
  function MergeKey(operator: Value, k: string, av: Value, gv: Value): (r: Result<seq<Write>>)
    ensures r.Ok? <==> Mergeable(operator, k, av, gv)
    ensures r.Ok? ==> Names(r.value) <= Footprint(k)
  {
    if k == "description" then
      if !av.Str? || !gv.Str? then Err(TypeError)
      else
        var a :- NormalizeDescription(operator, av.s);
        var g :- NormalizeDescription(operator, gv.s);
        NamesAgree(k, k + "_apple", k + "_google", Str(a), Str(g));
        Ok(Agree(k, k + "_apple", k + "_google", Str(a), Str(g)))
    else if k == "temporal_interval" then
      var (appleStart, appleEnd) :- NormalizeTemporalInterval(av);
      var (googleStart, googleEnd) :- NormalizeTemporalInterval(gv);
      var starts := Agree("start", "apple_start", "google_start", appleStart, googleStart);
      var ends := Agree("end", "apple_end", "google_end", appleEnd, googleEnd);
      NamesAgree("start", "apple_start", "google_start", appleStart, googleStart);
      NamesAgree("end", "apple_end", "google_end", appleEnd, googleEnd);
      NamesAppend(starts, ends);
      Ok(starts + ends)
    else if k == "state" then
      var (appleStatus, appleTimestamp) :- NormalizeState(av);
      var (googleStatus, googleTimestamp) :- NormalizeState(gv);
      var statuses := Agree("status", "apple_status", "google_status", Str(appleStatus), Str(googleStatus));
      var stamps := Agree("timestamp", "apple_timestamp", "google_timestamp", appleTimestamp, googleTimestamp);
      NamesAgree("status", "apple_status", "google_status", Str(appleStatus), Str(googleStatus));
      NamesAgree("timestamp", "apple_timestamp", "google_timestamp", appleTimestamp, googleTimestamp);
      NamesAppend(statuses, stamps);
      Ok(statuses + stamps)
    else
      NamesAgree(k, k + "_apple", k + "_google", av, gv);
      Ok(Agree(k, k + "_apple", k + "_google", av, gv))
  }

  /** The keys of `b` that `a` lacks, in `b`'s order. */
  function NewKeys(b: seq<string>, a: seq<string>): (r: seq<string>)
    ensures forall x :: x in r <==> x in b && x !in a
    ensures Distinct(b) ==> Distinct(r)
  {
    if b == [] then []
    else
      var rest := NewKeys(b[1..], a);
      assert Distinct(b) ==> b[0] !in b[1..];
      if b[0] in a then rest else [b[0]] + rest
  }

  /** `new Set(a).union(new Set(b))` in iteration order: `a`, then the keys
      only `b` has. */
  function UnionKeys(a: seq<string>, b: seq<string>): (r: seq<string>)
    ensures forall x :: x in r <==> x in a || x in b
    ensures Distinct(a) && Distinct(b) ==> Distinct(r)
  {
    var r := a + NewKeys(b, a);
    assert Distinct(a) && Distinct(b) ==> Distinct(r) by {
      if Distinct(a) && Distinct(b) {
        forall i, j | 0 <= i < j < |r| ensures r[i] != r[j] {
          if j >= |a| && i < |a| { assert r[j] in NewKeys(b, a); }
          else if i >= |a| { assert NewKeys(b, a)[i - |a|] == r[i]; }
        }
      }
    }
    r
  }

  /** `apple.get("operator") || google.get("operator")`: Apple's operator
      name unless it is falsy, then Google's, whatever JSON value it is. */
  function MergeOperator(apple: Dict, google: Dict): Value {
    var op := apple.Get("operator");
    if JsTruthy(op) then op else google.Get("operator")
  }

  function MergeStep(apple: Dict, google: Dict): string -> Result<seq<Write>> {
    k => MergeKey(MergeOperator(apple, google), k, apple.Get(k), google.Get(k))
  }

  /** ct.js `mergeLog(apple, google)`: every key either feed has, in
      union order, merged into a new map. */
  function MergeLog(apple: Dict, google: Dict): (r: Result<Dict>)
    ensures r.Ok? ==> r.value.Valid()
  {
    FoldKeysValid(UnionKeys(apple.keys, google.keys), MergeStep(apple, google), EmptyDict);
    FoldKeys(UnionKeys(apple.keys, google.keys), MergeStep(apple, google), EmptyDict)
  }

  /** `mergeLog` throws exactly when some key of either log cannot be
      merged: a `description` that is not a string on one side (absent
      included) or that `dropPrefix` throws on for an `undefined` or `null`
      operator, a `state` without a readable first entry, a `null`
      interval. */
  lemma MergeLogOk(apple: Dict, google: Dict)
    ensures var op := MergeOperator(apple, google);
            MergeLog(apple, google).Ok? <==>
              forall k :: k in apple.keys || k in google.keys ==> Mergeable(op, k, apple.Get(k), google.Get(k))
  {
    var op := MergeOperator(apple, google);
    var ks := UnionKeys(apple.keys, google.keys);
    FoldKeysOk(ks, MergeStep(apple, google), EmptyDict);
    if forall i :: 0 <= i < |ks| ==> MergeStep(apple, google)(ks[i]).Ok? {
      forall k | k in apple.keys || k in google.keys ensures Mergeable(op, k, apple.Get(k), google.Get(k)) {
        var i :| 0 <= i < |ks| && ks[i] == k;
        assert MergeStep(apple, google)(ks[i]).Ok?;
      }
    }
  }

  /** No key's merge writes `state` or `temporal_interval`: neither ends in
      `_apple` or `_google`, and neither is a sub-field name. */
  lemma FootprintExcludesNested(k: string)
    ensures "state" !in Footprint(k) && "temporal_interval" !in Footprint(k)
  {
    assert (k + "_apple")[|k|..] == "_apple";
    assert (k + "_google")[|k|..] == "_google";
  }

  /** The merged log never holds `state` or `temporal_interval`: both are
      always replaced by their parts. */
  lemma MergeLogDropsNested(apple: Dict, google: Dict)
    requires MergeLog(apple, google).Ok?
    ensures "state" !in MergeLog(apple, google).value.vals
    ensures "temporal_interval" !in MergeLog(apple, google).value.vals
  {
    var ks := UnionKeys(apple.keys, google.keys);
    var step := MergeStep(apple, google);
    forall i | 0 <= i < |ks| && step(ks[i]).Ok?
      ensures "state" !in Names(step(ks[i]).value)
      ensures "temporal_interval" !in Names(step(ks[i]).value)
    {
      FootprintExcludesNested(ks[i]);
    }
    FoldKeysFrame(ks, step, EmptyDict, "state");
    FoldKeysFrame(ks, step, EmptyDict, "temporal_interval");
  }

  /** The own-fields argument: with separated keys, key `k`'s footprint in
      the merged log holds exactly what its own merge wrote. */
  lemma MergeLogOwn(apple: Dict, google: Dict, k: string, merged: Dict)
    requires MergeLog(apple, google) == Ok(merged)
    requires k in apple.keys || k in google.keys
    requires Separated(UnionKeys(apple.keys, google.keys))
    ensures MergeStep(apple, google)(k).Ok?
    ensures var ws := MergeStep(apple, google)(k).value;
            forall n :: n in Footprint(k) ==>
              && (n in merged.vals <==> n in Names(ws))
              && (n in Names(ws) ==> merged.vals[n] == LastWrite(ws, n))
  {
    var ks := UnionKeys(apple.keys, google.keys);
    var step := MergeStep(apple, google);
    var i :| 0 <= i < |ks| && ks[i] == k;
    FoldKeysOk(ks, step, EmptyDict);
    forall j | 0 <= j < |ks| && j != i && step(ks[j]).Ok?
      ensures Names(step(ks[j]).value) !! Footprint(k)
    {
    }
    FoldKeysOwn(ks, step, EmptyDict, i, Footprint(k));
  }

  /** The merged fields of one pair of names: the bare name when the feeds
      agree, otherwise the `apple` and `google` names. */
  predicate FieldMerged(m: map<string, Value>, same: string, appleName: string, googleName: string,
                        a: Value, g: Value) {
    if StrictEq(a, g) then
      same in m && m[same] == a && appleName !in m && googleName !in m
    else
      same !in m && appleName in m && m[appleName] == a && googleName in m && m[googleName] == g
  }

  /** Writes of `Agree` that reach `m` unchanged land as `FieldMerged` says. */
  lemma AgreeLands(m: map<string, Value>, ws: seq<Write>, same: string, appleName: string, googleName: string,
                   a: Value, g: Value)
    requires ws == Agree(same, appleName, googleName, a, g)
    requires Distinct([same, appleName, googleName])
    requires forall n :: n in {same, appleName, googleName} ==>
               && (n in m <==> n in Names(ws))
               && (n in Names(ws) ==> m[n] == LastWrite(ws, n))
    ensures FieldMerged(m, same, appleName, googleName, a, g)
  {
    var names := [same, appleName, googleName];
    assert names[0] != names[1] && names[0] != names[2] && names[1] != names[2];
    NamesAgree(same, appleName, googleName, a, g);
    LastWriteAt(ws, 0);
    if !StrictEq(a, g) {
      LastWriteAt(ws, 1);
    }
  }

  /** The writes of two `Agree` pairs with six distinct names land as
      `FieldMerged` says for each pair. */
  lemma PairsLand(m: map<string, Value>, ws: seq<Write>, F: set<string>,
                  s1: string, a1: string, g1: string, x1: Value, y1: Value,
                  s2: string, a2: string, g2: string, x2: Value, y2: Value)
    requires ws == Agree(s1, a1, g1, x1, y1) + Agree(s2, a2, g2, x2, y2)
    requires F == {s1, a1, g1, s2, a2, g2} && Distinct([s1, a1, g1, s2, a2, g2])
    requires forall n :: n in F ==>
               && (n in m <==> n in Names(ws))
               && (n in Names(ws) ==> m[n] == LastWrite(ws, n))
    ensures FieldMerged(m, s1, a1, g1, x1, y1)
    ensures FieldMerged(m, s2, a2, g2, x2, y2)
  {
    var w1 := Agree(s1, a1, g1, x1, y1);
    var w2 := Agree(s2, a2, g2, x2, y2);
    NamesAgree(s1, a1, g1, x1, y1);
    NamesAgree(s2, a2, g2, x2, y2);
    NamesAppend(w1, w2);
    var names := [s1, a1, g1, s2, a2, g2];
    assert names[0] != names[1] && names[0] != names[2] && names[1] != names[2];
    assert names[3] != names[4] && names[3] != names[5] && names[4] != names[5];
    assert {s1, a1, g1} !! {s2, a2, g2} by {
      forall i, j | 0 <= i < 3 <= j < 6 ensures names[i] != names[j] { }
    }
    forall i | 0 <= i < |ws| ensures LastWrite(ws, ws[i].0) == ws[i].1 && ws[i].0 in Names(ws) {
      LastWriteAt(ws, i);
    }
    assert ws[0] == w1[0];
    assert |w1| == 2 ==> ws[1] == w1[1];
    assert ws[|w1|] == w2[0];
    assert |w2| == 2 ==> ws[|w1| + 1] == w2[1];
  }

  lemma MergeStepPlain(apple: Dict, google: Dict, k: string)
    requires k != "description" && k != "state" && k != "temporal_interval"
    ensures MergeStep(apple, google)(k) == Ok(Agree(k, k + "_apple", k + "_google", apple.Get(k), google.Get(k)))
  {
  }

  lemma MergeStepDescription(apple: Dict, google: Dict)
    requires apple.Get("description").Str? && google.Get("description").Str?
    requires NormalizeDescription(MergeOperator(apple, google), apple.Get("description").s).Ok?
    requires NormalizeDescription(MergeOperator(apple, google), google.Get("description").s).Ok?
    ensures var op := MergeOperator(apple, google);
            var a := Str(NormalizeDescription(op, apple.Get("description").s).value);
            var g := Str(NormalizeDescription(op, google.Get("description").s).value);
            MergeStep(apple, google)("description")
              == Ok(Agree("description", "description" + "_apple", "description" + "_google", a, g))
  {
  }

  lemma DescriptionNames()
    ensures "description" + "_apple" == "description_apple"
    ensures "description" + "_google" == "description_google"
    ensures Distinct(["description", "description_apple", "description_google"])
  {
  }

  lemma SuffixedNamesDistinct(k: string)
    ensures Distinct([k, k + "_apple", k + "_google"])
  {
    assert (k + "_apple")[|k| + 1] != (k + "_google")[|k| + 1];
  }

  lemma StateNamesDistinct()
    ensures Distinct(["status", "apple_status", "google_status", "timestamp", "apple_timestamp", "google_timestamp"])
  {
  }

  lemma IntervalNamesDistinct()
    ensures Distinct(["start", "apple_start", "google_start", "end", "apple_end", "google_end"])
  {
  }

  lemma MergeStepState(apple: Dict, google: Dict)
    requires NormalizeState(apple.Get("state")).Ok? && NormalizeState(google.Get("state")).Ok?
    ensures var (appleStatus, appleStamp) := NormalizeState(apple.Get("state")).value;
            var (googleStatus, googleStamp) := NormalizeState(google.Get("state")).value;
            MergeStep(apple, google)("state")
              == Ok(Agree("status", "apple_status", "google_status", Str(appleStatus), Str(googleStatus))
                    + Agree("timestamp", "apple_timestamp", "google_timestamp", appleStamp, googleStamp))
  {
  }

  lemma MergeStepInterval(apple: Dict, google: Dict)
    requires NormalizeTemporalInterval(apple.Get("temporal_interval")).Ok?
    requires NormalizeTemporalInterval(google.Get("temporal_interval")).Ok?
    ensures var (appleStart, appleEnd) := NormalizeTemporalInterval(apple.Get("temporal_interval")).value;
            var (googleStart, googleEnd) := NormalizeTemporalInterval(google.Get("temporal_interval")).value;
            MergeStep(apple, google)("temporal_interval")
              == Ok(Agree("start", "apple_start", "google_start", appleStart, googleStart)
                    + Agree("end", "apple_end", "google_end", appleEnd, googleEnd))
  {
  }

  /** An ordinary key (ct.js:130-136): strictly equal values are stored
      once under `k`; differing ones, one side `undefined` included, go to
      `k_apple` and `k_google` and bare `k` is not set. */
  lemma MergeLogPlainKey(apple: Dict, google: Dict, k: string, merged: Dict)
    requires MergeLog(apple, google) == Ok(merged)
    requires k in apple.keys || k in google.keys
    requires k != "description" && k != "state" && k != "temporal_interval"
    requires Separated(UnionKeys(apple.keys, google.keys))
    ensures FieldMerged(merged.vals, k, k + "_apple", k + "_google",
                        apple.Get(k), google.Get(k))
  {
    MergeStepPlain(apple, google, k);
    MergeLogAgreeKey(apple, google, k, merged, apple.Get(k), google.Get(k));
  }

  /** A key whose merge is a single `Agree` under its own name lands as
      `FieldMerged` says. */
  lemma MergeLogAgreeKey(apple: Dict, google: Dict, k: string, merged: Dict, a: Value, g: Value)
    requires MergeLog(apple, google) == Ok(merged)
    requires k in apple.keys || k in google.keys
    requires k != "state" && k != "temporal_interval"
    requires Separated(UnionKeys(apple.keys, google.keys))
    requires MergeStep(apple, google)(k) == Ok(Agree(k, k + "_apple", k + "_google", a, g))
    ensures FieldMerged(merged.vals, k, k + "_apple", k + "_google", a, g)
  {
    MergeLogOwn(apple, google, k, merged);
    SuffixedNamesDistinct(k);
    AgreeLands(merged.vals, MergeStep(apple, google)(k).value, k, k + "_apple", k + "_google", a, g);
  }

  /** `description` follows the same rule, applied to both sides'
      normalised descriptions. */
  lemma MergeLogDescription(apple: Dict, google: Dict, merged: Dict)
    requires MergeLog(apple, google) == Ok(merged)
    requires "description" in apple.keys || "description" in google.keys
    requires Separated(UnionKeys(apple.keys, google.keys))
    ensures apple.Get("description").Str? && google.Get("description").Str?
    ensures var op := MergeOperator(apple, google);
            && NormalizeDescription(op, apple.Get("description").s).Ok?
            && NormalizeDescription(op, google.Get("description").s).Ok?
            && FieldMerged(merged.vals, "description", "description_apple", "description_google",
                           Str(NormalizeDescription(op, apple.Get("description").s).value),
                           Str(NormalizeDescription(op, google.Get("description").s).value))
  {
    MergeLogOwn(apple, google, "description", merged);
    MergeStepDescription(apple, google);
    DescriptionNames();
    var op := MergeOperator(apple, google);
    MergeLogAgreeKey(apple, google, "description", merged,
                     Str(NormalizeDescription(op, apple.Get("description").s).value),
                     Str(NormalizeDescription(op, google.Get("description").s).value));
  }

  /** `state` (ct.js:110-127): the statuses and the timestamps of the two
      feeds are merged independently, under `status`/`timestamp` when they
      agree and under `apple_…`/`google_…` when they do not. */
  lemma MergeLogState(apple: Dict, google: Dict, merged: Dict)
    requires MergeLog(apple, google) == Ok(merged)
    requires "state" in apple.keys || "state" in google.keys
    requires Separated(UnionKeys(apple.keys, google.keys))
    ensures NormalizeState(apple.Get("state")).Ok? && NormalizeState(google.Get("state")).Ok?
    ensures var m := merged.vals;
            var (appleStatus, appleStamp) := NormalizeState(apple.Get("state")).value;
            var (googleStatus, googleStamp) := NormalizeState(google.Get("state")).value;
            FieldMerged(m, "status", "apple_status", "google_status", Str(appleStatus), Str(googleStatus))
            && FieldMerged(m, "timestamp", "apple_timestamp", "google_timestamp", appleStamp, googleStamp)
  {
    MergeLogOwn(apple, google, "state", merged);
    MergeStepState(apple, google);
    StateNamesDistinct();
    var (appleStatus, appleStamp) := NormalizeState(apple.Get("state")).value;
    var (googleStatus, googleStamp) := NormalizeState(google.Get("state")).value;
    PairsLand(merged.vals, MergeStep(apple, google)("state").value, StateNames,
              "status", "apple_status", "google_status", Str(appleStatus), Str(googleStatus),
              "timestamp", "apple_timestamp", "google_timestamp", appleStamp, googleStamp);
  }

  /** `temporal_interval` (ct.js:89-107): start and end are merged
      independently in the same way. */
  lemma MergeLogInterval(apple: Dict, google: Dict, merged: Dict)
    requires MergeLog(apple, google) == Ok(merged)
    requires "temporal_interval" in apple.keys || "temporal_interval" in google.keys
    requires Separated(UnionKeys(apple.keys, google.keys))
    ensures NormalizeTemporalInterval(apple.Get("temporal_interval")).Ok?
    ensures NormalizeTemporalInterval(google.Get("temporal_interval")).Ok?
    ensures var m := merged.vals;
            var (appleStart, appleEnd) := NormalizeTemporalInterval(apple.Get("temporal_interval")).value;
            var (googleStart, googleEnd) := NormalizeTemporalInterval(google.Get("temporal_interval")).value;
            FieldMerged(m, "start", "apple_start", "google_start", appleStart, googleStart)
            && FieldMerged(m, "end", "apple_end", "google_end", appleEnd, googleEnd)
  {
    MergeLogOwn(apple, google, "temporal_interval", merged);
    MergeStepInterval(apple, google);
    IntervalNamesDistinct();
    var (appleStart, appleEnd) := NormalizeTemporalInterval(apple.Get("temporal_interval")).value;
    var (googleStart, googleEnd) := NormalizeTemporalInterval(google.Get("temporal_interval")).value;
    PairsLand(merged.vals, MergeStep(apple, google)("temporal_interval").value,
              IntervalNames,
              "start", "apple_start", "google_start", appleStart, googleStart,
              "end", "apple_end", "google_end", appleEnd, googleEnd);
  }

  /** The body of ct.js's loop in `normalizeLog` for one entry: the
      description is normalised, `state` and `temporal_interval` are
      replaced by their parts, and anything else is copied. */
  function NormalizeKey(operator: Value, k: string, v: Value): (r: Result<seq<Write>>)
    ensures r.Ok? <==> (k == "description" ==> v.Str? && !OperatorThrows(operator, v.s))
                       && (k == "temporal_interval" ==> !v.Null?)
                       && (k == "state" ==> NormalizeState(v).Ok?)
    ensures r.Ok? ==> Names(r.value) <= Footprint(k)
  {
    if k == "description" then
      if !v.Str? then Err(TypeError)
      else
        var d :- NormalizeDescription(operator, v.s);
        NamesOfPairs([(k, Str(d))]);
        Ok([(k, Str(d))])
    else if k == "temporal_interval" then
      var (start, end) :- NormalizeTemporalInterval(v);
      NamesOfPairs([("start", start), ("end", end)]);
      Ok([("start", start), ("end", end)])
    else if k == "state" then
      var (status, timestamp) :- NormalizeState(v);
      NamesOfPairs([("status", Str(status)), ("timestamp", timestamp)]);
      Ok([("status", Str(status)), ("timestamp", timestamp)])
    else
      NamesOfPairs([(k, v)]);
      Ok([(k, v)])
  }

  lemma NamesOfPairs(ws: seq<Write>)
    requires 1 <= |ws| <= 2
    ensures Names(ws) == if |ws| == 1 then {ws[0].0} else {ws[0].0, ws[1].0}
  {
  }

  function NormalizeStep(log: Dict): string -> Result<seq<Write>> {
    k => NormalizeKey(log.Get("operator"), k, log.Get(k))
  }

  /** ct.js `normalizeLog(log)`: a log only one feed lists, rewritten entry
      by entry in its own key order. */
  function NormalizeLog(log: Dict): (r: Result<Dict>)
    ensures r.Ok? ==> r.value.Valid()
  {
    FoldKeysValid(log.keys, NormalizeStep(log), EmptyDict);
    FoldKeys(log.keys, NormalizeStep(log), EmptyDict)
  }

  /** `normalizeLog` throws exactly when the description is not a string
      or `dropPrefix` throws on it for an `undefined` or `null` operator,
      the state has no readable first entry, or the interval is `null`. */
  lemma NormalizeLogOk(log: Dict)
    ensures NormalizeLog(log).Ok? <==>
              && ("description" in log.keys ==>
                    log.Get("description").Str? && !OperatorThrows(log.Get("operator"), log.Get("description").s))
              && ("temporal_interval" in log.keys ==> !log.Get("temporal_interval").Null?)
              && ("state" in log.keys ==> NormalizeState(log.Get("state")).Ok?)
  {
    FoldKeysOk(log.keys, NormalizeStep(log), EmptyDict);
    if forall i :: 0 <= i < |log.keys| ==> NormalizeStep(log)(log.keys[i]).Ok? {
      forall k | k in log.keys ensures NormalizeStep(log)(k).Ok? {
        var i :| 0 <= i < |log.keys| && log.keys[i] == k;
      }
    }
  }

  /** Like the merge, `normalizeLog` never keeps `state` or
      `temporal_interval`. */
  lemma NormalizeLogDropsNested(log: Dict, normalized: Dict)
    requires NormalizeLog(log) == Ok(normalized)
    ensures "state" !in normalized.vals && "temporal_interval" !in normalized.vals
  {
    var step := NormalizeStep(log);
    forall i | 0 <= i < |log.keys| && step(log.keys[i]).Ok?
      ensures "state" !in Names(step(log.keys[i]).value)
      ensures "temporal_interval" !in Names(step(log.keys[i]).value)
    {
      FootprintExcludesNested(log.keys[i]);
    }
    FoldKeysFrame(log.keys, step, EmptyDict, "state");
    FoldKeysFrame(log.keys, step, EmptyDict, "temporal_interval");
  }

  /** With separated keys, key `k`'s footprint in the normalised log holds
      exactly what its own step wrote. */
  lemma NormalizeLogOwn(log: Dict, k: string, normalized: Dict)
    requires NormalizeLog(log) == Ok(normalized)
    requires k in log.keys && Separated(log.keys)
    ensures NormalizeStep(log)(k).Ok?
    ensures var ws := NormalizeStep(log)(k).value;
            forall n :: n in Footprint(k) ==>
              && (n in normalized.vals <==> n in Names(ws))
              && (n in Names(ws) ==> normalized.vals[n] == LastWrite(ws, n))
  {
    var step := NormalizeStep(log);
    var i :| 0 <= i < |log.keys| && log.keys[i] == k;
    FoldKeysOk(log.keys, step, EmptyDict);
    forall j | 0 <= j < |log.keys| && j != i && step(log.keys[j]).Ok?
      ensures Names(step(log.keys[j]).value) !! Footprint(k)
    {
    }
    FoldKeysOwn(log.keys, step, EmptyDict, i, Footprint(k));
  }

  /** An ordinary entry is copied unchanged, and no `k_apple`/`k_google`
      names appear for it. */
  lemma NormalizeLogPlainKey(log: Dict, k: string, normalized: Dict)
    requires NormalizeLog(log) == Ok(normalized)
    requires k in log.keys && Separated(log.keys)
    requires k != "description" && k != "state" && k != "temporal_interval"
    ensures k in normalized.vals && normalized.vals[k] == log.Get(k)
    ensures k + "_apple" !in normalized.vals && k + "_google" !in normalized.vals
  {
    NormalizeLogOwn(log, k, normalized);
    SuffixedNamesDistinct(k);
    var ws := NormalizeStep(log)(k).value;
    assert ws == [(k, log.Get(k))];
    LastWriteAt(ws, 0);
    assert [k, k + "_apple", k + "_google"][0] != [k, k + "_apple", k + "_google"][1];
    assert [k, k + "_apple", k + "_google"][0] != [k, k + "_apple", k + "_google"][2];
  }

  /** A `state` entry becomes `status` and `timestamp` (ct.js:158-163). */
  lemma NormalizeLogState(log: Dict, normalized: Dict)
    requires NormalizeLog(log) == Ok(normalized)
    requires "state" in log.keys && Separated(log.keys)
    ensures NormalizeState(log.Get("state")).Ok?
    ensures var (status, timestamp) := NormalizeState(log.Get("state")).value;
            && "status" in normalized.vals && normalized.vals["status"] == Str(status)
            && "timestamp" in normalized.vals && normalized.vals["timestamp"] == timestamp
  {
    NormalizeLogOwn(log, "state", normalized);
    var ws := NormalizeStep(log)("state").value;
    var (status, timestamp) := NormalizeState(log.Get("state")).value;
    assert ws == [("status", Str(status)), ("timestamp", timestamp)];
    LastWriteAt(ws, 0);
    LastWriteAt(ws, 1);
  }

  /** A `temporal_interval` entry becomes `start` and `end` (ct.js:150-156). */
  lemma NormalizeLogInterval(log: Dict, normalized: Dict)
    requires NormalizeLog(log) == Ok(normalized)
    requires "temporal_interval" in log.keys && Separated(log.keys)
    ensures NormalizeTemporalInterval(log.Get("temporal_interval")).Ok?
    ensures var (start, end) := NormalizeTemporalInterval(log.Get("temporal_interval")).value;
            && "start" in normalized.vals && normalized.vals["start"] == start
            && "end" in normalized.vals && normalized.vals["end"] == end
  {
    NormalizeLogOwn(log, "temporal_interval", normalized);
    var ws := NormalizeStep(log)("temporal_interval").value;
    var (start, end) := NormalizeTemporalInterval(log.Get("temporal_interval")).value;
    assert ws == [("start", start), ("end", end)];
    LastWriteAt(ws, 0);
    LastWriteAt(ws, 1);
  }

  /** A value `===` compares by value: neither an object nor an array. */
  predicate Primitive(v: Value) {
    !v.Obj? && !v.Arr?
  }

  /** The values of `k` a log must hold for merging it with itself to agree
      field by field. */
  predicate SelfAgrees(k: string, v: Value) {
    if k == "description" then true
    else if k == "temporal_interval" then
      NormalizeTemporalInterval(v).Ok? ==>
        Primitive(NormalizeTemporalInterval(v).value.0) && Primitive(NormalizeTemporalInterval(v).value.1)
    else if k == "state" then
      NormalizeState(v).Ok? ==> Primitive(NormalizeState(v).value.1)
    else Primitive(v)
  }

  lemma NewKeysOfSelf(b: seq<string>, a: seq<string>)
    requires forall x :: x in b ==> x in a
    ensures NewKeys(b, a) == []
  {
  }

  /** Merging one key of a log with itself makes the same writes as
      normalising it. */
  lemma MergeKeySelf(operator: Value, k: string, v: Value)
    requires SelfAgrees(k, v)
    ensures MergeKey(operator, k, v, v) == NormalizeKey(operator, k, v)
  {
    if k == "temporal_interval" && !v.Null? {
      var (start, end) := NormalizeTemporalInterval(v).value;
      assert [("start", start)] + [("end", end)] == [("start", start), ("end", end)];
    } else if k == "state" && NormalizeState(v).Ok? {
      var (status, timestamp) := NormalizeState(v).value;
      assert [("status", Str(status))] + [("timestamp", timestamp)] == [("status", Str(status)), ("timestamp", timestamp)];
    } else if k == "description" {
      MergeKeySelfDescription(operator, k, v);
    }
  }

  lemma MergeKeySelfDescription(operator: Value, k: string, v: Value)
    requires k == "description"
    ensures MergeKey(operator, k, v, v) == NormalizeKey(operator, k, v)
  {
    if v.Str? {
      var r := NormalizeDescription(operator, v.s);
      if r.Ok? {
        MergeKeySelfDescriptionOk(operator, k, v.s, r.value);
      } else {
        assert MergeKey(operator, k, v, v) == Err(r.fault);
        assert NormalizeKey(operator, k, v) == Err(r.fault);
      }
    }
  }

  lemma MergeKeySelfDescriptionOk(operator: Value, k: string, s: string, d: string)
    requires k == "description"
    requires NormalizeDescription(operator, s) == Ok(d)
    ensures MergeKey(operator, k, Str(s), Str(s)) == NormalizeKey(operator, k, Str(s)) == Ok([(k, Str(d))])
  {
    var w := Agree(k, k + "_apple", k + "_google", Str(d), Str(d));
    assert StrictEq(Str(d), Str(d));
    assert w == [(k, Str(d))];
    assert MergeKey(operator, k, Str(s), Str(s)) == Ok(w);
    assert NormalizeKey(operator, k, Str(s)) == Ok([(k, Str(d))]);
  }

  /** The partner of `normalizeLog`: a log both feeds list identically,
      with primitive field values, merges to exactly what `normalizeLog`
      makes of it, same error included. */
  lemma MergeLogSelf(log: Dict)
    requires Distinct(log.keys)
    requires forall k :: k in log.keys ==> SelfAgrees(k, log.Get(k))
    ensures MergeLog(log, log) == NormalizeLog(log)
  {
    NewKeysOfSelf(log.keys, log.keys);
    assert UnionKeys(log.keys, log.keys) == log.keys;
    assert MergeOperator(log, log) == log.Get("operator");
    forall i | 0 <= i < |log.keys| ensures MergeStep(log, log)(log.keys[i]) == NormalizeStep(log)(log.keys[i]) {
      MergeKeySelf(log.Get("operator"), log.keys[i], log.Get(log.keys[i]));
    }
    FoldKeysCongruent(log.keys, MergeStep(log, log), NormalizeStep(log), EmptyDict);
  }
}

=== FILE: grouping.dfy ===
/** Grouping, counting and ordering over lists of items with string keys:
    the `defaultdict(list)` grouping, the `set` of non-empty values and the
    sorts of fetch.py, stated once for any key function. */
module Grouping {
  import opened Text
  import Json

  /** The number of `xs` that satisfy `p`. */
  function Count<T>(xs: seq<T>, p: T -> bool): (r: nat)
    ensures r <= |xs|
    ensures r == 0 <==> forall i :: 0 <= i < |xs| ==> !p(xs[i])
    decreases |xs|
  {
    if xs == [] then 0
    else
      var n := |xs| - 1;
      assert forall i :: 0 <= i < n ==> xs[..n][i] == xs[i];
      Count(xs[..n], p) + (if p(xs[n]) then 1 else 0)
  }

  /** The number of `xs` whose key is empty. */
  function Unkeyed<T>(xs: seq<T>, key: T -> string): (r: nat)
    ensures r <= |xs|
    decreases |xs|
  {
    if xs == [] then 0
    else Unkeyed(xs[..|xs| - 1], key) + (if key(xs[|xs| - 1]) == [] then 1 else 0)
  }

  /** The keys of a `defaultdict(list)` filled with each of `xs` that has
      a non-empty key: each such key once, in the order of its first item. */
  function Keys<T>(xs: seq<T>, key: T -> string): (r: seq<string>)
    ensures Json.Distinct(r)
    ensures forall k :: k in r <==> k != [] && exists i :: 0 <= i < |xs| && key(xs[i]) == k
    decreases |xs|
  {
    if xs == [] then []
    else
      var n := |xs| - 1;
      var p := Keys(xs[..n], key);
      var k := key(xs[n]);
      assert forall i :: 0 <= i < n ==> xs[..n][i] == xs[i];
      if k == [] || k in p then p else p + [k]
  }

  /** The list the `defaultdict` holds under `k`: the items with key `k`,
      in order. */
  function Group<T(==,!new)>(xs: seq<T>, key: T -> string, k: string): (r: seq<T>)
    ensures GroupOf(xs, key, k, r)
    decreases |xs|
  {
    if xs == [] then []
    else
      var n := |xs| - 1;
      var g := Group(xs[..n], key, k);
      GroupStep(xs, key, k, g);
      g + (if key(xs[n]) == k then [xs[n]] else [])
  }

  /** `r` holds the items of `xs` with key `k`, each as often as it
      occurs in `xs`, and nothing else. */
  ghost predicate GroupOf<T(!new)>(xs: seq<T>, key: T -> string, k: string, r: seq<T>) {
    && |r| <= |xs|
    && (forall i :: 0 <= i < |r| ==> r[i] in xs && key(r[i]) == k)
    && (forall i :: 0 <= i < |xs| && key(xs[i]) == k ==> xs[i] in r)
    && forall x :: multiset(r)[x] == if key(x) == k then multiset(xs)[x] else 0
  }

  /** The group of all but the last item, with the last item appended when
      it has key `k`, is the group of all the items. */
  lemma GroupStep<T(!new)>(xs: seq<T>, key: T -> string, k: string, g: seq<T>)
    requires xs != [] && GroupOf(xs[..|xs| - 1], key, k, g)
    ensures GroupOf(xs, key, k, g + (if key(xs[|xs| - 1]) == k then [xs[|xs| - 1]] else []))
  {
    var n := |xs| - 1;
    var r := g + (if key(xs[n]) == k then [xs[n]] else []);
    assert xs == xs[..n] + [xs[n]];
    assert multiset(xs) == multiset(xs[..n]) + multiset{xs[n]};
    assert multiset(r) == multiset(g) + multiset(if key(xs[n]) == k then [xs[n]] else []);
    assert forall i :: 0 <= i < n ==> xs[..n][i] == xs[i];
  }

  /** The sizes of the groups of `ks`, added up. */
  function GroupTotal<T(==,!new)>(xs: seq<T>, key: T -> string, ks: seq<string>): nat
    decreases |ks|
  {
    if ks == [] then 0
    else GroupTotal(xs, key, ks[..|ks| - 1]) + |Group(xs, key, ks[|ks| - 1])|
  }

  /** One more item adds one to the group of its key, if that key is
      listed. */
  lemma {:induction false} GroupTotalStep<T(!new)>(xs: seq<T>, x: T, key: T -> string, ks: seq<string>)
    requires Json.Distinct(ks)
    ensures GroupTotal(xs + [x], key, ks) == GroupTotal(xs, key, ks) + (if key(x) in ks then 1 else 0)
    decreases |ks|
  {
    if ks != [] {
      var m := |ks| - 1;
      LastKey(ks, key(x));
      GroupTotalStep(xs, x, key, ks[..m]);
      GroupSize(xs, x, key, ks[m]);
    }
  }

  /** Splitting the last of distinct keys off the others. */
  lemma LastKey(ks: seq<string>, y: string)
    requires ks != [] && Json.Distinct(ks)
    ensures Json.Distinct(ks[..|ks| - 1])
    ensures y in ks <==> y in ks[..|ks| - 1] || y == ks[|ks| - 1]
    ensures y in ks[..|ks| - 1] ==> y != ks[|ks| - 1]
  {
    assert ks == ks[..|ks| - 1] + [ks[|ks| - 1]];
  }

  /** One more item adds one to the size of its own group only. */
  lemma GroupSize<T(!new)>(xs: seq<T>, x: T, key: T -> string, k: string)
    ensures |Group(xs + [x], key, k)| == |Group(xs, key, k)| + (if key(x) == k then 1 else 0)
  {
    assert (xs + [x])[..|xs|] == xs;
  }

  /** Every item either lands in the group of its key or has an empty key
      and lands in none: the group sizes and the unkeyed items add up to
      the number of items. */
  lemma {:induction false} EveryItemCounted<T(!new)>(xs: seq<T>, key: T -> string)
    ensures GroupTotal(xs, key, Keys(xs, key)) + Unkeyed(xs, key) == |xs|
    decreases |xs|
  {
    if xs != [] {
      var n := |xs| - 1;
      var ys, x := xs[..n], xs[n];
      assert xs == ys + [x];
      EveryItemCounted(ys, key);
      var p, k := Keys(ys, key), key(x);
      GroupTotalStep(ys, x, key, p);
      if k != [] && k !in p {
        assert Keys(xs, key) == p + [k];
        assert (p + [k])[..|p|] == p;
        GroupNone(ys, key, k);
        assert Group(xs, key, k) == [x];
      }
    }
  }

  /** A key no item has has no group. */
  lemma {:induction false} GroupNone<T(!new)>(xs: seq<T>, key: T -> string, k: string)
    requires forall i :: 0 <= i < |xs| ==> key(xs[i]) != k
    ensures Group(xs, key, k) == []
    decreases |xs|
  {
    if xs != [] {
      var n := |xs| - 1;
      assert forall i :: 0 <= i < n ==> xs[..n][i] == xs[i];
      GroupNone(xs[..n], key, k);
    }
  }

  /** Pairwise strictly ascending in Python's string order. */
  predicate StrictlyAscending(s: seq<string>) {
    forall i, j :: 0 <= i < j < |s| ==> LexLess(s[i], s[j])
  }

  /** `c` added to the sorted set `s`. */
  function InsertUnique(s: seq<string>, c: string): (r: seq<string>)
    requires StrictlyAscending(s)
    ensures StrictlyAscending(r)
    ensures forall x :: x in r <==> x in s || x == c
    decreases |s|
  {
    if s == [] then [c]
    else if c == s[0] then s
    else if LexLess(c, s[0]) then
      assert forall j :: 0 <= j < |s| ==> LexLess(c, s[j]) by {
        forall j | 0 < j < |s| ensures LexLess(c, s[j]) {
          LexLessTransitive(c, s[0], s[j]);
        }
      }
      [c] + s
    else
      LexLessTotal(c, s[0]);
      var rest := InsertUnique(s[1..], c);
      assert forall x :: x in rest ==> LexLess(s[0], x) by {
        forall x | x in rest ensures LexLess(s[0], x) {
          if x != c {
            var j :| 0 <= j < |s[1..]| && s[1..][j] == x;
            assert s[j + 1] == x;
          }
        }
      }
      [s[0]] + rest
  }

  /** `sorted(list(s))` for the set `s` of the non-empty values of `xs`,
      collected one item at a time. */
  function SortedValues<T>(xs: seq<T>, val: T -> string): (r: seq<string>)
    ensures StrictlyAscending(r)
    ensures forall c :: c in r <==> c != [] && exists i :: 0 <= i < |xs| && val(xs[i]) == c
    decreases |xs|
  {
    if xs == [] then []
    else
      var n := |xs| - 1;
      var s := SortedValues(xs[..n], val);
      var c := val(xs[n]);
      assert forall i :: 0 <= i < n ==> xs[..n][i] == xs[i];
      if c == [] then s else InsertUnique(s, c)
  }

  /** Pairwise ascending by key; items with equal keys may sit in either
      order. */
  predicate AscendingBy<T>(s: seq<T>, key: T -> string) {
    forall i, j :: 0 <= i < j < |s| ==> !LexLess(key(s[j]), key(s[i]))
  }

  /** Not sorting after is transitive. */
  lemma NotLessTransitive(a: string, b: string, c: string)
    requires !LexLess(b, a) && !LexLess(c, b)
    ensures !LexLess(c, a)
  {
    if a != b {
      LexLessTotal(a, b);
      if LexLess(c, a) {
        LexLessTransitive(c, a, b);
      }
    }
  }

  /** `e` placed before the first item that does not sort before it. */
  function InsertBy<T(==)>(e: T, s: seq<T>, key: T -> string): (r: seq<T>)
    requires AscendingBy(s, key)
    ensures AscendingBy(r, key)
    ensures multiset(r) == multiset(s) + multiset{e}
    decreases |s|
  {
    if s == [] || !LexLess(key(s[0]), key(e)) then
      InsertFront(e, s, key);
      [e] + s
    else
      var rest := InsertBy(e, s[1..], key);
      InsertBehind(e, s, key, rest);
      [s[0]] + rest
  }

  /** An item that does not sort after the first of an ascending list goes
      in front of it. */
  lemma InsertFront<T>(e: T, s: seq<T>, key: T -> string)
    requires AscendingBy(s, key)
    requires s == [] || !LexLess(key(s[0]), key(e))
    ensures AscendingBy([e] + s, key)
  {
    assert forall j :: 0 <= j < |s| ==> !LexLess(key(s[j]), key(e)) by {
      forall j | 0 < j < |s| ensures !LexLess(key(s[j]), key(e)) {
        NotLessTransitive(key(e), key(s[0]), key(s[j]));
      }
    }
  }

  /** An item that sorts after the first of an ascending list goes behind
      it, into the rest. */
  lemma InsertBehind<T>(e: T, s: seq<T>, key: T -> string, rest: seq<T>)
    requires s != [] && AscendingBy(s, key) && LexLess(key(s[0]), key(e))
    requires AscendingBy(rest, key) && multiset(rest) == multiset(s[1..]) + multiset{e}
    ensures AscendingBy([s[0]] + rest, key)
    ensures multiset([s[0]] + rest) == multiset(s) + multiset{e}
  {
    assert forall x :: x in multiset(rest) ==> !LexLess(key(x), key(s[0])) by {
      forall x | x in multiset(rest) ensures !LexLess(key(x), key(s[0])) {
        if x != e {
          assert x in multiset(s[1..]);
          var j :| 0 <= j < |s[1..]| && s[1..][j] == x;
          assert s[j + 1] == x;
        } else {
          LexLessAsymmetric(key(s[0]), key(e));
        }
      }
    }
    assert forall j :: 0 <= j < |rest| ==> rest[j] in multiset(rest);
    assert s == [s[0]] + s[1..];
  }

  /** `xs.sort(key=key)`: an insertion sort that, like Python's, keeps
      items with equal keys in their original order. */
  function SortBy<T(==)>(xs: seq<T>, key: T -> string): (r: seq<T>)
    ensures AscendingBy(r, key)
    ensures multiset(r) == multiset(xs)
    decreases |xs|
  {
    if xs == [] then []
    else
      assert xs == [xs[0]] + xs[1..];
      InsertBy(xs[0], SortBy(xs[1..], key), key)
  }

  /** No two items share a key. */
  predicate KeysDistinct<T>(xs: seq<T>, key: T -> string) {
    forall i, j :: 0 <= i < j < |xs| ==> key(xs[i]) != key(xs[j])
  }

  /** An item that occurs twice counts twice. */
  lemma MultisetTwice<T>(s: seq<T>, i: nat, j: nat)
    requires i < j < |s| && s[i] == s[j]
    ensures multiset(s)[s[i]] >= 2
  {
    assert s == s[..j] + [s[j]] + s[j + 1..];
    assert s[..j][i] == s[i];
  }

  /** With distinct keys no item occurs twice. */
  lemma {:induction false} MultisetOnce<T>(s: seq<T>, key: T -> string, x: T)
    requires KeysDistinct(s, key)
    ensures multiset(s)[x] <= 1
    decreases |s|
  {
    if s != [] {
      var rest := s[1..];
      assert s == [s[0]] + rest;
      assert KeysDistinct(rest, key) by {
        forall i, j | 0 <= i < j < |rest| ensures key(rest[i]) != key(rest[j]) {
          assert rest[i] == s[i + 1] && rest[j] == s[j + 1];
        }
      }
      MultisetOnce(rest, key, x);
      if x == s[0] {
        assert x !in rest;
      }
    }
  }

  /** Sorting items with distinct keys orders them strictly. */
  lemma SortByStrict<T>(xs: seq<T>, key: T -> string)
    requires KeysDistinct(xs, key)
    ensures forall i, j :: 0 <= i < j < |SortBy(xs, key)| ==>
              LexLess(key(SortBy(xs, key)[i]), key(SortBy(xs, key)[j]))
  {
    var r := SortBy(xs, key);
    forall i, j | 0 <= i < j < |r| ensures LexLess(key(r[i]), key(r[j])) {
      if key(r[i]) == key(r[j]) {
        assert r[i] in multiset(xs) && r[j] in multiset(xs);
        var a :| 0 <= a < |xs| && xs[a] == r[i];
        var b :| 0 <= b < |xs| && xs[b] == r[j];
        assert a == b;
        MultisetTwice(r, i, j);
        MultisetOnce(xs, key, r[i]);
        assert false;
      }
      LexLessTotal(key(r[i]), key(r[j]));
    }
  }

  /** Sorting keeps the items: each item of the result is one of `xs`, and
      each of `xs` is in the result. */
  lemma SortByMembers<T>(xs: seq<T>, key: T -> string)
    ensures forall i :: 0 <= i < |SortBy(xs, key)| ==> SortBy(xs, key)[i] in xs
    ensures forall a :: 0 <= a < |xs| ==> xs[a] in SortBy(xs, key)
  {
    var r := SortBy(xs, key);
    forall i | 0 <= i < |r| ensures r[i] in xs {
      assert r[i] in multiset(xs);
    }
    forall a | 0 <= a < |xs| ensures xs[a] in r {
      assert xs[a] in multiset(r);
    }
  }

  /** Some item of `xs` has key `k`. */
  ghost predicate HasKey<T>(xs: seq<T>, key: T -> string, k: string) {
    exists i :: 0 <= i < |xs| && key(xs[i]) == k
  }

  /** Sorting keeps the set of keys. */
  lemma SortByKeys<T>(xs: seq<T>, key: T -> string)
    ensures forall k :: HasKey(SortBy(xs, key), key, k) <==> HasKey(xs, key, k)
  {
    var r := SortBy(xs, key);
    SortByMembers(xs, key);
    forall k | HasKey(r, key, k) ensures HasKey(xs, key, k) {
      var i :| 0 <= i < |r| && key(r[i]) == k;
      var a :| 0 <= a < |xs| && xs[a] == r[i];
    }
    forall k | HasKey(xs, key, k) ensures HasKey(r, key, k) {
      var a :| 0 <= a < |xs| && key(xs[a]) == k;
      var i :| 0 <= i < |r| && r[i] == xs[a];
    }
  }
}

=== FILE: json.dfy ===
/** The parsed JSON documents both programs work on, and the few built-in
    operations of JavaScript and Python the modelled code applies to them. */
module Json {
  import opened Results

  /** A JSON value as either language holds it after parsing. `Undefined` is
      JavaScript's value for a missing property or map entry; Python reads a
      missing entry through `dict.get` as `None`, which is `Null` here.
      Numbers are integers (the feeds' numbers are integral). */
  datatype Value =
    | Undefined
    | Null
    | Bool(b: bool)
    | Num(n: int)
    | Str(s: string)
    | Arr(elems: seq<Value>)
    | Obj(props: Dict)

  /** An insertion-ordered string-keyed map: a JavaScript `Map`, the entries
      of a JavaScript object in enumeration order, or a Python `dict`.
      `keys` is the iteration order, `vals` the contents. */
  datatype Dict = Dict(keys: seq<string>, vals: map<string, Value>) {

    /** Each key is listed once, and exactly the keys with a value are listed. */
    ghost predicate Valid() {
      && Distinct(keys)
      && (forall k :: k in vals <==> k in keys)
    }

    /** JavaScript `m.get(k)` and `obj[k]`: `undefined` when absent. */
    function Get(k: string): Value {
      if k in vals then vals[k] else Undefined
    }

    /** Python `d.get(k, None)`. */
    function PyGet(k: string): Value {
      if k in vals then vals[k] else Null
    }

    /** JavaScript `m.set(k, v)` and Python `d[k] = v`: a key already present
        keeps its position; a new key goes last. */
    function Set(k: string, v: Value): (d: Dict)
      ensures d.vals == vals[k := v]
      ensures Valid() ==> d.Valid()
    {
      if k in vals then Dict(keys, vals[k := v]) else Dict(keys + [k], vals[k := v])
    }

    /** Python `d.pop(k, None)` for its effect on `d`. */
    function Remove(k: string): (d: Dict)
      ensures d.vals == vals - {k}
      ensures Valid() ==> d.Valid()
    {
      Dict(Filter(keys, k), vals - {k})
    }
  }

  /** `ks` without the occurrences of `k`. */
  function Filter(ks: seq<string>, k: string): (r: seq<string>)
    ensures forall x :: x in r <==> x in ks && x != k
    ensures Distinct(ks) ==> Distinct(r)
  {
    if ks == [] then []
    else if ks[0] == k then Filter(ks[1..], k)
    else
      var rest := Filter(ks[1..], k);
      assert Distinct(ks) ==> ks[0] !in ks[1..];
      [ks[0]] + rest
  }

  /** No element occurs twice. */
  predicate Distinct<T(==)>(s: seq<T>) {
    forall i, j :: 0 <= i < j < |s| ==> s[i] != s[j]
  }

  const EmptyDict := Dict([], map[])

  /** An object whose entries are exactly `entries`, in that order. */
  function DictOf(entries: seq<(string, Value)>): (d: Dict)
    ensures forall i :: 0 <= i < |entries| ==> entries[i].0 in d.vals
  {
    if entries == [] then EmptyDict
    else DictOf(entries[..|entries| - 1]).Set(entries[|entries| - 1].0, entries[|entries| - 1].1)
  }

  /** JavaScript truthiness, as `a || b` uses it. */
  predicate JsTruthy(v: Value) {
    match v
    case Undefined => false
    case Null => false
    case Bool(b) => b
    case Num(n) => n != 0
    case Str(s) => s != ""
    case Arr(_) => true
    case Obj(_) => true
  }

  /** JavaScript `===` between a value of one feed and a value of the other.
      The feeds are parsed separately, so no object or array is shared
      between them and reference identity never holds; primitives compare
      by value. */
  predicate StrictEq(a: Value, b: Value) {
    !a.Obj? && !a.Arr? && a == b
  }

  /** Decimal digits of `n`, as JavaScript prints an integral number. */
  function NatToDecimal(n: nat): (r: string)
    ensures |r| > 0 && forall i :: 0 <= i < |r| ==> '0' <= r[i] <= '9'
  {
    if n < 10 then ["0123456789"[n]] else NatToDecimal(n / 10) + ["0123456789"[n % 10]]
  }

  function IntToDecimal(n: int): string {
    if n < 0 then "-" + NatToDecimal(-n) else NatToDecimal(n)
  }

  function JoinComma(parts: seq<string>): string {
    if parts == [] then ""
    else if |parts| == 1 then parts[0]
    else JoinComma(parts[..|parts| - 1]) + "," + parts[|parts| - 1]
  }

  /** JavaScript's ToString, as `str.startsWith(v)` applies it to a
      non-string argument. An array joins its elements with commas, writing
      `null` and `undefined` elements as empty. */
  function JsToString(v: Value): string {
    match v
    case Undefined => "undefined"
    case Null => "null"
    case Bool(b) => if b then "true" else "false"
    case Num(n) => IntToDecimal(n)
    case Str(s) => s
    case Obj(_) => "[object Object]"
    case Arr(es) =>
      JoinComma(seq(|es|, i requires 0 <= i < |es| =>
        if es[i].Undefined? || es[i].Null? then "" else JsToString(es[i])))
  }

  /** Python truthiness, as `a or b` uses it (`Undefined` never reaches Python). */
  predicate PyTruthy(v: Value) {
    match v
    case Undefined => false
    case Null => false
    case Bool(b) => b
    case Num(n) => n != 0
    case Str(s) => s != ""
    case Arr(es) => es != []
    case Obj(d) => d.vals != map[]
  }

  function BoolToInt(b: bool): int {
    if b then 1 else 0
  }

  /** Python `==`: deep on lists and dicts (a dict's order does not matter),
      and `True == 1`, `False == 0`. */
  predicate PyEq(a: Value, b: Value) {
    match a
    case Obj(d) =>
      b.Obj? && d.vals.Keys == b.props.vals.Keys
      && forall k :: k in d.vals ==> PyEq(d.vals[k], b.props.vals[k])
    case Arr(es) =>
      b.Arr? && |es| == |b.elems| && forall i :: 0 <= i < |es| ==> PyEq(es[i], b.elems[i])
    case Bool(x) => (b.Bool? && b.b == x) || (b.Num? && b.n == BoolToInt(x))
    case Num(x) => (b.Num? && b.n == x) || (b.Bool? && x == BoolToInt(b.b))
    case _ => a == b
  }

  /** Python `a + b` on JSON values: numbers (booleans count as 0 and 1)
      add, strings and lists concatenate, anything else is a TypeError. */
  function PyAdd(a: Value, b: Value): Result<Value> {
    if (a.Num? || a.Bool?) && (b.Num? || b.Bool?) then
      Ok(Num((if a.Num? then a.n else BoolToInt(a.b)) + (if b.Num? then b.n else BoolToInt(b.b))))
    else if a.Str? && b.Str? then Ok(Str(a.s + b.s))
    else if a.Arr? && b.Arr? then Ok(Arr(a.elems + b.elems))
    else Err(TypeError)
  }

  /** Python `v[k]` with a string key: a dict's entry or KeyError; any
      other value refuses string subscripts with TypeError. */
  function PyIndex(v: Value, k: string): (r: Result<Value>)
    ensures r.Ok? <==> v.Obj? && k in v.props.vals
    ensures r.Ok? ==> r.value == v.props.vals[k]
    ensures r.Err? && v.Obj? ==> r.fault == KeyError
    ensures r.Err? && !v.Obj? ==> r.fault == TypeError
  {
    if !v.Obj? then Err(TypeError)
    else if k in v.props.vals then Ok(v.props.vals[k])
    else Err(KeyError)
  }

  /** The items a Python `for` loop over `v` visits: a list's elements, a
      dict's keys, a string's characters; anything else is not iterable. */
  function PyIter(v: Value): (r: Result<seq<Value>>)
    ensures r.Ok? <==> v.Arr? || v.Obj? || v.Str?
    ensures v.Arr? ==> r == Ok(v.elems)
    ensures v.Str? && r.Ok? ==> |r.value| == |v.s|
  {
    match v
    case Arr(es) => Ok(es)
    case Obj(d) => Ok(seq(|d.keys|, i requires 0 <= i < |d.keys| => Str(d.keys[i])))
    case Str(s) => Ok(seq(|s|, i requires 0 <= i < |s| => Str([s[i]])))
    case _ => Err(TypeError)
  }

  /** JavaScript `v[k]` for the names the feeds' readers use (`operators`,
      `logs`, `name`, `url`): an object's entry or `undefined`; no array,
      string, number or boolean has such a property; reading one of
      `undefined` or `null` throws. */
  function JsProp(v: Value, k: string): (r: Result<Value>)
    ensures r.Ok? <==> !v.Undefined? && !v.Null?
    ensures r.Err? ==> r.fault == TypeError
    ensures v.Obj? ==> r == Ok(v.props.Get(k))
    ensures r.Ok? && !v.Obj? ==> r.value == Undefined
  {
    match v
    case Undefined => Err(TypeError)
    case Null => Err(TypeError)
    case Obj(d) => Ok(d.Get(k))
    case _ => Ok(Undefined)
  }

  /** The items a JavaScript `for … of` loop over a parsed JSON value
      visits: an array's elements or a string's characters; anything else
      (a plain object included) is not iterable and throws. */
  function JsIter(v: Value): (r: Result<seq<Value>>)
    ensures r.Ok? <==> v.Arr? || v.Str?
    ensures r.Err? ==> r.fault == TypeError
    ensures v.Arr? ==> r == Ok(v.elems)
    ensures v.Str? ==> r.Ok? && |r.value| == |v.s|
                       && forall i :: 0 <= i < |v.s| ==> r.value[i] == Str([v.s[i]])
  {
    match v
    case Arr(es) => Ok(es)
    case Str(s) => Ok(seq(|s|, i requires 0 <= i < |s| => Str([s[i]])))
    case _ => Err(TypeError)
  }

  /** `vs` as an object indexed by position: `"0"`, `"1"`, … */
  function IndexEntries(vs: seq<Value>): (d: Dict)
    ensures forall i :: 0 <= i < |vs| ==> NatToDecimal(i) in d.vals
  {
    var entries := seq(|vs|, i requires 0 <= i < |vs| => (NatToDecimal(i), vs[i]));
    var d := DictOf(entries);
    assert forall i :: 0 <= i < |vs| ==> entries[i].0 == NatToDecimal(i);
    d
  }

  /** `new Map(Object.entries(v))`: an object's own entries in order, an
      array's or a string's positions, nothing for a number or boolean;
      `undefined` and `null` throw. */
  function EntriesOf(v: Value): (r: Result<Dict>)
    ensures r.Ok? <==> !v.Undefined? && !v.Null?
    ensures r.Err? ==> r.fault == TypeError
    ensures v.Obj? ==> r == Ok(v.props)
    ensures v.Num? || v.Bool? ==> r == Ok(EmptyDict)
    ensures v.Arr? ==> r.Ok? && forall i :: 0 <= i < |v.elems| ==> NatToDecimal(i) in r.value.vals
    ensures v.Str? ==> r.Ok? && forall i :: 0 <= i < |v.s| ==> NatToDecimal(i) in r.value.vals
  {
    match v
    case Undefined => Err(TypeError)
    case Null => Err(TypeError)
    case Obj(d) => Ok(d)
    case Arr(es) => Ok(IndexEntries(es))
    case Str(s) => Ok(IndexEntries(seq(|s|, i requires 0 <= i < |s| => Str([s[i]]))))
    case _ => Ok(EmptyDict)
  }
}

=== FILE: records.dfy ===
/** The shape shared by every record-building loop in the modelled code:
    walk a sequence of keys, let each key contribute a short list of
    `(name, value)` writes, and apply them to an accumulating record. A key
    whose contribution raises aborts the whole loop. */
module Records {
  import opened Results
  import opened Json

  type Write = (string, Value)

  /** The names a list of writes touches. */
  function Names(ws: seq<Write>): set<string> {
    set i | 0 <= i < |ws| :: ws[i].0
  }

  /** The value the last write to `n` stores. */
  function LastWrite(ws: seq<Write>, n: string): Value
    requires n in Names(ws)
  {
    if ws[|ws| - 1].0 == n then ws[|ws| - 1].1
    else
      assert n in Names(ws[..|ws| - 1]) by {
        var i :| 0 <= i < |ws| && ws[i].0 == n;
        assert ws[..|ws| - 1][i].0 == n;
      }
      LastWrite(ws[..|ws| - 1], n)
  }

  lemma NamesAppend(a: seq<Write>, b: seq<Write>)
    ensures Names(a + b) == Names(a) + Names(b)
  {
    forall n | n in Names(a + b) ensures n in Names(a) + Names(b) {
      var i :| 0 <= i < |a + b| && (a + b)[i].0 == n;
      if i < |a| { assert a[i].0 == n; } else { assert b[i - |a|].0 == n; }
    }
    forall n | n in Names(a) + Names(b) ensures n in Names(a + b) {
      if n in Names(a) {
        var i :| 0 <= i < |a| && a[i].0 == n;
        assert (a + b)[i].0 == n;
      } else {
        var i :| 0 <= i < |b| && b[i].0 == n;
        assert (a + b)[|a| + i].0 == n;
      }
    }
  }

  /** A write that no later write to the same name follows is the last. */
  lemma {:induction false} LastWriteAt(ws: seq<Write>, i: nat)
    requires i < |ws|
    requires forall j :: i < j < |ws| ==> ws[j].0 != ws[i].0
    ensures ws[i].0 in Names(ws) && LastWrite(ws, ws[i].0) == ws[i].1
  {
    if i < |ws| - 1 {
      LastWriteAt(ws[..|ws| - 1], i);
    }
  }

  /** `d` after the writes, performed in order with `Dict.Set`. */
  function ApplyWrites(d: Dict, ws: seq<Write>): (r: Dict)
    ensures forall n :: n in r.vals <==> n in d.vals || n in Names(ws)
    ensures forall n :: n in Names(ws) ==> r.vals[n] == LastWrite(ws, n)
    ensures forall n :: n in d.vals && n !in Names(ws) ==> r.vals[n] == d.vals[n]
    ensures d.Valid() ==> r.Valid()
  {
    if ws == [] then d
    else
      var front := ws[..|ws| - 1];
      assert Names(ws) == Names(front) + {ws[|ws| - 1].0} by {
        forall n | n in Names(ws) ensures n in Names(front) + {ws[|ws| - 1].0} {
          var i :| 0 <= i < |ws| && ws[i].0 == n;
          if i < |ws| - 1 { assert front[i].0 == n; }
        }
        forall n | n in Names(front) ensures n in Names(ws) {
          var i :| 0 <= i < |front| && front[i].0 == n;
          assert ws[i].0 == n;
        }
      }
      ApplyWrites(d, front).Set(ws[|ws| - 1].0, ws[|ws| - 1].1)
  }

  /** Walk `ks`, applying each key's writes to `acc`; the first key whose
      step fails makes the whole walk fail with that fault. */
  function FoldKeys(ks: seq<string>, step: string -> Result<seq<Write>>, acc: Dict): Result<Dict>
    decreases |ks|
  {
    if ks == [] then Ok(acc)
    else
      var ws :- step(ks[0]);
      FoldKeys(ks[1..], step, ApplyWrites(acc, ws))
  }

  /** The walk succeeds exactly when every key's step does. */
  lemma {:induction false} FoldKeysOk(ks: seq<string>, step: string -> Result<seq<Write>>, acc: Dict)
    ensures FoldKeys(ks, step, acc).Ok? <==> forall i :: 0 <= i < |ks| ==> step(ks[i]).Ok?
  {
    if ks != [] && step(ks[0]).Ok? {
      FoldKeysOk(ks[1..], step, ApplyWrites(acc, step(ks[0]).value));
      assert forall i :: 1 <= i < |ks| ==> ks[i] == ks[1..][i - 1];
    }
  }

  /** Walking the keys keeps a well-formed dictionary well formed. */
  lemma {:induction false} FoldKeysValid(ks: seq<string>, step: string -> Result<seq<Write>>, acc: Dict)
    requires acc.Valid()
    ensures FoldKeys(ks, step, acc).Ok? ==> FoldKeys(ks, step, acc).value.Valid()
  {
    if ks != [] && step(ks[0]).Ok? {
      FoldKeysValid(ks[1..], step, ApplyWrites(acc, step(ks[0]).value));
    }
  }

  /** A name no step writes keeps whatever `acc` had for it. */
  lemma {:induction false} FoldKeysFrame(ks: seq<string>, step: string -> Result<seq<Write>>, acc: Dict, n: string)
    requires FoldKeys(ks, step, acc).Ok?
    requires forall i :: 0 <= i < |ks| ==> step(ks[i]).Ok? ==> n !in Names(step(ks[i]).value)
    ensures n in FoldKeys(ks, step, acc).value.vals <==> n in acc.vals
    ensures n in acc.vals ==> FoldKeys(ks, step, acc).value.vals[n] == acc.vals[n]
  {
    if ks != [] {
      assert forall i :: 1 <= i < |ks| ==> ks[i] == ks[1..][i - 1];
      FoldKeysFrame(ks[1..], step, ApplyWrites(acc, step(ks[0]).value), n);
    }
  }

  /** The writes of key `ks[i]` survive the walk, provided they land on a
      set `F` of names that neither `acc` nor any other key's step touches:
      on `F` the result holds exactly what that key's step wrote. */
  lemma {:induction false} FoldKeysOwn(ks: seq<string>, step: string -> Result<seq<Write>>, acc: Dict,
                                       i: nat, F: set<string>)
    requires FoldKeys(ks, step, acc).Ok?
    requires i < |ks| && step(ks[i]).Ok? && Names(step(ks[i]).value) <= F
    requires forall j :: 0 <= j < |ks| && j != i ==> step(ks[j]).Ok? ==> Names(step(ks[j]).value) !! F
    requires forall n :: n in F ==> n !in acc.vals
    ensures forall n :: n in F ==>
              && (n in FoldKeys(ks, step, acc).value.vals <==> n in Names(step(ks[i]).value))
              && (n in Names(step(ks[i]).value) ==>
                    FoldKeys(ks, step, acc).value.vals[n] == LastWrite(step(ks[i]).value, n))
  {
    var ws := step(ks[0]).value;
    var acc' := ApplyWrites(acc, ws);
    assert forall j :: 1 <= j < |ks| ==> ks[j] == ks[1..][j - 1];
    if i == 0 {
      forall n | n in F
        ensures n in FoldKeys(ks, step, acc).value.vals <==> n in Names(ws)
        ensures n in Names(ws) ==> FoldKeys(ks, step, acc).value.vals[n] == LastWrite(ws, n)
      {
        FoldKeysFrame(ks[1..], step, acc', n);
      }
    } else {
      FoldKeysOwn(ks[1..], step, acc', i - 1, F);
    }
  }

  /** Two steps that agree on every key give the same walk. */
  lemma {:induction false} FoldKeysCongruent(ks: seq<string>, step1: string -> Result<seq<Write>>,
                                             step2: string -> Result<seq<Write>>, acc: Dict)
    requires forall i :: 0 <= i < |ks| ==> step1(ks[i]) == step2(ks[i])
    ensures FoldKeys(ks, step1, acc) == FoldKeys(ks, step2, acc)
  {
    if ks != [] && step1(ks[0]).Ok? {
      assert forall i :: 1 <= i < |ks| ==> ks[i] == ks[1..][i - 1];
      FoldKeysCongruent(ks[1..], step1, step2, ApplyWrites(acc, step1(ks[0]).value));
    }
  }

  /** When each key's step writes that key's value from `src` and nothing
      else, the walk copies those entries of `src` over `acc`. */
  lemma {:induction false} FoldKeysCopy(ks: seq<string>, step: string -> Result<seq<Write>>, acc: Dict,
                                        src: map<string, Value>)
    requires forall i :: 0 <= i < |ks| ==> ks[i] in src && step(ks[i]) == Ok([(ks[i], src[ks[i]])])
    ensures FoldKeys(ks, step, acc).Ok?
    ensures var r := FoldKeys(ks, step, acc).value;
            && (forall n :: n in r.vals <==> n in acc.vals || n in ks)
            && (forall n :: n in ks ==> r.vals[n] == src[n])
            && (forall n :: n !in ks && n in acc.vals ==> r.vals[n] == acc.vals[n])
    decreases |ks|
  {
    if ks != [] {
      var k := ks[0];
      var ws := [(k, src[k])];
      assert Names(ws) == {k} by { assert ws[0].0 == k; }
      LastWriteAt(ws, 0);
      var acc' := ApplyWrites(acc, ws);
      assert forall i :: 0 <= i < |ks[1..]| ==> ks[1..][i] == ks[i + 1];
      FoldKeysCopy(ks[1..], step, acc', src);
      assert forall n :: n in ks <==> n == k || n in ks[1..];
    }
  }
}

=== FILE: render_flatten.dfy ===
/** render.py `flatten_logs`: the operators → logs structure of a log list
    turned into one list of flat log records, each tagged with its operator
    and a short name, with the nested `state` and `temporal_interval`
    replaced by top-level fields. */
module RenderFlatten {
  import opened Results
  import opened Json
  import opened RenderName

  /** The fields `flatten_logs` sets or removes; every other field of a
      log passes through. */
  const Rewritten: set<string> :=
    {"operator", "name", "state", "state_timestamp", "temporal_interval", "start", "end"}

  /** `log.pop("state", None)` for a dict the state has been popped from:
      the first key of the state and that entry's `timestamp`. */
  function StateFields(state: Value): (r: Result<(string, Value)>)
    ensures r.Ok? <==> && state.Obj? && state.props.keys != []
                       && state.props.keys[0] in state.props.vals
                       && PyIndex(state.props.vals[state.props.keys[0]], "timestamp").Ok?
    ensures r.Ok? ==> r.value.0 == state.props.keys[0]
                      && r.value.1 == state.props.vals[r.value.0].props.vals["timestamp"]
  {
    if !state.Obj? then Err(AttributeError)
    else if state.props.keys == [] then Err(IndexError)
    else
      var first := state.props.keys[0];
      var entry :- PyIndex(state, first);
      var ts :- PyIndex(entry, "timestamp");
      Ok((first, ts))
  }

  /** The two bounds of a temporal interval. */
  function IntervalFields(interval: Value): (r: Result<(Value, Value)>)
    ensures r.Ok? <==> interval.Obj? && "start_inclusive" in interval.props.vals
                       && "end_exclusive" in interval.props.vals
    ensures r.Ok? ==> r.value == (interval.props.vals["start_inclusive"],
                                  interval.props.vals["end_exclusive"])
  {
    var start :- PyIndex(interval, "start_inclusive");
    var end :- PyIndex(interval, "end_exclusive");
    Ok((start, end))
  }

  /** Field `k` is the same in `out` as in `log`, absent from both or
      present in both with one value. */
  predicate Kept(log: Dict, out: Dict, k: string) {
    (k in out.vals <==> k in log.vals) && (k in log.vals ==> out.vals[k] == log.vals[k])
  }

  /** The field names `flatten_logs` touches are pairwise different. */
  lemma FieldNames()
    ensures "operator" != "name" && "operator" != "state" && "operator" != "state_timestamp"
    ensures "operator" != "temporal_interval" && "operator" != "start" && "operator" != "end"
    ensures "name" != "state" && "name" != "state_timestamp" && "name" != "temporal_interval"
    ensures "name" != "start" && "name" != "end"
    ensures "state" != "state_timestamp" && "state" != "temporal_interval"
    ensures "state" != "start" && "state" != "end"
    ensures "state_timestamp" != "temporal_interval" && "state_timestamp" != "start"
    ensures "state_timestamp" != "end"
    ensures "temporal_interval" != "start" && "temporal_interval" != "end" && "start" != "end"
  {
    assert "state"[3] != "start"[3];
  }

  /** `log["operator"] = op_name` and `log["name"] = short`. */
  function Tag(d: Dict, name: string, short: string): (r: Dict)
    ensures "operator" in r.vals && r.vals["operator"] == Str(name)
    ensures "name" in r.vals && r.vals["name"] == Str(short)
    ensures forall k :: k != "operator" && k != "name" ==> Kept(d, r, k)
    ensures d.Valid() ==> r.Valid()
  {
    FieldNames();
    d.Set("operator", Str(name)).Set("name", Str(short))
  }

  /** `state` replaced by its first key, with that entry's timestamp under
      `state_timestamp`; a `None` or absent state just goes. */
  ghost predicate StatePopped(d: Dict, out: Dict) {
    var state := d.PyGet("state");
    && (state.Null? ==> "state" !in out.vals && forall k :: k != "state" ==> Kept(d, out, k))
    && (!state.Null? ==>
          && StateFields(state).Ok?
          && "state" in out.vals && out.vals["state"] == Str(StateFields(state).value.0)
          && "state_timestamp" in out.vals && out.vals["state_timestamp"] == StateFields(state).value.1
          && forall k :: k != "state" && k != "state_timestamp" ==> Kept(d, out, k))
  }

  /** The `state` lines of `flatten_logs`. */
  function PopState(d: Dict): (r: Result<Dict>)
    ensures r.Ok? <==> d.PyGet("state").Null? || StateFields(d.PyGet("state")).Ok?
    ensures r.Ok? ==> StatePopped(d, r.value)
    ensures r.Ok? && d.Valid() ==> r.value.Valid()
  {
    var state := d.PyGet("state");
    var d1 := d.Remove("state");
    if state.Null? then Ok(d1)
    else
      var (first, ts) :- StateFields(state);
      FieldNames();
      Ok(d1.Set("state", Str(first)).Set("state_timestamp", ts))
  }

  /** `temporal_interval` replaced by its bounds under `start` and `end`; a
      `None` or absent interval just goes. */
  ghost predicate IntervalPopped(d: Dict, out: Dict) {
    var interval := d.PyGet("temporal_interval");
    && "temporal_interval" !in out.vals
    && (interval.Null? ==> forall k :: k != "temporal_interval" ==> Kept(d, out, k))
    && (!interval.Null? ==>
          && IntervalFields(interval).Ok?
          && "start" in out.vals && out.vals["start"] == IntervalFields(interval).value.0
          && "end" in out.vals && out.vals["end"] == IntervalFields(interval).value.1
          && forall k :: k != "temporal_interval" && k != "start" && k != "end" ==> Kept(d, out, k))
  }

  /** The `temporal_interval` lines of `flatten_logs`. */
  function PopInterval(d: Dict): (r: Result<Dict>)
    ensures r.Ok? <==> d.PyGet("temporal_interval").Null? || IntervalFields(d.PyGet("temporal_interval")).Ok?
    ensures r.Ok? ==> IntervalPopped(d, r.value)
    ensures r.Ok? && d.Valid() ==> r.value.Valid()
  {
    var interval := d.PyGet("temporal_interval");
    var d1 := d.Remove("temporal_interval");
    if interval.Null? then Ok(d1)
    else
      var (start, end) :- IntervalFields(interval);
      FieldNames();
      Ok(d1.Set("start", start).Set("end", end))
  }

  /** The body of the inner loop of `flatten_logs` for one log of the
      operator named `name`. */
  function FlattenLog(name: Value, item: Value): (r: Result<Dict>)
    ensures r.Ok? <==> Flattenable(name, item)
    ensures !item.Obj? ==> r == Err(TypeError)
    ensures item.Obj? && "description" !in item.props.vals ==> r == Err(KeyError)
    ensures r.Ok? ==> Flattened(name, item.props, r.value)
    ensures r.Ok? && item.props.Valid() ==> r.value.Valid()
  {
    if !item.Obj? then Err(TypeError)
    else
      var description :- PyIndex(item, "description");
      if !description.Str? then Err(AttributeError)
      else if !name.Str? then Err(TypeError)
      else
        var d1 := Tag(item.props, name.s, LogName(name.s, description.s));
        TagKeepsNested(item.props, name.s, LogName(name.s, description.s));
        var d2 :- PopState(d1);
        PopStateKeepsInterval(d1, d2);
        var r :- PopInterval(d2);
        FlattenedSteps(name.s, item.props, d1, d2, r);
        Ok(r)
  }

  /** Tagging leaves the state and the interval where they were. */
  lemma TagKeepsNested(log: Dict, name: string, short: string)
    ensures Tag(log, name, short).PyGet("state") == log.PyGet("state")
    ensures Tag(log, name, short).PyGet("temporal_interval") == log.PyGet("temporal_interval")
  {
    FieldNames();
    var d1 := Tag(log, name, short);
    assert Kept(log, d1, "state") && Kept(log, d1, "temporal_interval");
  }

  /** Popping the state leaves the interval where it was. */
  lemma PopStateKeepsInterval(d1: Dict, d2: Dict)
    requires StatePopped(d1, d2)
    ensures d2.PyGet("temporal_interval") == d1.PyGet("temporal_interval")
  {
    FieldNames();
    assert Kept(d1, d2, "temporal_interval");
  }

  /** The three steps compose to the flat record. */
  lemma FlattenedSteps(name: string, log: Dict, d1: Dict, d2: Dict, out: Dict)
    requires "description" in log.vals && log.vals["description"].Str?
    requires d1 == Tag(log, name, LogName(name, log.vals["description"].s))
    requires StatePopped(d1, d2) && IntervalPopped(d2, out)
    ensures Flattened(Str(name), log, out)
  {
    var short := LogName(name, log.vals["description"].s);
    TagKeepsNested(log, name, short);
    PopStateKeepsInterval(d1, d2);
    StepsTag(name, short, d1, d2, out);
    StepsState(log, d1, d2, out);
    StepsInterval(log, d1, d2, out);
    StepsRest(log, d1, d2, out);
  }

  lemma StepsTag(name: string, short: string, d1: Dict, d2: Dict, out: Dict)
    requires "operator" in d1.vals && d1.vals["operator"] == Str(name)
    requires "name" in d1.vals && d1.vals["name"] == Str(short)
    requires StatePopped(d1, d2) && IntervalPopped(d2, out)
    ensures "operator" in out.vals && out.vals["operator"] == Str(name)
    ensures "name" in out.vals && out.vals["name"] == Str(short)
  {
    FieldNames();
    assert Kept(d1, d2, "operator") && Kept(d2, out, "operator");
    assert Kept(d1, d2, "name") && Kept(d2, out, "name");
  }

  lemma StepsState(log: Dict, d1: Dict, d2: Dict, out: Dict)
    requires forall k :: k != "operator" && k != "name" ==> Kept(log, d1, k)
    requires d1.PyGet("state") == log.PyGet("state")
    requires StatePopped(d1, d2) && IntervalPopped(d2, out)
    ensures FlatState(log, out)
  {
    FieldNames();
    var state := log.PyGet("state");
    assert Kept(d2, out, "state") && Kept(d2, out, "state_timestamp");
    if state.Null? {
      assert Kept(log, d1, "state_timestamp") && Kept(d1, d2, "state_timestamp");
    }
  }

  lemma StepsInterval(log: Dict, d1: Dict, d2: Dict, out: Dict)
    requires forall k :: k != "operator" && k != "name" ==> Kept(log, d1, k)
    requires d2.PyGet("temporal_interval") == log.PyGet("temporal_interval")
    requires StatePopped(d1, d2) && IntervalPopped(d2, out)
    ensures FlatInterval(log, out)
  {
    FieldNames();
    if log.PyGet("temporal_interval").Null? {
      assert Kept(log, d1, "start") && Kept(d1, d2, "start") && Kept(d2, out, "start");
      assert Kept(log, d1, "end") && Kept(d1, d2, "end") && Kept(d2, out, "end");
    }
  }

  lemma StepsRest(log: Dict, d1: Dict, d2: Dict, out: Dict)
    requires forall k :: k != "operator" && k != "name" ==> Kept(log, d1, k)
    requires StatePopped(d1, d2) && IntervalPopped(d2, out)
    ensures forall k :: k !in Rewritten ==> Kept(log, out, k)
  {
    forall k | k !in Rewritten ensures Kept(log, out, k) {
      assert k != "operator" && k != "name" && k != "state" && k != "state_timestamp";
      assert k != "temporal_interval" && k != "start" && k != "end";
      assert Kept(log, d1, k) && Kept(d1, d2, k) && Kept(d2, out, k);
    }
  }

  /** What `FlattenLog` needs of a log: a dict with a string description
      under an operator with a string name, a state that is absent, `None`,
      or a non-empty dict whose first entry has a timestamp, and an interval
      that is absent, `None`, or has both bounds. */
  predicate Flattenable(name: Value, item: Value) {
    && item.Obj?
    && "description" in item.props.vals
    && item.props.vals["description"].Str?
    && name.Str?
    && (item.props.PyGet("state").Null? || StateFields(item.props.PyGet("state")).Ok?)
    && (item.props.PyGet("temporal_interval").Null?
        || IntervalFields(item.props.PyGet("temporal_interval")).Ok?)
  }

  /** `out` is the flat record of `log`: tagged with the operator and the
      short name, the state's first key and timestamp under `state` and
      `state_timestamp`, the interval's bounds under `start` and `end`, no
      `temporal_interval`, and every other field as it was. */
  ghost predicate Flattened(name: Value, log: Dict, out: Dict)
    requires name.Str? && "description" in log.vals && log.vals["description"].Str?
  {
    && "operator" in out.vals && out.vals["operator"] == name
    && "name" in out.vals && out.vals["name"] == Str(LogName(name.s, log.vals["description"].s))
    && FlatState(log, out)
    && FlatInterval(log, out)
    && (forall k :: k !in Rewritten ==> Kept(log, out, k))
  }

  /** The state of `log` as `out` holds it. */
  ghost predicate FlatState(log: Dict, out: Dict) {
    var state := log.PyGet("state");
    && (state.Null? ==> "state" !in out.vals && Kept(log, out, "state_timestamp"))
    && (!state.Null? ==>
          && StateFields(state).Ok?
          && "state" in out.vals && out.vals["state"] == Str(StateFields(state).value.0)
          && "state_timestamp" in out.vals
          && out.vals["state_timestamp"] == StateFields(state).value.1)
  }

  /** The interval of `log` as `out` holds it. */
  ghost predicate FlatInterval(log: Dict, out: Dict) {
    var interval := log.PyGet("temporal_interval");
    && "temporal_interval" !in out.vals
    && (interval.Null? ==> Kept(log, out, "start") && Kept(log, out, "end"))
    && (!interval.Null? ==>
          && IntervalFields(interval).Ok?
          && "start" in out.vals && out.vals["start"] == IntervalFields(interval).value.0
          && "end" in out.vals && out.vals["end"] == IntervalFields(interval).value.1)
  }

  /** The inner loop of `flatten_logs` over the items of one operator,
      with `f` for the body; the first log that raises ends it. */
  function FlattenEach(f: (Value, Value) -> Result<Dict>, name: Value, items: seq<Value>): Result<seq<Dict>> {
    MapAll(item => f(name, item), items)
  }

  /** `operator["name"]` and the items of
      `operator["logs"] + operator.get("tiled_logs", [])`. */
  function OperatorItems(op: Value): (r: Result<(Value, seq<Value>)>)
    ensures op.Obj? && "name" in op.props.vals && "logs" in op.props.vals
            && op.props.vals["logs"].Arr? && op.props.PyGet("tiled_logs").Arr? ==>
              r == Ok((op.props.vals["name"],
                       op.props.vals["logs"].elems + op.props.vals["tiled_logs"].elems))
    ensures op.Obj? && "name" in op.props.vals && "logs" in op.props.vals
            && op.props.vals["logs"].Arr? && "tiled_logs" !in op.props.vals ==>
              r == Ok((op.props.vals["name"], op.props.vals["logs"].elems))
    ensures !op.Obj? ==> r == Err(TypeError)
  {
    var name :- PyIndex(op, "name");
    var logs :- PyIndex(op, "logs");
    var tiled := if "tiled_logs" in op.props.vals then op.props.vals["tiled_logs"] else Arr([]);
    var all :- PyAdd(logs, tiled);
    assert logs.Arr? && tiled == Arr([]) ==> logs.elems + tiled.elems == logs.elems;
    var items :- PyIter(all);
    Ok((name, items))
  }

  /** The outer loop of `flatten_logs` with `f` for the body of the
      inner loop, each operator's records after the previous operator's. */
  function EachOperator(f: (Value, Value) -> Result<Dict>, ops: seq<Value>): Result<seq<Dict>>
    decreases |ops|
  {
    if ops == [] then Ok([])
    else
      var (name, items) :- OperatorItems(ops[0]);
      var first :- FlattenEach(f, name, items);
      var rest :- EachOperator(f, ops[1..]);
      Ok(first + rest)
  }

  /** The loops of `flatten_logs` over the operators. */
  function FlattenOperators(ops: seq<Value>): Result<seq<Dict>> {
    EachOperator(FlattenLog, ops)
  }

  /** render.py `flatten_logs(logs)`, consumed in full by `list(...)`. */
  function FlattenLogs(doc: Value): (r: Result<seq<Dict>>)
    ensures !doc.Obj? ==> r == Err(TypeError)
    ensures doc.Obj? && "operators" !in doc.props.vals ==> r == Err(KeyError)
    ensures doc.Obj? && "operators" in doc.props.vals && doc.props.vals["operators"].Arr? ==>
              r == FlattenOperators(doc.props.vals["operators"].elems)
  {
    var ops :- PyIndex(doc, "operators");
    var opSeq :- PyIter(ops);
    FlattenOperators(opSeq)
  }

  /** Every log of every operator, paired with its operator's name, in
      the order `flatten_logs` visits them; the first malformed operator
      makes it fail. */
  function Items(ops: seq<Value>): (r: Result<seq<(Value, Value)>>)
    decreases |ops|
  {
    if ops == [] then Ok([])
    else
      var (name, items) :- OperatorItems(ops[0]);
      var rest :- Items(ops[1..]);
      Ok(seq(|items|, i requires 0 <= i < |items| => (name, items[i])) + rest)
  }

  /** The outer loop yields one record per log, in order, each what the
      body makes of that log under its operator's name. */
  lemma {:induction false} EachOperatorItems(f: (Value, Value) -> Result<Dict>, ops: seq<Value>)
    requires EachOperator(f, ops).Ok?
    ensures Items(ops).Ok?
    ensures var out, items := EachOperator(f, ops).value, Items(ops).value;
            && |out| == |items|
            && forall i :: 0 <= i < |items| ==> f(items[i].0, items[i].1) == Ok(out[i])
    decreases |ops|
  {
    if ops != [] {
      var (name, items) := OperatorItems(ops[0]).value;
      EachOperatorItems(f, ops[1..]);
      var first := FlattenEach(f, name, items).value;
      var rest := EachOperator(f, ops[1..]).value;
      var tagged := seq(|items|, i requires 0 <= i < |items| => (name, items[i]));
      assert Items(ops).value == tagged + Items(ops[1..]).value;
      assert EachOperator(f, ops).value == first + rest;
      assert forall i :: 0 <= i < |tagged| ==> tagged[i] == (name, items[i]);
      Pointwise(tagged, Items(ops[1..]).value, first, rest,
                (p: (Value, Value), d: Dict) => f(p.0, p.1) == Ok(d));
    }
  }

  /** A relation that holds pointwise between two pairs of sequences holds
      pointwise between their concatenations. */
  lemma Pointwise<A, B>(xs: seq<A>, ys: seq<A>, us: seq<B>, vs: seq<B>, R: (A, B) -> bool)
    requires |xs| == |us| && |ys| == |vs|
    requires forall i :: 0 <= i < |xs| ==> R(xs[i], us[i])
    requires forall i :: 0 <= i < |ys| ==> R(ys[i], vs[i])
    ensures forall i :: 0 <= i < |xs + ys| ==> R((xs + ys)[i], (us + vs)[i])
  {
    forall i | 0 <= i < |xs + ys| ensures R((xs + ys)[i], (us + vs)[i]) {
      if i >= |xs| {
        assert (xs + ys)[i] == ys[i - |xs|] && (us + vs)[i] == vs[i - |us|];
      }
    }
  }

  /** Conversely, when every operator is well formed and the body succeeds
      on every log, so does the outer loop. */
  lemma {:induction false} EachOperatorOk(f: (Value, Value) -> Result<Dict>, ops: seq<Value>)
    requires Items(ops).Ok?
    requires forall i :: 0 <= i < |Items(ops).value| ==> f(Items(ops).value[i].0, Items(ops).value[i].1).Ok?
    ensures EachOperator(f, ops).Ok?
    decreases |ops|
  {
    if ops != [] {
      ItemsSplit(ops, (p: (Value, Value)) => f(p.0, p.1).Ok?);
      EachOperatorOk(f, ops[1..]);
    }
  }

  /** What holds of every item of a list of operators holds of the items
      of the first operator and of those of the rest. */
  lemma ItemsSplit(ops: seq<Value>, P: ((Value, Value)) -> bool)
    requires ops != [] && Items(ops).Ok?
    requires forall i :: 0 <= i < |Items(ops).value| ==> P(Items(ops).value[i])
    ensures OperatorItems(ops[0]).Ok? && Items(ops[1..]).Ok?
    ensures var (name, items) := OperatorItems(ops[0]).value;
            forall i :: 0 <= i < |items| ==> P((name, items[i]))
    ensures forall i :: 0 <= i < |Items(ops[1..]).value| ==> P(Items(ops[1..]).value[i])
  {
    var (name, items) := OperatorItems(ops[0]).value;
    var tagged := seq(|items|, i requires 0 <= i < |items| => (name, items[i]));
    var all := Items(ops).value;
    assert all == tagged + Items(ops[1..]).value;
    forall i | 0 <= i < |items| ensures P((name, items[i])) {
      assert all[i] == (name, items[i]);
    }
    forall i | 0 <= i < |Items(ops[1..]).value| ensures P(Items(ops[1..]).value[i]) {
      assert all[|tagged| + i] == Items(ops[1..]).value[i];
    }
  }

  /** The flattened list has one record per log, in order, each the flat
      form of that log under its operator's name. */
  lemma FlattenOperatorsItems(ops: seq<Value>)
    requires FlattenOperators(ops).Ok?
    ensures Items(ops).Ok?
    ensures var out, items := FlattenOperators(ops).value, Items(ops).value;
            && |out| == |items|
            && forall i :: 0 <= i < |items| ==> FlattenLog(items[i].0, items[i].1) == Ok(out[i])
  {
    EachOperatorItems(FlattenLog, ops);
  }

  /** When every operator is well formed and every log can be flattened,
      so can the list. */
  lemma FlattenOperatorsOk(ops: seq<Value>)
    requires Items(ops).Ok?
    requires forall i :: 0 <= i < |Items(ops).value| ==>
               Flattenable(Items(ops).value[i].0, Items(ops).value[i].1)
    ensures FlattenOperators(ops).Ok?
  {
    EachOperatorOk(FlattenLog, ops);
  }
}

=== FILE: render_merge.dfy ===
/** The merge of render.py: flat log records of the two feeds paired by
    url, and each pair merged field by field. A field one side lacks (or
    holds as `None`) takes the other side's value; equal values are kept
    once; a differing `name` is Google's; a differing `state` is resolved
    by precedence and kept from both sides too; any other differing field
    is kept from both sides under `apple_<k>` and `google_<k>`. */
module RenderMerge {
  import opened Results
  import opened Json
  import opened Records

  /** `v` is a dict with an entry for `k`. */
  predicate Has(v: Value, k: string) {
    v.Obj? && k in v.props.vals
  }

  /** render.py `all_keys(a, b)`: the union of the keys of two records,
      either of which may be `None` (but not both). */
  function AllKeys(a: Value, b: Value): (r: Result<set<string>>)
    ensures r.Ok? <==> (a.Obj? || a.Null?) && (b.Obj? || b.Null?) && (a.Obj? || b.Obj?)
    ensures r.Ok? ==> forall k :: k in r.value <==> Has(a, k) || Has(b, k)
  {
    if a.Null? then (if b.Obj? then Ok(b.props.vals.Keys) else Err(AttributeError))
    else if b.Null? then (if a.Obj? then Ok(a.props.vals.Keys) else Err(AttributeError))
    else if a.Obj? && b.Obj? then Ok(a.props.vals.Keys + b.props.vals.Keys)
    else Err(AttributeError)
  }

  /** The union does not depend on which record comes first. */
  lemma AllKeysSymmetric(a: Value, b: Value)
    ensures AllKeys(a, b).Ok? <==> AllKeys(b, a).Ok?
    ensures AllKeys(a, b).Ok? ==> AllKeys(a, b).value == AllKeys(b, a).value
  {
  }

  /** render.py `cond_get(m, k)`: `None` when there is no record, when the
      record lacks `k`, and when it holds `None` under `k`. */
  function CondGet(m: Value, k: string): (r: Result<Value>)
    ensures r.Ok? <==> m.Null? || m.Obj?
    ensures r.Ok? ==> (r.value.Null? <==> !Has(m, k) || m.props.vals[k].Null?)
    ensures r.Ok? && !r.value.Null? ==> Has(m, k) && r.value == m.props.vals[k]
  {
    if m.Null? then Ok(Null)
    else if m.Obj? then Ok(m.props.PyGet(k))
    else Err(AttributeError)
  }

  /** A missing record, a missing field and a `None` field read the same. */
  lemma CondGetConflates(d: Dict, k: string)
    requires k !in d.vals || d.vals[k].Null?
    ensures CondGet(Obj(d), k) == CondGet(Null, k) == Ok(Null)
  {
  }

  /** render.py `merge_state_conflict(apple, google)`: `rejected` wins,
      then `pending`; when exactly one side is `usable` the other side's
      state is taken; anything else is `apple + google`. */
  function MergeStateConflict(apple: Value, google: Value): (r: Result<Value>)
    ensures google == Str("rejected") || apple == Str("rejected") ==> r == Ok(Str("rejected"))
    ensures (&& google != Str("rejected") && apple != Str("rejected")
             && (google == Str("pending") || apple == Str("pending"))) ==> r == Ok(Str("pending"))
    ensures (&& !(google in {Str("rejected"), Str("pending")}) && !(apple in {Str("rejected"), Str("pending")})
             && (apple == Str("usable")) != (google == Str("usable")))
            ==> r == Ok(if apple == Str("usable") then google else apple)
    ensures apple == google == Str("usable") ==> r == Ok(Str("usableusable"))
    ensures !Decisive(apple) && !Decisive(google) ==> r == PyAdd(apple, google)
  {
    if google == Str("rejected") || apple == Str("rejected") then Ok(Str("rejected"))
    else if google == Str("pending") || apple == Str("pending") then Ok(Str("pending"))
    else if apple == Str("usable") && google != Str("usable") then Ok(google)
    else if google == Str("usable") && apple != Str("usable") then Ok(apple)
    else
      assert "usable" + "usable" == "usableusable";
      PyAdd(apple, google)
  }

  /** One of the three deciding states. */
  predicate Decisive(v: Value) {
    v == Str("rejected") || v == Str("pending") || v == Str("usable")
  }

  /** When the two states differ and one of them is `rejected`, `pending`
      or `usable`, the result is one of the two, and which one does not
      depend on the argument order. */
  lemma MergeStateConflictPicks(apple: Value, google: Value)
    requires apple != google && (Decisive(apple) || Decisive(google))
    ensures MergeStateConflict(apple, google).Ok?
    ensures MergeStateConflict(apple, google).value in {apple, google}
    ensures MergeStateConflict(apple, google) == MergeStateConflict(google, apple)
  {
  }

  /** The precedence `merge_state_conflict` follows: `rejected` over
      `pending` over any other state over `usable`. */
  function Rank(v: Value): nat {
    if v == Str("rejected") then 3
    else if v == Str("pending") then 2
    else if v == Str("usable") then 0
    else 1
  }

  /** Against the precedence: of two states of different rank the higher
      one wins; two `rejected` or two `pending` keep that state; two states
      of the same lower rank (two `usable`, or two states outside the
      three) are added together. */
  lemma MergeStateConflictRanks(apple: Value, google: Value)
    ensures MergeStateConflict(apple, google)
            == if Rank(apple) > Rank(google) then Ok(apple)
               else if Rank(google) > Rank(apple) then Ok(google)
               else if Rank(apple) >= 2 then Ok(apple)
               else PyAdd(apple, google)
  {
    if Rank(apple) == Rank(google) && Rank(apple) >= 2 {
      assert apple == google;
    }
  }

  /** Otherwise the states are concatenated: two states neither of which
      decides give their joined text. */
  lemma MergeStateConflictJoins(apple: string, google: string)
    requires !Decisive(Str(apple)) && !Decisive(Str(google))
    ensures MergeStateConflict(Str(apple), Str(google)) == Ok(Str(apple + google))
  {
  }

  /** The names one field's merge may write. */
  function Footprint(k: string): set<string> {
    {k, "apple_" + k, "google_" + k}
  }

  lemma FootprintDistinct(k: string)
    ensures k != "apple_" + k && k != "google_" + k && "apple_" + k != "google_" + k
  {
    assert |"apple_" + k| != |k| && |"google_" + k| != |k|;
    assert ("apple_" + k)[0] != ("google_" + k)[0];
  }

  /** render.py `merge_item(d, k, apple_value, google_value)`, as the list
      of writes it makes to `d`. */
  function MergeItem(k: string, av: Value, gv: Value): (r: Result<seq<Write>>)
    ensures r.Ok? <==> !(k == "state" && !av.Null? && !gv.Null? && !PyEq(av, gv)
                         && MergeStateConflict(av, gv).Err?)
    ensures r.Ok? ==> Names(r.value) <= Footprint(k)
  {
    FootprintDistinct(k);
    if av.Null? then Ok([(k, gv)])
    else if gv.Null? then Ok([(k, av)])
    else if PyEq(av, gv) then Ok([(k, av)])
    else if k == "name" then Ok([(k, gv)])
    else if k == "state" then
      var s :- MergeStateConflict(av, gv);
      var ws := [(k, s), ("apple_" + k, av), ("google_" + k, gv)];
      assert Names(ws) == {k, "apple_" + k, "google_" + k} by {
        assert ws[0].0 == k && ws[1].0 == "apple_" + k && ws[2].0 == "google_" + k;
      }
      Ok(ws)
    else
      var ws := [("apple_" + k, av), ("google_" + k, gv)];
      assert Names(ws) == {"apple_" + k, "google_" + k} by {
        assert ws[0].0 == "apple_" + k && ws[1].0 == "google_" + k;
      }
      Ok(ws)
  }

  /** What `merge_item` leaves in `m` for field `k`: the bare name for a
      one-sided, equal or `name` field; the resolved state plus both
      originals for a `state` conflict; both originals and no bare name
      for any other conflict. */
  predicate ItemMerged(m: map<string, Value>, k: string, av: Value, gv: Value) {
    var a, g := "apple_" + k, "google_" + k;
    if av.Null? || gv.Null? || PyEq(av, gv) || k == "name" then
      && k in m
      && m[k] == (if av.Null? || (k == "name" && !gv.Null? && !PyEq(av, gv)) then gv else av)
      && a !in m && g !in m
    else if k == "state" then
      && MergeStateConflict(av, gv).Ok?
      && k in m && m[k] == MergeStateConflict(av, gv).value
      && a in m && m[a] == av && g in m && m[g] == gv
    else
      && k !in m
      && a in m && m[a] == av && g in m && m[g] == gv
  }

  /** `order` lists each member of `s` once, as iterating a Python set
      does. */
  ghost predicate Enumerates(order: seq<string>, s: set<string>) {
    Distinct(order) && forall k :: k in order <==> k in s
  }

  /** The body of the loop of `merge_log` for key `k`. */
  function MergeStep(apple: Value, google: Value): string -> Result<seq<Write>> {
    k => (var av :- CondGet(apple, k); var gv :- CondGet(google, k); MergeItem(k, av, gv))
  }

  /** render.py `merge_log(apple, google)`, its keys visited in `order`,
      which stands for the iteration order of the set `all_keys` returns
      (the lemmas below ask that it enumerate that set). */
  function MergeLog(apple: Value, google: Value, order: seq<string>): (r: Result<Dict>)
    ensures r.Ok? ==> r.value.Valid()
  {
    var _ :- AllKeys(apple, google);
    FoldKeysValid(order, MergeStep(apple, google), EmptyDict);
    FoldKeys(order, MergeStep(apple, google), EmptyDict)
  }

  /** No two keys of `ks` may write the same name. */
  predicate Separated(ks: seq<string>) {
    forall i, j :: 0 <= i < |ks| && 0 <= j < |ks| && i != j ==> Footprint(ks[i]) !! Footprint(ks[j])
  }

  /** `merge_log` fails exactly when a record is neither a dict nor `None`,
      both are `None`, or a `state` conflict cannot be resolved. */
  lemma MergeLogOk(apple: Value, google: Value, order: seq<string>)
    requires AllKeys(apple, google).Ok? ==> Enumerates(order, AllKeys(apple, google).value)
    ensures MergeLog(apple, google, order).Ok? <==>
              && AllKeys(apple, google).Ok?
              && forall k :: k in order ==> MergeStep(apple, google)(k).Ok?
  {
    if AllKeys(apple, google).Ok? {
      FoldKeysOk(order, MergeStep(apple, google), EmptyDict);
    }
  }

  /** Every field of either record lands in the merge as `merge_item`
      decides, provided no two fields' names collide. */
  lemma MergeLogField(apple: Value, google: Value, order: seq<string>, k: string, merged: Dict)
    requires AllKeys(apple, google).Ok? ==> Enumerates(order, AllKeys(apple, google).value)
    requires MergeLog(apple, google, order) == Ok(merged)
    requires Has(apple, k) || Has(google, k)
    requires Separated(order)
    ensures ItemMerged(merged.vals, k, CondGet(apple, k).value, CondGet(google, k).value)
  {
    var step := MergeStep(apple, google);
    var i :| 0 <= i < |order| && order[i] == k;
    FoldKeysOk(order, step, EmptyDict);
    forall j | 0 <= j < |order| && j != i && step(order[j]).Ok?
      ensures Names(step(order[j]).value) !! Footprint(k)
    {
    }
    FoldKeysOwn(order, step, EmptyDict, i, Footprint(k));
    ItemLands(merged.vals, step(k).value, k, CondGet(apple, k).value, CondGet(google, k).value);
  }

  /** On the names of `Footprint(k)`, holding exactly the last writes of
      `merge_item` for `k` is `ItemMerged`. */
  lemma ItemLands(m: map<string, Value>, ws: seq<Write>, k: string, av: Value, gv: Value)
    requires MergeItem(k, av, gv) == Ok(ws)
    requires forall n :: n in Footprint(k) ==>
               && (n in m <==> n in Names(ws))
               && (n in Names(ws) ==> m[n] == LastWrite(ws, n))
    ensures ItemMerged(m, k, av, gv)
  {
    FootprintDistinct(k);
    var a, g := "apple_" + k, "google_" + k;
    assert a in Footprint(k) && g in Footprint(k) && k in Footprint(k);
    if av.Null? || gv.Null? || PyEq(av, gv) || k == "name" {
      assert |ws| == 1 && ws[0].0 == k;
      LastWriteAt(ws, 0);
    } else if k == "state" {
      LastWriteAt(ws, 0);
      LastWriteAt(ws, 1);
      LastWriteAt(ws, 2);
    } else {
      LastWriteAt(ws, 0);
      LastWriteAt(ws, 1);
    }
  }

  /** Python's `==` on JSON values is reflexive. */
  lemma {:induction false} PyEqReflexive(v: Value)
    ensures PyEq(v, v)
    decreases v
  {
    match v
    case Obj(d) =>
      forall k | k in d.vals ensures PyEq(d.vals[k], d.vals[k]) {
        PyEqReflexive(d.vals[k]);
      }
    case Arr(es) =>
      forall i | 0 <= i < |es| ensures PyEq(es[i], es[i]) {
        PyEqReflexive(es[i]);
      }
    case _ =>
  }

  /** Merging a record with itself gives the record back. */
  lemma MergeLogSelf(x: Dict, order: seq<string>)
    requires Enumerates(order, x.vals.Keys)
    ensures MergeLog(Obj(x), Obj(x), order).Ok?
    ensures MergeLog(Obj(x), Obj(x), order).value.vals == x.vals
  {
    var step := MergeStep(Obj(x), Obj(x));
    forall i | 0 <= i < |order|
      ensures order[i] in x.vals && step(order[i]) == Ok([(order[i], x.vals[order[i]])])
    {
      PyEqReflexive(x.vals[order[i]]);
    }
    FoldKeysCopy(order, step, EmptyDict, x.vals);
  }

  /** A record only one feed has passes through the merge unchanged. */
  lemma MergeLogOneSided(x: Dict, order: seq<string>)
    requires Enumerates(order, x.vals.Keys)
    ensures MergeLog(Obj(x), Null, order).Ok?
    ensures MergeLog(Obj(x), Null, order).value.vals == x.vals
    ensures MergeLog(Null, Obj(x), order).Ok?
    ensures MergeLog(Null, Obj(x), order).value.vals == x.vals
  {
    AppleOnly(x, order);
    GoogleOnly(x, order);
  }

  lemma AppleOnly(x: Dict, order: seq<string>)
    requires Enumerates(order, x.vals.Keys)
    ensures MergeLog(Obj(x), Null, order).Ok?
    ensures MergeLog(Obj(x), Null, order).value.vals == x.vals
  {
    var step := MergeStep(Obj(x), Null);
    forall i | 0 <= i < |order|
      ensures order[i] in x.vals && step(order[i]) == Ok([(order[i], x.vals[order[i]])])
    {
    }
    FoldKeysCopy(order, step, EmptyDict, x.vals);
  }

  lemma GoogleOnly(x: Dict, order: seq<string>)
    requires Enumerates(order, x.vals.Keys)
    ensures MergeLog(Null, Obj(x), order).Ok?
    ensures MergeLog(Null, Obj(x), order).value.vals == x.vals
  {
    var step := MergeStep(Null, Obj(x));
    forall i | 0 <= i < |order|
      ensures order[i] in x.vals && step(order[i]) == Ok([(order[i], x.vals[order[i]])])
    {
    }
    FoldKeysCopy(order, step, EmptyDict, x.vals);
  }

  /** A Python dict key drawn from a JSON value: `None`, an integer or a
      string. `True` and `False` hash and compare as `1` and `0`, so they
      file under the same key as those integers. */
  datatype Key = NoneKey | IntKey(n: int) | StrKey(s: string)

  /** The dict key a JSON value makes; a dict or a list is unhashable
      (TypeError). `undefined` is not a Python value and is refused too. */
  function ToKey(v: Value): (r: Result<Key>)
    ensures r.Ok? <==> v.Null? || v.Bool? || v.Num? || v.Str?
    ensures r.Err? ==> r.fault == TypeError
  {
    match v
    case Null => Ok(NoneKey)
    case Bool(b) => Ok(IntKey(BoolToInt(b)))
    case Num(n) => Ok(IntKey(n))
    case Str(s) => Ok(StrKey(s))
    case _ => Err(TypeError)
  }

  /** Two hashable values make the same key exactly when Python's `==`
      holds between them. */
  lemma ToKeyPyEq(a: Value, b: Value)
    requires ToKey(a).Ok? && ToKey(b).Ok?
    ensures ToKey(a) == ToKey(b) <==> PyEq(a, b)
  {
  }

  /** A value Python can use as a dict key. */
  predicate Hashable(v: Value) {
    v.Null? || v.Bool? || v.Num? || v.Str?
  }

  /** `log.get("url") or log.get("submission_url")`: Python's `or` gives
      the url when it is truthy and the submission url otherwise. */
  function Chosen(log: Dict): Value {
    var url := log.PyGet("url");
    if PyTruthy(url) then url else log.PyGet("submission_url")
  }

  /** The key a record is filed under. It exists exactly when the chosen
      value is hashable. A truthy url never files the record under `None`,
      and a record with neither a truthy url nor a submission url is filed
      under `None`. */
  function KeyOf(log: Dict): (r: Result<Key>)
    ensures r.Ok? <==> Hashable(Chosen(log))
    ensures r.Err? ==> r.fault == TypeError
    ensures r.Ok? && PyTruthy(log.PyGet("url")) ==> r.value != NoneKey
    ensures !PyTruthy(log.PyGet("url")) && "submission_url" !in log.vals ==> r == Ok(NoneKey)
  {
    ToKey(Chosen(log))
  }

  /** Two records share a key exactly when their chosen values are equal
      under Python's `==`, so a url `1` and a url `true` collide. */
  lemma KeyOfPyEq(a: Dict, b: Dict)
    requires KeyOf(a).Ok? && KeyOf(b).Ok?
    ensures KeyOf(a) == KeyOf(b) <==> PyEq(Chosen(a), Chosen(b))
  {
    ToKeyPyEq(Chosen(a), Chosen(b));
  }

  /** A truthy url fixes the key, whatever the submission url holds. */
  lemma KeyOfUrlWins(log: Dict, v: Value)
    requires PyTruthy(log.PyGet("url"))
    ensures KeyOf(log.Set("submission_url", v)) == KeyOf(log)
  {
    assert log.Set("submission_url", v).PyGet("url") == log.PyGet("url");
  }

  /** A falsy url (`None`, `""`, `0`, `False`, `[]`, `{}`) reads as no url
      at all: the submission url decides. */
  lemma KeyOfFalsyUrl(log: Dict)
    requires !PyTruthy(log.PyGet("url"))
    ensures KeyOf(log) == KeyOf(log.Set("url", Null))
  {
    assert log.Set("url", Null).PyGet("submission_url") == log.PyGet("submission_url");
  }

  /** No later key of `ks` equals `ks[i]`. */
  predicate LastAt<K(==)>(ks: seq<K>, i: nat)
    requires i < |ks|
  {
    forall j :: i < j < |ks| ==> ks[j] != ks[i]
  }

  /** Each `vs[i]` stored under `ks[i]`, in order, a later entry replacing
      an earlier one with the same key. */
  function Zip<K(==,!new), V>(ks: seq<K>, vs: seq<V>): (r: map<K, V>)
    requires |ks| == |vs|
    ensures Zipped(ks, vs, r)
    decreases |ks|
  {
    if ks == [] then map[]
    else
      var n := |ks| - 1;
      var m := Zip(ks[..n], vs[..n]);
      ZipStep(ks, vs, m);
      m[ks[n] := vs[n]]
  }

  /** `m` holds exactly the keys of `ks`, each under the value paired with
      its last occurrence. */
  ghost predicate Zipped<K(!new), V>(ks: seq<K>, vs: seq<V>, m: map<K, V>)
    requires |ks| == |vs|
  {
    && (forall u :: u in m <==> u in ks)
    && forall i :: 0 <= i < |ks| && LastAt(ks, i) ==> m[ks[i]] == vs[i]
  }

  /** Storing the last pair on top of the map of the others. */
  lemma ZipStep<K(!new), V>(ks: seq<K>, vs: seq<V>, m: map<K, V>)
    requires |ks| == |vs| > 0
    requires Zipped(ks[..|ks| - 1], vs[..|ks| - 1], m)
    ensures Zipped(ks, vs, m[ks[|ks| - 1] := vs[|ks| - 1]])
  {
    var n := |ks| - 1;
    var r := m[ks[n] := vs[n]];
    assert ks == ks[..n] + [ks[n]];
    forall u ensures u in r <==> u in ks {
    }
    forall i | 0 <= i < |ks| && LastAt(ks, i) ensures r[ks[i]] == vs[i] {
      if i < n {
        assert ks[..n][i] == ks[i] && vs[..n][i] == vs[i];
        assert LastAt(ks[..n], i);
      }
    }
  }

  /** `{key(log): log for log in logs}`: each record under its key, a
      later record replacing an earlier one with the same key; the first
      key that raises ends the comprehension. */
  function IndexBy(logs: seq<Dict>): (r: Result<map<Key, Dict>>)
    ensures r.Ok? <==> forall i :: 0 <= i < |logs| ==> KeyOf(logs[i]).Ok?
  {
    var ks :- MapAll(KeyOf, logs);
    Ok(Zip(ks, logs))
  }

  /** The comprehension holds exactly the keys of the records, each under
      the last record with that key. */
  lemma IndexByContents(logs: seq<Dict>)
    requires IndexBy(logs).Ok?
    ensures var m, ks := IndexBy(logs).value, MapAll(KeyOf, logs).value;
            && |ks| == |logs|
            && (forall u :: u in m <==> exists i :: 0 <= i < |logs| && KeyOf(logs[i]) == Ok(u))
            && (forall i :: 0 <= i < |logs| && LastAt(ks, i) ==> KeyOf(logs[i]) == Ok(ks[i]) && m[ks[i]] == logs[i])
  {
    var ks := MapAll(KeyOf, logs).value;
    forall u | u in ks ensures exists i :: 0 <= i < |logs| && KeyOf(logs[i]) == Ok(u) {
      var i :| 0 <= i < |ks| && ks[i] == u;
      assert KeyOf(logs[i]) == Ok(u);
    }
    forall u | exists i :: 0 <= i < |logs| && KeyOf(logs[i]) == Ok(u) ensures u in ks {
      var i :| 0 <= i < |logs| && KeyOf(logs[i]) == Ok(u);
      assert ks[i] == u;
    }
  }

  /** The record a map holds under `u`, or `None`: `m.get(u, None)`. */
  function Lookup(m: map<Key, Dict>, u: Key): Value {
    if u in m then Obj(m[u]) else Null
  }

  /** `urls` is the iteration order of the union of the two maps' keys,
      and `keyOrder(u)` that of the field names of the two records under
      `u`. */
  ghost predicate Fits(am: map<Key, Dict>, gm: map<Key, Dict>, urls: seq<Key>,
                       keyOrder: Key -> seq<string>) {
    && Distinct(urls)
    && (forall u :: u in urls <==> u in am || u in gm)
    && forall u :: u in urls ==>
         Enumerates(keyOrder(u), AllKeys(Lookup(am, u), Lookup(gm, u)).value)
  }

  /** The body of the loop of `merge_log_lists` for key `u`. */
  function MergeAt(am: map<Key, Dict>, gm: map<Key, Dict>, keyOrder: Key -> seq<string>): Key -> Result<Dict> {
    u => MergeLog(Lookup(am, u), Lookup(gm, u), keyOrder(u))
  }

  /** render.py `merge_log_lists(apple_logs, google_logs)`, consumed in
      full; `urls` stands for the iteration order of the set of keys and
      `keyOrder` for the field order of each `merge_log`. */
  function MergeLogLists(apple: seq<Dict>, google: seq<Dict>, urls: seq<Key>,
                         keyOrder: Key -> seq<string>): (r: Result<seq<Dict>>)
    ensures r.Ok? <==> && IndexBy(apple).Ok? && IndexBy(google).Ok?
                       && forall i :: 0 <= i < |urls| ==>
                            MergeLog(Lookup(IndexBy(apple).value, urls[i]),
                                     Lookup(IndexBy(google).value, urls[i]), keyOrder(urls[i])).Ok?
    ensures r.Ok? ==> |r.value| == |urls|
  {
    var am :- IndexBy(apple);
    var gm :- IndexBy(google);
    MapAll(MergeAt(am, gm, keyOrder), urls)
  }

  /** One merged record per distinct key of either list, each the merge
      of the records the two lists file under that key. */
  lemma MergeLogListsRecords(apple: seq<Dict>, google: seq<Dict>, urls: seq<Key>,
                             keyOrder: Key -> seq<string>, merged: seq<Dict>)
    requires IndexBy(apple).Ok? && IndexBy(google).Ok? ==>
               Fits(IndexBy(apple).value, IndexBy(google).value, urls, keyOrder)
    requires MergeLogLists(apple, google, urls, keyOrder) == Ok(merged)
    ensures |merged| == |urls| && Distinct(urls)
    ensures forall u :: u in urls <==>
              || (exists i :: 0 <= i < |apple| && KeyOf(apple[i]) == Ok(u))
              || (exists i :: 0 <= i < |google| && KeyOf(google[i]) == Ok(u))
    ensures var am, gm := IndexBy(apple).value, IndexBy(google).value;
            forall i :: 0 <= i < |urls| ==>
              MergeLog(Lookup(am, urls[i]), Lookup(gm, urls[i]), keyOrder(urls[i])) == Ok(merged[i])
  {
    IndexByContents(apple);
    IndexByContents(google);
  }
}

=== FILE: render_name.dfy ===
/** render.py `log_name`: a concise log name cut out of a log's
    description by removing a fixed list of suffixes and then a list of
    prefixes, each at most once and in list order, with no trimming. */
module RenderName {
  import opened Text

  /** The suffixes render.py removes, in the order it tries them. */
  const Suffixes: seq<string> := ["CT Log", "CT log", "Log", "log", " ", "'"]

  /** The prefixes render.py removes, in the order it tries them; the
      operator's own name comes first. */
  function Prefixes(operator: string): seq<string> {
    [operator, "Nordu", "Up In The Air", "Symantec", " ", "'"]
  }

  /** `r` is `s` with some of `ps` removed from its end, each at most
      once and in the order of `ps`. */
  predicate SuffixesPeeled(s: string, r: string, ps: seq<string>)
    decreases |ps|
  {
    if ps == [] then r == s
    else
      || (EndsWith(s, ps[0]) && SuffixesPeeled(s[..|s| - |ps[0]|], r, ps[1..]))
      || SuffixesPeeled(s, r, ps[1..])
  }

  /** `r` is `s` with some of `ps` removed from its front, each at most
      once and in the order of `ps`. */
  predicate PrefixesPeeled(s: string, r: string, ps: seq<string>)
    decreases |ps|
  {
    if ps == [] then r == s
    else
      || (StartsWith(s, ps[0]) && PrefixesPeeled(s[|ps[0]|..], r, ps[1..]))
      || PrefixesPeeled(s, r, ps[1..])
  }

  /** Peeling suffixes leaves a prefix of the string. */
  lemma {:induction false} SuffixesPeeledFront(s: string, r: string, ps: seq<string>)
    requires SuffixesPeeled(s, r, ps)
    ensures StartsWith(s, r)
    decreases |ps|
  {
    if ps == [] {
    } else if EndsWith(s, ps[0]) && SuffixesPeeled(s[..|s| - |ps[0]|], r, ps[1..]) {
      SuffixesPeeledFront(s[..|s| - |ps[0]|], r, ps[1..]);
    } else {
      SuffixesPeeledFront(s, r, ps[1..]);
    }
  }

  /** Peeling prefixes leaves a suffix of the string. */
  lemma {:induction false} PrefixesPeeledBack(s: string, r: string, ps: seq<string>)
    requires PrefixesPeeled(s, r, ps)
    ensures EndsWith(s, r)
    decreases |ps|
  {
    if ps == [] {
    } else if StartsWith(s, ps[0]) && PrefixesPeeled(s[|ps[0]|..], r, ps[1..]) {
      PrefixesPeeledBack(s[|ps[0]|..], r, ps[1..]);
    } else {
      PrefixesPeeledBack(s, r, ps[1..]);
    }
  }

  /** `s.removesuffix(p)` for each `p` of `ps` in turn. */
  function RemoveSuffixes(s: string, ps: seq<string>): (r: string)
    ensures SuffixesPeeled(s, r, ps)
    decreases |ps|
  {
    if ps == [] then s
    else RemoveSuffixes(RemoveSuffix(s, ps[0]), ps[1..])
  }

  /** `s.removeprefix(p)` for each `p` of `ps` in turn. */
  function RemovePrefixes(s: string, ps: seq<string>): (r: string)
    ensures PrefixesPeeled(s, r, ps)
    decreases |ps|
  {
    if ps == [] then s
    else RemovePrefixes(RemovePrefix(s, ps[0]), ps[1..])
  }

  /** `r` is what is left of `s` once some of `suffixes` have been peeled
      off its end and then some of `prefixes` off the front of the rest. */
  ghost predicate Peeled(s: string, r: string, suffixes: seq<string>, prefixes: seq<string>) {
    exists m :: SuffixesPeeled(s, m, suffixes) && PrefixesPeeled(m, r, prefixes)
  }

  /** Remove `suffixes` and then `prefixes` from `description`, falling
      back to the whole description when nothing is left. */
  function Shorten(description: string, suffixes: seq<string>, prefixes: seq<string>): (r: string)
    ensures r == [] <==> description == []
    ensures IsInfix(r, description)
    ensures r == description || Peeled(description, r, suffixes, prefixes)
  {
    var m := RemoveSuffixes(description, suffixes);
    var r := RemovePrefixes(m, prefixes);
    if r == [] then
      assert InfixAt(description, description, 0);
      description
    else
      SuffixesPeeledFront(description, m, suffixes);
      PrefixesPeeledBack(m, r, prefixes);
      assert InfixAt(r, description, |m| - |r|);
      r
  }

  /** render.py `log_name(operator, description)`. */
  function LogName(operator: string, description: string): (r: string)
    ensures r == [] <==> description == []
    ensures IsInfix(r, description)
    ensures r == description || Peeled(description, r, Suffixes, Prefixes(operator))
  {
    Shorten(description, Suffixes, Prefixes(operator))
  }

  /** A description that none of the suffixes ends and none of the
      prefixes starts is its own name. */
  lemma {:induction false} RemoveSuffixesNone(s: string, ps: seq<string>)
    requires forall i :: 0 <= i < |ps| ==> !EndsWith(s, ps[i])
    ensures RemoveSuffixes(s, ps) == s
    decreases |ps|
  {
    if ps != [] {
      RemoveSuffixesNone(s, ps[1..]);
    }
  }

  lemma {:induction false} RemovePrefixesNone(s: string, ps: seq<string>)
    requires forall i :: 0 <= i < |ps| ==> !StartsWith(s, ps[i])
    ensures RemovePrefixes(s, ps) == s
    decreases |ps|
  {
    if ps != [] {
      RemovePrefixesNone(s, ps[1..]);
    }
  }

  /** Only what one of the listed affixes matches is removed. */
  lemma LogNameUntouched(operator: string, description: string)
    requires forall i :: 0 <= i < |Suffixes| ==> !EndsWith(description, Suffixes[i])
    requires forall i :: 0 <= i < |Prefixes(operator)| ==> !StartsWith(description, Prefixes(operator)[i])
    ensures LogName(operator, description) == description
  {
    RemoveSuffixesNone(description, Suffixes);
    RemovePrefixesNone(description, Prefixes(operator));
  }

  /** A suffix that disagrees with `s` at `k` places from the end does not
      end it. */
  lemma NotEndsWithAt(s: string, p: string, k: nat)
    requires 0 < k <= |p| && k <= |s| && s[|s| - k] != p[|p| - k]
    ensures !EndsWith(s, p)
  {
  }

  /** A prefix that disagrees with `s` in its first character does not
      start it. */
  lemma NotStartsWithHead(s: string, p: string)
    requires 0 < |p| && 0 < |s| && s[0] != p[0]
    ensures !StartsWith(s, p)
  {
  }

  lemma SkipSuffix(s: string, ps: seq<string>)
    requires ps != [] && !EndsWith(s, ps[0])
    ensures RemoveSuffixes(s, ps) == RemoveSuffixes(s, ps[1..])
  {
  }

  lemma TakeSuffix(m: string, ps: seq<string>)
    requires ps != []
    ensures RemoveSuffixes(m + ps[0], ps) == RemoveSuffixes(m, ps[1..])
  {
    assert EndsWith(m + ps[0], ps[0]) by {
      assert (m + ps[0])[|m + ps[0]| - |ps[0]|..] == ps[0];
    }
    assert (m + ps[0])[..|m|] == m;
  }

  lemma SkipPrefix(s: string, ps: seq<string>)
    requires ps != [] && !StartsWith(s, ps[0])
    ensures RemovePrefixes(s, ps) == RemovePrefixes(s, ps[1..])
  {
  }

  lemma TakePrefix(m: string, ps: seq<string>)
    requires ps != []
    ensures RemovePrefixes(ps[0] + m, ps) == RemovePrefixes(m, ps[1..])
  {
    assert StartsWith(ps[0] + m, ps[0]) by {
      assert (ps[0] + m)[..|ps[0]|] == ps[0];
    }
    assert (ps[0] + m)[|ps[0]|..] == m;
  }

  /** The suffixes of a quoted description: the trailing ` log` and the
      closing quote go, nothing else does. */
  lemma QuotedSuffixes(m: string, d: string)
    requires d == m + "'" + " " + "log"
    ensures RemoveSuffixes(d, Suffixes) == m
  {
    assert |d| == |m| + 5 && d[|d| - 3] == 'l' && d[|d| - 5] == '\'';
    QuotedSkipsLongEndings(d, Suffixes);
    assert Suffixes[3..] == ["log", " ", "'"];
    QuotedDropsEndings(m, Suffixes[3..]);
  }

  /** None of `CT Log`, `CT log` and `Log` ends a text ending in `' log`. */
  lemma QuotedSkipsLongEndings(d: string, ps: seq<string>)
    requires |d| >= 5 && d[|d| - 3] == 'l' && d[|d| - 5] == '\''
    requires |ps| >= 3 && ps[0] == "CT Log" && ps[1] == "CT log" && ps[2] == "Log"
    ensures RemoveSuffixes(d, ps) == RemoveSuffixes(d, ps[3..])
  {
    NotEndsWithAt(d, ps[0], 3);
    SkipSuffix(d, ps);
    NotEndsWithAt(d, ps[1], 5);
    assert ps[1..][0] == ps[1];
    SkipSuffix(d, ps[1..]);
    NotEndsWithAt(d, ps[2], 3);
    assert ps[2..][0] == ps[2] && ps[1..][1..] == ps[2..] && ps[2..][1..] == ps[3..];
    SkipSuffix(d, ps[2..]);
  }

  /** `log`, the space and the closing quote go, in that order. */
  lemma QuotedDropsEndings(m: string, ps: seq<string>)
    requires ps == ["log", " ", "'"]
    ensures RemoveSuffixes(m + "'" + " " + "log", ps) == m
  {
    assert m + "'" + " " + "log" == (m + "'" + " ") + ps[0];
    TakeSuffix(m + "'" + " ", ps);
    assert m + "'" + " " == (m + "'") + ps[1];
    TakeSuffix(m + "'", ps[1..]);
    assert m + "'" == m + ps[2];
    TakeSuffix(m, ps[2..]);
  }

  /** The prefixes of a quoted name: the operator's name, the space and
      the opening quote go. */
  lemma QuotedPrefixes(op: string, x: string, m: string)
    requires m == op + " " + "'" + x
    ensures RemovePrefixes(m, Prefixes(op)) == x
  {
    var ps := Prefixes(op);
    var t := " " + "'" + x;
    assert m == ps[0] + t;
    TakePrefix(t, ps);
    QuotedSkipsNames(t, ps[1..]);
    QuotedDropsMarks(x, ps[4..]);
  }

  /** No operator name of the list starts with a space. */
  lemma QuotedSkipsNames(t: string, ps: seq<string>)
    requires |t| > 0 && t[0] == ' '
    requires ps == ["Nordu", "Up In The Air", "Symantec", " ", "'"]
    ensures RemovePrefixes(t, ps) == RemovePrefixes(t, ps[3..])
  {
    NotStartsWithHead(t, ps[0]);
    SkipPrefix(t, ps);
    NotStartsWithHead(t, ps[1]);
    SkipPrefix(t, ps[1..]);
    NotStartsWithHead(t, ps[2]);
    SkipPrefix(t, ps[2..]);
  }

  /** The space and the opening quote go. */
  lemma QuotedDropsMarks(x: string, ps: seq<string>)
    requires ps == [" ", "'"]
    ensures RemovePrefixes(" " + "'" + x, ps) == x
  {
    assert " " + "'" + x == ps[0] + ("'" + x);
    TakePrefix("'" + x, ps);
    assert "'" + x == ps[1] + x;
    TakePrefix(x, ps[1..]);
  }

  /** Every description of the form `<operator> '<name>' log` is named by
      what stands between the quotes, whatever the operator and the name
      are, unless the quotes are empty. */
  lemma LogNameOfQuoted(op: string, x: string)
    ensures LogName(op, op + " '" + x + "' log")
            == if x == [] then op + " '" + x + "' log" else x
  {
    var d := op + " '" + x + "' log";
    var m := op + " " + "'" + x;
    assert d == m + "'" + " " + "log";
    QuotedSuffixes(m, d);
    QuotedPrefixes(op, x, m);
  }

  /** A typical description loses the operator's name, the trailing
      "log" and the quotes around the name. */
  lemma LogNameExample()
    ensures LogName("Op", "Op 'X' log") == "X"
  {
    SuffixesExample();
    PrefixesExample();
  }

  lemma SuffixesExample()
    ensures RemoveSuffixes("Op 'X' log", Suffixes) == "Op 'X"
  {
    var d := "Op 'X' log";
    assert !EndsWith(d, "CT Log") && !EndsWith(d, "CT log") && !EndsWith(d, "Log");
    assert RemoveSuffix(d, "log") == "Op 'X' ";
    assert RemoveSuffix("Op 'X' ", " ") == "Op 'X'";
    assert RemoveSuffix("Op 'X'", "'") == "Op 'X";
  }

  lemma PrefixesExample()
    ensures RemovePrefixes("Op 'X", Prefixes("Op")) == "X"
  {
    assert RemovePrefix("Op 'X", "Op") == " 'X";
    assert !StartsWith(" 'X", "Nordu") && !StartsWith(" 'X", "Up In The Air") && !StartsWith(" 'X", "Symantec");
    assert RemovePrefix(" 'X", " ") == "'X";
    assert RemovePrefix("'X", "'") == "X";
  }
}

=== FILE: results.dfy ===
/** Failures of the modelled code: what the JavaScript would throw or the
    Python would raise, as values instead of control flow. */
module Results {

  /** The kind of exception the source would raise at that point. */
  datatype Fault =
    | TypeError       // JavaScript: property access on undefined/null, missing method
                      // Python: wrong operand or index type, unhashable key
    | KeyError        // Python: `d[k]` with `k` absent
    | IndexError      // Python: `xs[0]` on an empty list
    | AttributeError  // Python: a `str` method called on a non-string

  /** Either a value or the exception the source would raise instead. */
  datatype Result<+T> = Ok(value: T) | Err(fault: Fault) {

    predicate IsFailure() {
      Err?
    }

    function PropagateFailure<U>(): Result<U>
      requires Err?
    {
      Err(fault)
    }

    function Extract(): T
      requires Ok?
    {
      value
    }
  }

  /** `f` applied to each of `xs` in turn, as a loop that builds a list;
      the first application that fails ends it. */
  function MapAll<T, U>(f: T -> Result<U>, xs: seq<T>): (r: Result<seq<U>>)
    ensures r.Ok? <==> forall i :: 0 <= i < |xs| ==> f(xs[i]).Ok?
    ensures r.Ok? ==> |r.value| == |xs| && forall i :: 0 <= i < |xs| ==> f(xs[i]) == Ok(r.value[i])
    ensures r.Err? ==> exists i :: 0 <= i < |xs| && f(xs[i]) == Err(r.fault)
    decreases |xs|
  {
    if xs == [] then Ok([])
    else
      match f(xs[0])
      case Err(e) => Err(e)
      case Ok(y) =>
        var rest := MapAll(f, xs[1..]);
        assert forall i :: 1 <= i < |xs| ==> xs[i] == xs[1..][i - 1];
        if rest.Err? then Err(rest.fault) else Ok([y] + rest.value)
  }
}

=== FILE: text.dfy ===
/** Character classes and the string primitives the two languages provide:
    prefix and suffix tests, whitespace trimming, prefix and suffix removal,
    and the code-point ordering both languages use to compare strings. */
module Text {

  predicate StartsWith(s: string, p: string) {
    |p| <= |s| && s[..|p|] == p
  }

  predicate EndsWith(s: string, p: string) {
    |p| <= |s| && s[|s| - |p|..] == p
  }

  /** The characters JavaScript's `String.prototype.trim` removes:
      ECMAScript WhiteSpace (tab, vertical tab, form feed, space, no-break
      space, byte-order mark and the Zs separators) and LineTerminator. */
  predicate IsJsSpace(c: char) {
    || c == '\t' || c == '\n' || c == '\U{B}' || c == '\U{C}' || c == '\r'
    || c == ' ' || c == '\U{A0}' || c == '\U{1680}'
    || ('\U{2000}' <= c <= '\U{200A}')
    || c == '\U{2028}' || c == '\U{2029}' || c == '\U{202F}' || c == '\U{205F}'
    || c == '\U{3000}' || c == '\U{FEFF}'
  }

  /** The characters Python's `str.isspace` accepts, which `str.strip` and
      `str.rstrip` remove by default. Unlike JavaScript this includes the
      information separators U+001C..U+001F and U+0085, but not U+FEFF. */
  predicate IsPySpace(c: char) {
    || c == '\t' || c == '\n' || c == '\U{B}' || c == '\U{C}' || c == '\r'
    || ('\U{1C}' <= c <= '\U{1F}')
    || c == ' ' || c == '\U{85}' || c == '\U{A0}' || c == '\U{1680}'
    || ('\U{2000}' <= c <= '\U{200A}')
    || c == '\U{2028}' || c == '\U{2029}' || c == '\U{202F}' || c == '\U{205F}'
    || c == '\U{3000}'
  }

  /** ASCII letters and digits; Python's `str.isalnum` restricted to ASCII. */
  predicate IsAsciiAlnum(c: char) {
    ('a' <= c <= 'z') || ('A' <= c <= 'Z') || ('0' <= c <= '9')
  }

  predicate IsDigit(c: char) {
    '0' <= c <= '9'
  }

  /** Neither end of `s` is a character of the class `space`. */
  predicate Trimmed(s: string, space: char -> bool) {
    s == [] || (!space(s[0]) && !space(s[|s| - 1]))
  }

  /** `s` without its leading run of `space` characters. */
  function TrimStart(s: string, space: char -> bool): (r: string)
    ensures |r| <= |s| && r == s[|s| - |r|..]
    ensures forall k :: 0 <= k < |s| - |r| ==> space(s[k])
    ensures r == [] || !space(r[0])
  {
    if s != [] && space(s[0]) then TrimStart(s[1..], space) else s
  }

  /** `s` without its trailing run of `space` characters. */
  function TrimEnd(s: string, space: char -> bool): (r: string)
    ensures |r| <= |s| && r == s[..|r|]
    ensures forall k :: |r| <= k < |s| ==> space(s[k])
    ensures r == [] || !space(r[|r| - 1])
  {
    if s != [] && space(s[|s| - 1]) then TrimEnd(s[..|s| - 1], space) else s
  }

  /** `r` occurs in `s` starting at index `i`. */
  predicate InfixAt(r: string, s: string, i: int) {
    0 <= i <= |s| - |r| && r == s[i..i + |r|]
  }

  /** `r` is a contiguous piece of `s`. */
  ghost predicate IsInfix(r: string, s: string) {
    exists i :: InfixAt(r, s, i)
  }

  /** Both runs removed: a piece of `s` with neither end in the class. */
  function Trim(s: string, space: char -> bool): (r: string)
    ensures Trimmed(r, space)
    ensures IsInfix(r, s)
  {
    var t := TrimStart(s, space);
    var r := TrimEnd(t, space);
    assert InfixAt(r, s, |s| - |t|);
    r
  }

  /** Neither end of `s` is JavaScript whitespace. */
  predicate JsTrimmed(s: string) {
    s == [] || (!IsJsSpace(s[0]) && !IsJsSpace(s[|s| - 1]))
  }

  /** Neither end of `s` is Python whitespace. */
  predicate PyTrimmed(s: string) {
    s == [] || (!IsPySpace(s[0]) && !IsPySpace(s[|s| - 1]))
  }

  /** JavaScript `str.trim()`. */
  function JsTrim(s: string): (r: string)
    ensures JsTrimmed(r)
    ensures IsInfix(r, s)
  {
    Trim(s, IsJsSpace)
  }

  /** Python `s.strip()`. */
  function PyStrip(s: string): (r: string)
    ensures PyTrimmed(r)
    ensures IsInfix(r, s)
  {
    Trim(s, IsPySpace)
  }

  /** Python `s.rstrip()`. */
  function PyRStrip(s: string): (r: string)
    ensures r == [] || !IsPySpace(r[|r| - 1])
  {
    TrimEnd(s, IsPySpace)
  }

  /** Trimming a string that is already trimmed changes nothing, so a second
      `strip()` on a cleaned value is a no-op. */
  lemma JsTrimOfTrimmed(s: string)
    requires JsTrimmed(s)
    ensures JsTrim(s) == s
  {
  }

  /** One space on either side of a trimmed, non-empty string is removed and
      nothing else is. */
  lemma JsTrimSpaced(t: string)
    requires JsTrimmed(t) && t != []
    ensures JsTrim(" " + t) == t
    ensures JsTrim(t + " ") == t
  {
    assert (" " + t)[1..] == t;
    assert (t + " ")[..|t|] == t;
  }

  lemma PyStripOfStripped(s: string)
    requires PyTrimmed(s)
    ensures PyStrip(s) == s
  {
  }

  /** Python `s.removeprefix(p)`; also JavaScript's
      `if (s.startsWith(p)) s = s.substring(p.length)`. */
  function RemovePrefix(s: string, p: string): (r: string)
    ensures StartsWith(s, p) ==> p + r == s
    ensures !StartsWith(s, p) ==> r == s
  {
    if StartsWith(s, p) then s[|p|..] else s
  }

  /** Python `s.removesuffix(p)`; also JavaScript's
      `if (s.endsWith(p)) s = s.substring(0, s.length - p.length)`. */
  function RemoveSuffix(s: string, p: string): (r: string)
    ensures EndsWith(s, p) ==> r + p == s
    ensures !EndsWith(s, p) ==> r == s
  {
    if EndsWith(s, p) then s[..|s| - |p|] else s
  }

  /** `a` sorts strictly before `b` when both are compared character by
      character by code point, a proper prefix first: the order of Python's
      `<` on `str`. */
  predicate LexLess(a: string, b: string) {
    |b| > 0 && (|a| == 0 || a[0] < b[0] || (a[0] == b[0] && LexLess(a[1..], b[1..])))
  }

  lemma {:induction false} LexLessIrreflexive(a: string)
    ensures !LexLess(a, a)
  {
    if |a| > 0 {
      LexLessIrreflexive(a[1..]);
    }
  }

  lemma {:induction false} LexLessTransitive(a: string, b: string, c: string)
    requires LexLess(a, b) && LexLess(b, c)
    ensures LexLess(a, c)
  {
    if |a| > 0 && a[0] == b[0] && b[0] == c[0] {
      LexLessTransitive(a[1..], b[1..], c[1..]);
    }
  }

  lemma {:induction false} LexLessTotal(a: string, b: string)
    requires a != b
    ensures LexLess(a, b) || LexLess(b, a)
  {
    if |a| > 0 && |b| > 0 && a[0] == b[0] {
      assert a[1..] != b[1..] by {
        assert a == [a[0]] + a[1..] && b == [b[0]] + b[1..];
      }
      LexLessTotal(a[1..], b[1..]);
    }
  }

  lemma {:induction false} LexLessAsymmetric(a: string, b: string)
    requires LexLess(a, b)
    ensures !LexLess(b, a)
  {
    if LexLess(b, a) {
      LexLessTransitive(a, b, a);
      LexLessIrreflexive(a);
    }
  }
}
